=== FILE: README.md ===
# FinTracker bookkeeping core in Dafny

FinTracker is a personal finance tracker. It records income and expense
transactions, each with a category and a payment mode, and keeps a table of
user-defined categories. This project models the bookkeeping that surrounds
its database calls and its React rendering, and proves properties of it:

- **Input validation.** The zod schemas for transaction and category
  payloads are modelled as functions that list every violated rule
  (`Schemas`).
- **Category store.** Create, update and delete run over an abstract store:
  a map from id to category record, plus the sequence of transactions that
  refer to categories by id. The `{success, error}` envelope is modelled,
  and so are storage faults (`CategoryActions`).
- **Category codes.** The kebab-case ⇄ database-enum tables of the server
  and the seed (`CategoryCodes`).
- **Server reads.**
  - `TransactionActions` covers the row mapping of `getTransactions`, the
    monthly series of `getMonthlyStats` and the expense breakdown of
    `getCategoryStats`.
  - `Grouping` is the find-or-push group-by that these reads share with the
    category chart.
- **Client aggregation.**
  - The category pie (`CategoryChart`) and the per-payment-mode cards
    (`PaymentModeChart`).
  - The dashboard cards (`Dashboard`).
  - The transaction list order (`TransactionList`).
  - The filter bar and footer of the transactions page (`TransactionsPage`).
- **Reports.** The spreadsheet grid and its helpers (`Export`), and the
  report preview (`ReportDialog`).
- **Forms.**
  - The category-by-name matcher (`CategoryMatch`).
  - The add form (`TransactionForm`) and the edit dialog (`EditDialog`).
  - The category management dialog (`CategoryDialog`).

Modelling choices:

- Amounts are exact `real`s, so sums and "percentages add up to 100" hold
  exactly.
- A date is a `(year, month, day)` triple compared day by day.
- Strings are `seq<char>`, and upper- and lower-casing are ASCII-only.
- An absent optional string field of a transaction (payment mode, category
  id, category label) is `""`. Every consumer treats an absent value and
  `""` alike.
- Each sort is one generic stable insertion sort (`Seqs.SortBy`) taking a
  "may precede" comparator. JavaScript's `Array.prototype.sort` is stable.
- These are parameters of the model:
  - the clock (today and the current week);
  - the storage layer's fresh ids and thrown errors;
  - the payment-mode label table;
  - number parsing;
  - the date and amount texts of the edit dialog.

## Model

| member | source | states |
|---|---|---|
| Schemas.TxnIssues | lib/schemas.ts:3-11 | A payload's issue list holds exactly the rules it breaks, and is empty exactly when all of these hold: the description is 1-255 characters; the amount is positive; the type is income or expense; a category id, if present, is non-empty; the date is non-empty; the payment mode is one of the four. |
| Schemas.CategoryIssues | lib/schemas.ts:15-20 | A category payload's issue list holds exactly the rules it breaks, and is empty exactly when all of these hold: name and label are 1-100 characters; the icon is absent, null or at most 10 characters; the type is income or expense. |
| Schemas.Check | lib/schemas.ts:4-10 | One rule contributes no issue when it holds, and exactly its own issue when it fails. |
| Schemas.Messages | app/actions/categories.ts:71 | The messages of a rejection, one per violated rule, in rule order. |
| Schemas.LengthAndSignBoundaries | lib/schemas.ts:4-18 | Rejected: a 256-character or empty description (the empty one reports "Description is required" first); an amount of 0 or -50; a 101-character name; an 11-character icon. Accepted: 255 characters and 100 characters. |
| Ledger.ParseType | lib/schemas.ts:6 | Exactly "income" and "expense" name a type, and the name read is the type's own. |
| Ledger.ParseMode | lib/schemas.ts:10 | A raw mode string names a mode exactly when it is one of the four keys. |
| Ledger.OfType | components/dashboard.tsx:55-61 | The type filter keeps exactly the transactions of that type, in their order. |
| Ledger.TotalOfPermutation | components/transactions-page.tsx:180-185 | A type's total does not depend on the order of the list. |
| Ledger.NewestFirstIsTotalPreorder | components/transaction-list.tsx:38-49 | The date-desc/id-desc comparator is total and transitive, so sorting by it is well defined. |
| Ledger.OldestFirstIsTotalPreorder | lib/export-utils.ts:17-23 | The oldest-first comparator is total and transitive. |
| Text.UpperIdempotent | components/category-management-dialog.tsx:229 | Upper-casing twice gives the same string as upper-casing once. |
| Text.NatToStringRoundTrip | app/actions/categories.ts:152 | The decimal text of a count reads back as that count. |
| CategoryActions.NormalizeIcon | app/actions/categories.ts:89 | The stored icon is the given icon when it has a non-whitespace character, and `""` when the icon is absent or blank. It is never missing. |
| CategoryActions.CountUses | app/actions/categories.ts:147-149 | The reference count is the number of transactions whose category id is the category's, so it is zero exactly when none refers to it. |
| CategoryActions.RecordOf | app/actions/categories.ts:84-91 | The stored record carries the payload's name, label and type, with the normalised icon. |
| CategoryActions.CreateCategory | app/actions/categories.ts:68-99 | The failures, in order: the joined validation messages; a lookup fault; "Category with this name already exists" for an exactly equal name; a write fault. Each leaves the store unchanged. Success happens exactly when none applies, and then only the new record is added under the fresh id. |
| CategoryActions.UpdateCategory | app/actions/categories.ts:104-139 | Failures leave the store unchanged: validation; a name held by a different id; a storage fault; a missing id. Success happens exactly when none applies, and then only that record is overwritten. |
| CategoryActions.DeleteCategory | app/actions/categories.ts:144-165 | With N > 0 referencing transactions, the delete fails with the in-use message carrying N. A fault or a missing id also fails. Every failure changes nothing. On success exactly that id is removed, and every other record and every transaction stays as it was. |
| CategoryActions.CreatePreservesConsistency | app/actions/categories.ts:76-91 | From a store whose records are filed under their ids, have distinct names and are all referenced correctly, any create keeps all three properties. |
| CategoryActions.UpdatePreservesConsistency | app/actions/categories.ts:112-131 | Any update keeps names pairwise distinct and the store consistent. |
| CategoryActions.DeletePreservesConsistency | app/actions/categories.ts:147-160 | No delete leaves a transaction pointing at a removed category. |
| CategoryActions.UpdateOwnNameAllowed | app/actions/categories.ts:112-117 | Keeping its own name is never a conflict for the record being updated. |
| CategoryActions.UpdateOtherNameRejected | app/actions/categories.ts:119-121 | Taking a different record's name fails with the duplicate message and writes nothing. |
| CategoryActions.InUseMessageCarriesCount | app/actions/categories.ts:152 | The in-use message is the fixed prefix, then the decimal count (read back as N), then the suffix. |
| CategoryActions.TypeThenLabelIsTotalPreorder | app/actions/categories.ts:22-25 | Ordering by type and then by label is total and transitive. |
| CategoryActions.ByLabelIsTotalPreorder | app/actions/categories.ts:41 | Ordering by label is total and transitive. |
| CategoryActions.Records | app/actions/categories.ts:21 | Reading the table yields each record once. |
| CategoryActions.GetCategories | app/actions/categories.ts:19-32 | All categories, as many as the store holds and each with a distinct id when records sit under their own ids, ordered by type (income first) and then by label. |
| CategoryActions.OfKind | app/actions/categories.ts:40 | Exactly the records of the requested type, in their order. |
| CategoryActions.GetCategoriesByType | app/actions/categories.ts:37-48 | Exactly the categories of one type, each once (distinct ids when records sit under their own ids), ordered by label. |
| CategoryCodes.PrismaNamesAreTheImage | app/actions/transactions.ts:8-28 | The sixteen enum names are exactly the values of the kebab-to-enum table. |
| CategoryCodes.ToPrisma | app/actions/transactions.ts:8-28 | Every category's database name is one of the sixteen enum names. |
| CategoryCodes.KebabName | app/actions/transactions.ts:8-28 | Every category's kebab name is non-empty, and the seed's table sends it to the same enum name as the server's. |
| CategoryCodes.FromPrisma | app/actions/transactions.ts:31-51 | A known enum name maps back to the category written under it. Any other string maps to other-expense (inherited object keys aside, see below). |
| CategoryCodes.PrismaRoundTrip | app/actions/transactions.ts:8-51 | Reading back a written category gives that category. |
| CategoryCodes.ToPrismaInjective | app/actions/transactions.ts:8-28 | No two categories share an enum name. |
| CategoryCodes.SeedToPrisma | prisma/seed.ts:42-64 | The seed table yields one of the sixteen enum names for every string it is modelled on (inherited object keys aside, see below). |
| CategoryCodes.SeedAgreesWithServer | prisma/seed.ts:43-61 | On the sixteen current names, the seed table agrees with the server's. |
| CategoryCodes.SeedLegacyAndFallback | prisma/seed.ts:56-63 | "transport" becomes gas and "utilities" becomes electricity. Any other unknown name becomes otherExpense (inherited object keys aside, see below). |
| CategoryCodes.SeedOutputRecognised | prisma/seed.ts:42-64 | Whatever the seed writes, the server reads back as a real category, never as the fallback. |
| TransactionActions.ToClient | app/actions/transactions.ts:64-71 | A row's id, description, amount, type and date carry over. Its category is the kebab name of the category its enum name denotes, so a row stored under a category's enum name reads back as that category's kebab name. The fields the mapping omits are empty. |
| TransactionActions.ReadTransactions | app/actions/transactions.ts:56-71 | One client record per row, in query order. |
| TransactionActions.ReadKeepsOrderAndCategory | app/actions/transactions.ts:58-71 | Newest-first rows stay newest first after mapping. A row written with a category reads back as that category. |
| TransactionActions.AddFlow | app/actions/transactions.ts:141-146 | An income row adds its amount to the bucket's income and leaves its expenses; every other row adds to the expenses and leaves the income. |
| TransactionActions.BucketsHoldMonthTotals | app/actions/transactions.ts:131-147 | There is a bucket exactly for each month that occurs. A month's income is the sum of its income rows, and its expenses are the sum of all its other rows. |
| TransactionActions.Buckets | app/actions/transactions.ts:131-147 | The month buckets have distinct keys, and there is a bucket exactly for each month some row falls in. |
| TransactionActions.MonthIndexInvertsShortMonth | app/actions/transactions.ts:152-158 | Parsing the short month label of month m gives m back. |
| TransactionActions.MonthlyStats | app/actions/transactions.ts:122-169 | Six points, or one per month bucket when there are fewer than six, with month-of-year non-decreasing (the year is ignored). |
| TransactionActions.MonthlyStatsKeepsLatest | app/actions/transactions.ts:156-162 | Six points are kept (all when there are fewer), and they are the latest by month-of-year: a dropped point is never later in the year than a kept one. |
| TransactionActions.RecentBuckets | app/actions/transactions.ts:156-162 | The corrected selection: exactly six buckets, or all of them when there are six or fewer, strictly oldest to newest by year and month. Every dropped bucket is older than every kept one. |
| TransactionActions.MonthlyStatsChronological | app/actions/transactions.ts:150-162 | The corrected series: six points (fewer only when fewer months occur), one per recent bucket, in chronological order. |
| TransactionActions.YearBoundaryAsWritten | app/actions/transactions.ts:156-162 | As written, December 2025 (20 spent) and January 2026 (10 spent) come out January first. |
| TransactionActions.YearBoundaryCorrected | app/actions/transactions.ts:156-162 | The corrected series puts December 2025 before January 2026. |
| TransactionActions.ExpenseRows | app/actions/transactions.ts:176-180 | The query keeps exactly the expense rows, in order. |
| TransactionActions.Stats | app/actions/transactions.ts:192-196 | One entry per group. Each entry's percentage is its amount over the total times 100 when the total is positive, else 0. |
| TransactionActions.CategoryStatsOnePerCategory | app/actions/transactions.ts:182-188 | One entry per distinct mapped category of the expense rows. There is no entry for a category without an expense. |
| TransactionActions.CategoryStats | app/actions/transactions.ts:174-201 | One entry per category group of the expense rows. |
| TransactionActions.CategoryStatsAmounts | app/actions/transactions.ts:184-196 | An entry's amount is the sum of its category's expense amounts. |
| TransactionActions.CategoryPercentagesSumTo100 | app/actions/transactions.ts:190-196 | With a positive total, the percentages add up to 100. |
| Grouping.AddToKeepsDistinct | app/actions/transactions.ts:182-188 | Find-or-push grouping never creates two groups with one key. |
| Grouping.GroupByTotal | components/category-chart.tsx:25-40 | The group values add up to the sum over all elements. |
| CategoryChart.Percentage | components/category-chart.tsx:45 | A percentage exists exactly when the total is non-zero, and it is then amount/total × 100. |
| CategoryChart.ChartData | components/category-chart.tsx:42-47 | The chart data is a permutation of the grouped slices. |
| CategoryChart.CategoryData | components/category-chart.tsx:21-39 | The expense groups have distinct categories, and there is a group exactly for each category some expense carries. |
| CategoryChart.Slices | components/category-chart.tsx:41-45 | One slice per group, in order, with the group's category and amount and the percentage of the total. |
| CategoryChart.ChartDataLargestFirst | components/category-chart.tsx:47 | Slice amounts never increase down the list. |
| CategoryChart.ChartOnePerCategory | components/category-chart.tsx:22-40 | The slices have distinct categories. There is a slice for a category exactly when some expense is filed under it. |
| CategoryChart.SliceAmountIsCategorySum | components/category-chart.tsx:25-40 | A slice's amount is the sum of its category's expense amounts. |
| CategoryChart.ChartSumsToTotalExpenses | components/category-chart.tsx:23-40 | The slice amounts add up to the expense total. |
| CategoryChart.ChartPercentagesSumTo100 | components/category-chart.tsx:45 | With a non-zero expense total, every slice has a percentage and the percentages add up to 100. |
| CategoryChart.PositiveAmountsDefinePercentages | components/category-chart.tsx:23-45 | With positive amounts, a non-empty chart has a positive total, so its percentages are defined. |
| PaymentModeChart.StatOf | components/payment-mode-chart.tsx:28-38 | A card's income and expenses are the sums of its own mode's income and expense transactions (a missing mode counting as cash). Its balance is income − expenses. Each percentage is the share of its type's grand total, or 0 when that total is 0. |
| PaymentModeChart.InModeMembers | components/payment-mode-chart.tsx:29-34 | A mode's filter keeps exactly the transactions of that type whose effective mode is that mode. |
| PaymentModeChart.MissingModeIsCash | components/payment-mode-chart.tsx:30-33 | A transaction without a mode counts under cash and under no other mode. |
| PaymentModeChart.ModeStatsShape | components/payment-mode-chart.tsx:28-39 | At most four cards. Each active mode has exactly one card, idle modes have none, and the cards follow the label-key order. |
| PaymentModeChart.ModeStats | components/payment-mode-chart.tsx:28-39 | At most four cards, and the shown cards are exactly the active ones among the four modes' cards. |
| PaymentModeChart.OneCardPerMode | components/payment-mode-chart.tsx:28 | Before the filter, every mode has its card and every card is its mode's. |
| PaymentModeChart.DroppedModesAreEmpty | components/payment-mode-chart.tsx:39 | With non-negative amounts, a dropped mode had zero income and zero expenses. |
| PaymentModeChart.ModesShareOutTotal | components/payment-mode-chart.tsx:21-34 | When every effective mode is one of the four, the per-mode amounts of a type add up to that type's total. |
| PaymentModeChart.CardsAddUpToTotals | components/payment-mode-chart.tsx:21-39 | When every mode is one of the four and no amount is negative, the shown cards' incomes add up to the income total, and their expenses to the expense total. |
| PaymentModeChart.IncomeSharesAddUp | components/payment-mode-chart.tsx:36-39 | When every mode is one of the four, no amount is negative and income is present, the shown cards' income percentages add up to 100. |
| Dashboard.Summarize | components/dashboard.tsx:55-64 | The income and expense totals are the sums of each type's amounts over all transactions. Balance is income − expenses. The savings rate is 0 without income, and otherwise the balance as a percentage of income. |
| Dashboard.SavingsRateBounds | components/dashboard.tsx:64 | With non-negative amounts, the savings rate is at most 100. With positive income, it is negative exactly when expenses exceed income. |
| Dashboard.SummaryIgnoresOrder | components/dashboard.tsx:55-64 | The cards do not depend on the order of the transactions. |
| Dashboard.ViewsAgree | components/dashboard.tsx:59-61 | The pie's slices add up to the dashboard's expense total. When every mode is one of the four and no amount is negative, the payment-mode cards add up to both totals. |
| TransactionList.SortedTransactions | components/transaction-list.tsx:38 | The shown list is a permutation of the input. |
| TransactionList.NewestFirstOrder | components/transaction-list.tsx:39-48 | Dates never increase down the list. On one date, ids run from larger to smaller. |
| TransactionList.SortingIsStable | components/transaction-list.tsx:38-49 | A list already in order is shown as it is. Sorting twice equals sorting once. |
| TransactionsPage.FilterTransactions | components/transactions-page.tsx:149-167 | The filtered list is an order-preserving subsequence. It holds exactly the transactions that pass the type, category, mode and date clauses. |
| TransactionsPage.SortedView | components/transactions-page.tsx:170-177 | The shown list is a permutation of the filtered one, in the transaction list's order. |
| TransactionsPage.CustomRangeWindow | components/transactions-page.tsx:160-163 | A custom range with a start keeps the dates from the start on, and up to the end when there is one. Without a start there is no date restriction. |
| TransactionsPage.FooterOf | components/transactions-page.tsx:186 | The net total is income − expense. |
| TransactionsPage.FooterCountsFiltered | components/transactions-page.tsx:180-186 | The footer totals are the totals of the filtered transactions. |
| TransactionsPage.InactiveFiltersShowAll | components/transactions-page.tsx:188-192 | With no active filter, every loaded transaction is shown, whatever the date range holds. |
| TransactionsPage.ActiveIffNotDefault | components/transactions-page.tsx:188-192 | The filter bar is active exactly when a filter other than the date range differs from its default; the defaults are inactive. |
| TransactionsPage.SetType | components/transactions-page.tsx:249-254 | A new type tab resets the category filter to "all" and keeps the other filters. |
| TransactionsPage.SetDatePreset | components/transactions-page.tsx:196-202 | The range survives only a switch to the custom preset. The other filters are kept. |
| TransactionsPage.ClearAll | components/transactions-page.tsx:194 | Clearing restores every default: all types, categories and modes, the "all" preset and no date range, so no filter is active. |
| TransactionsPage.TransitionEffects | components/transactions-page.tsx:194-254 | After clearing, everything is shown. After picking a type, only that type is shown, together with every transaction of it that passes the remaining filters. |
| TransactionsPage.ActivityOfSetters | components/transactions-page.tsx:188-202 | A date range alone never changes whether filters are active. Choosing a category, a payment mode or the custom preset makes them active. |
| TransactionsPage.SetCategory | components/transactions-page.tsx:268 | The category select sets the category and changes no other filter. |
| TransactionsPage.SetPaymentMode | components/transactions-page.tsx:288 | The payment-mode select sets the mode and changes no other filter. |
| TransactionsPage.SetDateRange | components/transactions-page.tsx:331 | The calendar sets the date range and changes no other filter. |
| TransactionsPage.CategoryOptions | components/transactions-page.tsx:143-146 | The category options are all categories for "all", and otherwise exactly those of the chosen type, in order. |
| Export.SortChronologically | lib/export-utils.ts:17-23 | The sorted copy is a permutation of its argument. |
| Export.ChronologicalOrder | lib/export-utils.ts:18-22 | Dates never decrease down the sorted copy. |
| Export.ModeCell | lib/export-utils.ts:30 | The mode cell is the mode's label whenever the table holds a non-empty one, and the raw mode otherwise. |
| Export.ToExportRow | lib/export-utils.ts:25-33 | The category cell is the label when non-empty, else the raw category. The mode cell follows the label table. The other fields carry over. |
| Export.ReadRowExport | lib/export-utils.ts:25-33 | A transaction read by `getTransactions` exports the kebab name of its stored category, never an empty category cell, and an empty mode cell when the label table has no entry for an absent mode; date, description and amount carry over. |
| Export.EarliestDate | lib/export-utils.ts:37-38 | The minimum is some transaction's date and is no later than any of them. |
| Export.LatestDate | lib/export-utils.ts:37-39 | The maximum is some transaction's date and is no earlier than any of them. |
| Export.DateRangeText | lib/export-utils.ts:35-44 | "No transactions" appears exactly for an empty list. |
| Export.DateRangeTextMeaning | lib/export-utils.ts:35-44 | A single date appears exactly when all dates are equal. Otherwise both ends are present dates, the first strictly before the last, and every date lies between them. |
| Export.RangeMatchesSortedEnds | lib/export-utils.ts:35-44 | The period runs from the first to the last row of the chronological sort. |
| Export.DataRows | lib/export-utils.ts:218-221 | One data row per transaction, in order. |
| Export.Section | lib/export-utils.ts:215-224 | An empty section adds nothing. Otherwise it adds n + 4 rows. |
| Export.Grid | lib/export-utils.ts:207-245 | The spreadsheet grid has at least five rows: it opens with the title, shows the period in its third row and ends with the net total's magnitude. |
| Export.SectionContents | lib/export-utils.ts:215-224 | A section is its label, the column header, one row per transaction, the subtotal row and a blank row. |
| Export.GridLayout | lib/export-utils.ts:207-245 | The grid has 5 + (ni > 0 ? ni + 4 : 0) + (ne > 0 ? ne + 4 : 0) rows. The period is the third row. The last row shows `|netTotal|`, never a negative value. |
| Export.GridSections | lib/export-utils.ts:207-236 | The income section follows the four preamble rows, and the expense section follows it. |
| Export.SplitIsByType | lib/export-utils.ts:203-204 | Each block holds exactly its type's transactions, oldest first. |
| ReportDialog.ListOf | components/transaction-report-dialog.tsx:49-69 | A list is a permutation of its type's transactions. |
| ReportDialog.FilterIsOfType | components/transaction-report-dialog.tsx:51-52 | The dialog's filter and the ledger's type filter agree. |
| ReportDialog.ListsMatchExport | components/transaction-report-dialog.tsx:49-69 | The preview lists equal the spreadsheet's blocks: exactly the type's transactions, oldest first. |
| ReportDialog.Period | components/transaction-report-dialog.tsx:30-39 | The period is "No transactions" exactly for an empty list. |
| ReportDialog.SectionsShownIffPresent | components/transaction-report-dialog.tsx:103 | A section is shown exactly when a transaction of its type exists. |
| CategoryMatch.FindByName | components/transaction-form.tsx:90-92 | A match is a loaded category whose name equals the wanted one, exactly or ignoring case. |
| CategoryMatch.FindByNameIsFirst | components/edit-transaction-dialog.tsx:69-71 | Nothing is found exactly when no category matches. Otherwise the match is the first at the lowest position. |
| CategoryMatch.CaseDoesNotMatter | components/transaction-form.tsx:91 | Names equal up to case find the same category. |
| TransactionForm.Reset | components/transaction-form.tsx:70-78 | Every field comes from the initial values, and the first-load flag is raised again. |
| TransactionForm.Loaded | components/transaction-form.tsx:97-106 | The first load keeps the selected category and lowers the flag. Any later load clears the selection. |
| TransactionForm.OnlyFirstLoadKeepsCategory | components/transaction-form.tsx:97-111 | After a reset, one load keeps the initial category. Any second load clears it. |
| TransactionForm.MatcherOnlyFillsEmpty | components/transaction-form.tsx:88-95 | The matcher never overwrites a selection and does nothing without a name or categories. With both and no selection, it selects the first matching category whenever one matches, and otherwise changes nothing. |
| TransactionForm.MatchByName | components/transaction-form.tsx:88-95 | The matcher keeps the loaded categories, the flag and the type, and leaves a form with a selected category unchanged. |
| TransactionForm.SetType | components/transaction-form.tsx:135-153 | Either type button clears the category. It keeps the text fields, the payment mode, the loaded list and the first-load flag. |
| TransactionForm.SelectedName | components/transaction-form.tsx:121-122 | The submitted name belongs to a loaded category with the selected id. It is `""` when none has that id. |
| TransactionForm.Submit | components/transaction-form.tsx:113-123 | A submission happens exactly when description, amount, category and date are all non-empty. It carries the form's own description, amount, date, payment mode, type and category id, and the selected category's name. |
| TransactionForm.SwitchType | components/transaction-form.tsx:88-153 | A type click followed by the matcher effect on the pre-switch list. The type is set. Without `matchCategoryByName` the category stays empty. Otherwise it is empty or the id of an old-list category whose name matches. |
| TransactionForm.SwitchingTypeBlocksSubmit | components/transaction-form.tsx:88-153 | Without `matchCategoryByName`, nothing can be submitted after a type switch until a category is chosen again. |
| TransactionForm.SwitchWindowKeepsOldCategory | components/transaction-form.tsx:88-153 | With `matchCategoryByName` and a matching category in the old list, the switch selects the first such category. Until the new list arrives, a filled-in form submits the new type with that old category. |
| TransactionForm.ReloadAfterSwitch | components/transaction-form.tsx:88-106 | After the first load, the new type's load clears the refilled category. The matcher then selects nothing or one of the new type's categories. |
| EditDialog.FromTxn | components/edit-transaction-dialog.tsx:49-55 | The dialog opens with the transaction's type, description, category id and the given texts. |
| EditDialog.UneditedSubmitKeepsTxn | components/edit-transaction-dialog.tsx:49-115 | Saving a dialog opened on a transaction with a category, without edits, sends exactly when description and both texts are non-empty, and then carries the transaction's description, type and category id; the matcher never replaces that category. |
| EditDialog.MatcherOnlyFillsEmpty | components/edit-transaction-dialog.tsx:67-76 | The matcher never overwrites a selection. When it acts, it picks the first matching category, and it changes nothing when none matches. |
| EditDialog.MatchByName | components/edit-transaction-dialog.tsx:67-76 | The matcher keeps the loaded categories and the type, and leaves a dialog with a selected category unchanged. |
| EditDialog.SetType | components/edit-transaction-dialog.tsx:148-168 | Toggling the type clears the category. It keeps the text fields and the loaded list. |
| EditDialog.Submit | components/edit-transaction-dialog.tsx:99-115 | The update is sent exactly when all four fields are non-empty. It carries the form fields, the selected id and the category "other-expense", with no payment mode. |
| EditDialog.PayloadAgainstSchema | components/edit-transaction-dialog.tsx:108-115 | Checked against the transaction schema, the payload always lacks the payment mode. Its type and category id always pass. |
| EditDialog.Loaded | components/edit-transaction-dialog.tsx:89-97 | A load replaces the list and keeps the category and every other field. |
| EditDialog.SwitchType | components/edit-transaction-dialog.tsx:67-168 | A type click followed by the matcher effect on the pre-switch list. The type is set, and the category is empty or the id of an old-list category matching the transaction's name. |
| EditDialog.SwitchRestoresOldCategory | components/edit-transaction-dialog.tsx:67-168 | As written, a switch restores the first old-list category matching the transaction's name, and the new type's load keeps it. A filled-in dialog then sends the new type with that old category. |
| EditDialog.SwitchToIncomeAsWritten | components/edit-transaction-dialog.tsx:67-153 | An expense under FOOD switched to income sends type "income" with FOOD's id. |
| EditDialog.SwitchTypeCorrected | components/edit-transaction-dialog.tsx:150-168 | The corrected click sets the type and empties both the category and the loaded list. |
| EditDialog.SwitchingTypeBlocksSubmit | components/edit-transaction-dialog.tsx:67-168 | With the corrected click, no update is sent after the matcher effect until a category is chosen. Once the new type's list arrives, the matcher selects nothing or one of the new type's categories. |
| CategoryDialog.ResetForm | components/category-management-dialog.tsx:80-88 | Reset restores the empty form with type expense, and stops editing. |
| CategoryDialog.FindById | components/category-management-dialog.tsx:91 | The record found has the requested id. Nothing is found when no record has it. |
| CategoryDialog.HandleEdit | components/category-management-dialog.tsx:90-100 | Whenever a loaded record has the id, editing copies the first such record into the form (a missing icon as `""`) and marks it as edited. An unknown id changes nothing. |
| CategoryDialog.TypeName | components/category-management-dialog.tsx:228-229 | The name input stores the typed text upper-cased. Label, icon, type, editing state and loaded list are kept. |
| CategoryDialog.RetypingIsStable | components/category-management-dialog.tsx:229 | Typing the stored name again changes nothing. |
| CategoryDialog.TypedNameRule | components/category-management-dialog.tsx:115-119 | Typed text passes the name rule exactly when it is non-empty and holds only ASCII letters, digits and hyphens. A passing name is already upper-case. |
| CategoryDialog.ClientCheck | components/category-management-dialog.tsx:109-119 | A save reaches the server exactly when name and label are non-empty and the name matches `^[A-Z0-9-]+$`. A missing field is reported before a bad name. |
| CategoryDialog.InputOf | components/category-management-dialog.tsx:124-127 | The server receives the form's name, label, icon and a valid type. |
| CategoryDialog.SubmitAsWritten | components/category-management-dialog.tsx:106-131 | A failed client check changes nothing and shows an error. Otherwise the success toast and the reset follow whatever the server answered. |
| CategoryDialog.DuplicateReportedAsCreated | components/category-management-dialog.tsx:123-130 | As written, saving a duplicate name shows "Category created successfully!" and clears the form, although the store is unchanged. The corrected submit shows the server's error. |
| CategoryDialog.Submit | components/category-management-dialog.tsx:106-131 | Corrected: a client-check failure behaves as written. |
| CategoryDialog.SubmitReportsOutcome | components/category-management-dialog.tsx:121-131 | Corrected: a success toast appears exactly when the server accepted. A rejection keeps the form and store and shows the server's reason. On acceptance both versions agree. |
| CategoryDialog.DeleteAsWritten | components/category-management-dialog.tsx:145-152 | As written, every delete of a chosen category shows the success toast. |
| CategoryDialog.Delete | components/category-management-dialog.tsx:145-161 | Corrected: the toast follows the server's answer. |
| CategoryDialog.DeleteReportsOutcome | components/category-management-dialog.tsx:145-161 | Corrected: success is shown exactly when the server removed the category, and a refusal shows its message. |
| CategoryDialog.InUseReportedAsDeleted | components/category-management-dialog.tsx:150-151 | As written, deleting a category one transaction uses reports success while the category stays. The corrected delete reports the in-use message. |
| CategoryDialog.PartitionIsExact | components/category-management-dialog.tsx:163-164 | Every loaded category appears in exactly one of the income and expense lists, and the two lists together are as long as the whole. |

## Left out

- `createTransaction`, `deleteTransaction` and `getCategory` are plain storage passthroughs with nothing to prove. `updateTransaction`, which the edit dialog calls, is not part of this model. Neither is the server-side resolution of a category id into a category name.
- Prisma client construction and connection handling, the seed's database writes, and `revalidatePath` are side effects with no logic to prove.
- `getTransactions`, `getMonthlyStats` and `getCategoryStats` turn a storage failure into a thrown error. The model reads a given row sequence and leaves that failure path out.
- Concurrency: each server action is atomic. The check-then-write races in create, update and delete are not modelled.
- Each of the following is a parameter or a plain value, because its output is formatting with nothing to prove: floating-point arithmetic and the `formatCurrency`, `toFixed`, `toLocaleString`, `toString` and `parseFloat` conversions; the date texts of date-fns.
- Time zones: dates are calendar days. `new Date(...)` parsing and UTC/local shifts are not modelled.
- The "today" and "this week" presets read the clock. They are a `Clock` parameter holding today's date and the week's bounds.
- TransactionList.NewestFirstOrder: `localeCompare` on ids is modelled as code-unit order, because locale collation is outside the model.
- Text.Lower, Text.Upper: ASCII-only case mapping. Unicode case folding is outside the model.
- Schemas.TxnIssues: lengths count characters, where zod counts UTF-16 code units.
- Export.ModeCell: the payment-mode label table is a parameter, because lib/types.ts as shown does not declare `paymentModeLabels`.
- PaymentModeChart.ModeStatsShape: the four modes are taken in `cash, gcash, bdo_savings, cbs_checking` order, which assumes the label table declares its keys in the order of the schema's enum.
- TransactionActions.MonthlyStats: requires every row's month to be 1-12, which every real date meets. The current year in which the labels are parsed is not a parameter: it is the same for every label, so it cannot change the order.
- CategoryActions.GetCategories: the database's enum order for `type` is assumed to be income before expense, because the database schema is not part of this model. Labels are ordered by code unit, where PostgreSQL orders them by the column's collation (under a typical en_US collation "apple" precedes "Banana"; by code unit "Banana" comes first), because collation rules are outside the model. The thrown "Failed to fetch categories" error on a storage failure is not modelled: the read always succeeds.
- CategoryActions.GetCategoriesByType: labels are ordered by code unit rather than by the database collation, and the thrown "Failed to fetch categories" error is not modelled, for the same reasons as for `getCategories`.
- CategoryCodes.FromPrisma, CategoryCodes.SeedToPrisma, CategoryCodes.SeedLegacyAndFallback: the plain-object lookups `categoryMap[category] || …` would return an inherited `Object.prototype` member for keys such as "constructor", "toString" or "__proto__", which are truthy, so the fallback would not apply. Inherited keys are not modelled, because such strings never come from the enum column or the fixed seed data.
- CategoryActions.UpdateCategory, CategoryActions.DeleteCategory: the storage engine's texts for a missing record are fixed constants. Their wording is the engine's, not the application's.
- CategoryChart.ChartData: the slice's display `name` (a lookup in the label table) is not modelled. A division by a zero total is `None`, where the source shows the text "NaN" or "Infinity".
- The JSX, the toasts' rendering, the loading flags and the reload after each action are presentation.
- A failed category load changes nothing in both forms and has no separate member.
- TransactionForm.ReloadAfterSwitch: says nothing about a switch made before the first load completes. That load keeps the category, so the outcome depends on how the pending load and the click interleave, and the model has no scheduler.
- EditDialog.FromTxn: the reset when the transaction changes gives the same state as opening, so it has no separate member.
- The spread copies before sorting: every sort in the model is a pure function, so an input is never reordered.
- PDF drawing, workbook serialisation, file names and downloads in lib/export-utils.ts are left out. Only the row grid built before the spreadsheet call is modelled.

## Findings

| source | as written | input that shows it | evidently intended | confidence | as-written member | corrected member |
|---|---|---|---|---|---|---|
| app/actions/transactions.ts:156-162 | The monthly sort parses each short month name in the current year, so it orders by month of year and ignores the year. | An expense of 20 on 2025-12-15 and one of 10 on 2026-01-10 give `[Jan, Dec]`. | Chronological order over the six latest months: `[Dec, Jan]`. | not executed | TransactionActions.YearBoundaryAsWritten | TransactionActions.YearBoundaryCorrected |
| components/category-management-dialog.tsx:123-130 | The save awaits `createCategory`/`updateCategory` but never reads the `{success, error}` result. A rejected save therefore shows the success toast and resets the form. | Creating the name FOOD while a category FOOD exists. | Show the server's error and keep the form. | not executed | CategoryDialog.DuplicateReportedAsCreated | CategoryDialog.SubmitReportsOutcome |
| components/edit-transaction-dialog.tsx:67-168 | The type click clears `categoryId`. The matcher effect depends on `categoryId`, so it re-runs at once with the old type's list and puts the old category back. The later load never clears it. | An expense "Lunch" under FOOD (id c1) with transaction category "food", switched to Income: the update carries type "income" and category id c1. | After a switch, no update until a category of the new type is chosen (for example, by clearing the loaded list with the category). | not executed | EditDialog.SwitchToIncomeAsWritten | EditDialog.SwitchingTypeBlocksSubmit |
| components/category-management-dialog.tsx:150-151 | The delete awaits `deleteCategory` but never reads the result. A refused delete therefore shows "Category deleted successfully!". | Deleting a category one transaction still refers to. | Show the in-use message; the category stays. | not executed | CategoryDialog.InUseReportedAsDeleted | CategoryDialog.DeleteReportsOutcome |

=== FILE: category_actions.dfy ===
/** The category server actions of app/actions/categories.ts over an abstract
    store: the category table as a map from id to record, and the
    transaction table as a sequence whose rows carry a `categoryId`. Each
    action is atomic; what the storage layer would throw is a parameter. */
module CategoryActions {
  import opened Common
  import opened Ledger
  import Schemas
  import Text
  import Seqs

  datatype Store = Store(categories: map<string, Category>, txns: seq<Txn>)

  /** What the storage layer throws during one action, if anything: on the
      lookup (`findUnique`, `findFirst`, `count`) or on the write (`create`,
      `update`, `delete`). */
  datatype Faults = Faults(onLookup: Option<Exception>, onWrite: Option<Exception>)

  const NoFaults := Faults(None, None)

  /** The envelope an action returns together with the store it leaves. */
  datatype Outcome<T> = Outcome(result: ActionResult<T>, store: Store)

  const DuplicateName := "Category with this name already exists"
  const CreateFallback := "Failed to create category"
  const UpdateFallback := "Failed to update category"
  const DeleteFallback := "Failed to delete category"
  /** The storage engine's error text for an update or delete of a missing
      record (its wording belongs to the engine, not to this application). */
  const UpdateMissing := "Record to update not found."
  const DeleteMissing := "Record to delete does not exist."

  // -------------------------------------------------------------------
  // Store invariants

  /** Every record is filed under its own id. */
  ghost predicate WellKeyed(s: Store) {
    forall k :: k in s.categories ==> s.categories[k].id == k
  }

  /** No two categories share a name. */
  ghost predicate NamesDistinct(s: Store) {
    forall a, b :: a in s.categories && b in s.categories && a != b
      ==> s.categories[a].name != s.categories[b].name
  }

  /** Every transaction refers to an existing category. */
  ghost predicate ReferencesResolve(s: Store) {
    forall i :: 0 <= i < |s.txns| ==> s.txns[i].categoryId in s.categories
  }

  ghost predicate Consistent(s: Store) {
    WellKeyed(s) && NamesDistinct(s) && ReferencesResolve(s)
  }

  // -------------------------------------------------------------------
  // Helpers of the write actions

  /** `data.icon && data.icon.trim() !== '' ? data.icon : ''`. */
  function NormalizeIcon(icon: Option<string>): (r: string)
    ensures icon.Some? && !Text.IsBlank(icon.value) ==> r == icon.value
    ensures icon.None? || Text.IsBlank(icon.value) ==> r == ""
  {
    if icon.Some? && icon.value != "" && !Text.IsBlank(icon.value) then icon.value else ""
  }

  /** `findUnique({ where: { name } })` finds a record. */
  predicate NameTaken(s: Store, name: string) {
    exists k :: k in s.categories && s.categories[k].name == name
  }

  /** `findFirst({ where: { name, NOT: { id } } })` finds a record. */
  predicate NameTakenByOther(s: Store, name: string, id: string) {
    exists k :: k in s.categories && k != id && s.categories[k].name == name
  }

  /** The record a validated payload describes. */
  function RecordOf(id: string, input: Schemas.CategoryInput): (c: Category)
    ensures c.id == id && c.name == input.name && c.labelText == input.labelText
    ensures c.icon == Some(NormalizeIcon(input.icon))
    ensures input.kind == "income" ==> c.kind == Income
    ensures input.kind == "expense" ==> c.kind == Expense
  {
    Category(id, input.name, input.labelText, Some(NormalizeIcon(input.icon)),
             if input.kind == "income" then Income else Expense)
  }

  /** How many transactions refer to category `id` (`transaction.count`). */
  function CountUses(txns: seq<Txn>, id: string): (n: nat)
    ensures n <= |txns|
    ensures n == |Seqs.Filter(txns, (t: Txn) => t.categoryId == id)|
    ensures n == 0 <==> forall i :: 0 <= i < |txns| ==> txns[i].categoryId != id
  {
    if |txns| == 0 then 0
    else (if txns[0].categoryId == id then 1 else 0) + CountUses(txns[1..], id)
  }

  function InUseMessage(count: nat): string {
    "Cannot delete category: it is used in " + Text.NatToString(count) + " transaction(s)"
  }

  // -------------------------------------------------------------------
  // The actions

  /** `createCategory`: validate, reject a taken name, insert under the id
      the storage layer generates (`newId`, fresh by construction). */
  function CreateCategory(s: Store, input: Schemas.CategoryInput, newId: string, faults: Faults): (o: Outcome<string>)
    requires newId !in s.categories
    ensures o.result.Failed? ==> o.store == s
    ensures Schemas.CategoryIssues(input) != []
      ==> o.result == Failed(Schemas.IssuesText(Schemas.CategoryIssues(input)))
    ensures Schemas.CategoryIssues(input) == [] && faults.onLookup.Some?
      ==> o.result == Failed(ErrorText(faults.onLookup.value, CreateFallback))
    ensures Schemas.CategoryIssues(input) == [] && faults.onLookup.None? && NameTaken(s, input.name)
      ==> o.result == Failed(DuplicateName)
    ensures Schemas.CategoryIssues(input) == [] && faults.onLookup.None? && !NameTaken(s, input.name)
            && faults.onWrite.Some?
      ==> o.result == Failed(ErrorText(faults.onWrite.value, CreateFallback))
    ensures o.result.Ok? <==>
      Schemas.CategoryIssues(input) == [] && faults == NoFaults && !NameTaken(s, input.name)
    ensures o.result.Ok? ==>
      && o.result.data == newId
      && o.store.txns == s.txns
      && o.store.categories == s.categories[newId := RecordOf(newId, input)]
  {
    var issues := Schemas.CategoryIssues(input);
    if issues != [] then Outcome(Failed(Schemas.IssuesText(issues)), s)
    else if faults.onLookup.Some? then Outcome(Failed(ErrorText(faults.onLookup.value, CreateFallback)), s)
    else if NameTaken(s, input.name) then Outcome(Failed(DuplicateName), s)
    else if faults.onWrite.Some? then Outcome(Failed(ErrorText(faults.onWrite.value, CreateFallback)), s)
    else Outcome(Ok(newId), s.(categories := s.categories[newId := RecordOf(newId, input)]))
  }

  /** `updateCategory`: validate, reject a name another record holds (its
      own name is allowed), overwrite name, label, type and icon. */
  function UpdateCategory(s: Store, id: string, input: Schemas.CategoryInput, faults: Faults): (o: Outcome<string>)
    ensures o.result.Failed? ==> o.store == s
    ensures Schemas.CategoryIssues(input) != []
      ==> o.result == Failed(Schemas.IssuesText(Schemas.CategoryIssues(input)))
    ensures Schemas.CategoryIssues(input) == [] && faults.onLookup.Some?
      ==> o.result == Failed(ErrorText(faults.onLookup.value, UpdateFallback))
    ensures Schemas.CategoryIssues(input) == [] && faults.onLookup.None? && NameTakenByOther(s, input.name, id)
      ==> o.result == Failed(DuplicateName)
    ensures Schemas.CategoryIssues(input) == [] && faults == NoFaults && !NameTakenByOther(s, input.name, id)
            && id !in s.categories
      ==> o.result == Failed(UpdateMissing)
    ensures o.result.Ok? <==>
      Schemas.CategoryIssues(input) == [] && faults == NoFaults
      && !NameTakenByOther(s, input.name, id) && id in s.categories
    ensures o.result.Ok? ==>
      && o.result.data == id
      && o.store.txns == s.txns
      && o.store.categories == s.categories[id := RecordOf(id, input)]
  {
    var issues := Schemas.CategoryIssues(input);
    if issues != [] then Outcome(Failed(Schemas.IssuesText(issues)), s)
    else if faults.onLookup.Some? then Outcome(Failed(ErrorText(faults.onLookup.value, UpdateFallback)), s)
    else if NameTakenByOther(s, input.name, id) then Outcome(Failed(DuplicateName), s)
    else if faults.onWrite.Some? then Outcome(Failed(ErrorText(faults.onWrite.value, UpdateFallback)), s)
    else if id !in s.categories then Outcome(Failed(UpdateMissing), s)
    else Outcome(Ok(id), s.(categories := s.categories[id := RecordOf(id, input)]))
  }

  /** `deleteCategory`: refuse while transactions refer to the category,
      otherwise remove it. */
  function DeleteCategory(s: Store, id: string, faults: Faults): (o: Outcome<()>)
    ensures o.result.Failed? ==> o.store == s
    ensures faults.onLookup.Some?
      ==> o.result == Failed(ErrorText(faults.onLookup.value, DeleteFallback))
    ensures faults.onLookup.None? && CountUses(s.txns, id) > 0
      ==> o.result == Failed(InUseMessage(CountUses(s.txns, id)))
    ensures faults == NoFaults && CountUses(s.txns, id) == 0 && id !in s.categories
      ==> o.result == Failed(DeleteMissing)
    ensures o.result.Ok? <==> faults == NoFaults && CountUses(s.txns, id) == 0 && id in s.categories
    ensures o.result.Ok? ==>
      && o.store.txns == s.txns
      && o.store.categories.Keys == s.categories.Keys - {id}
      && (forall k :: k in o.store.categories ==> o.store.categories[k] == s.categories[k])
  {
    if faults.onLookup.Some? then Outcome(Failed(ErrorText(faults.onLookup.value, DeleteFallback)), s)
    else
      var count := CountUses(s.txns, id);
      if count > 0 then Outcome(Failed(InUseMessage(count)), s)
      else if faults.onWrite.Some? then Outcome(Failed(ErrorText(faults.onWrite.value, DeleteFallback)), s)
      else if id !in s.categories then Outcome(Failed(DeleteMissing), s)
      else Outcome(Ok(()), s.(categories := s.categories - {id}))
  }

  // -------------------------------------------------------------------
  // The store invariants survive every action

  lemma CreatePreservesConsistency(s: Store, input: Schemas.CategoryInput, newId: string, faults: Faults)
    requires newId !in s.categories
    requires Consistent(s)
    ensures Consistent(CreateCategory(s, input, newId, faults).store)
  {
    var o := CreateCategory(s, input, newId, faults);
    if o.result.Ok? {
      var t := o.store;
      forall a, b | a in t.categories && b in t.categories && a != b
        ensures t.categories[a].name != t.categories[b].name
      {
        if a == newId {
          assert t.categories[b] == s.categories[b];
        } else if b == newId {
          assert t.categories[a] == s.categories[a];
        }
      }
    }
  }

  lemma UpdatePreservesConsistency(s: Store, id: string, input: Schemas.CategoryInput, faults: Faults)
    requires Consistent(s)
    ensures Consistent(UpdateCategory(s, id, input, faults).store)
  {
    var o := UpdateCategory(s, id, input, faults);
    if o.result.Ok? {
      var t := o.store;
      forall a, b | a in t.categories && b in t.categories && a != b
        ensures t.categories[a].name != t.categories[b].name
      {
        if a == id {
          assert t.categories[b] == s.categories[b];
        } else if b == id {
          assert t.categories[a] == s.categories[a];
        }
      }
    }
  }

  /** A delete never leaves a transaction pointing at a removed category. */
  lemma DeletePreservesConsistency(s: Store, id: string, faults: Faults)
    requires Consistent(s)
    ensures Consistent(DeleteCategory(s, id, faults).store)
  {
    var o := DeleteCategory(s, id, faults);
    if o.result.Ok? {
      forall i | 0 <= i < |o.store.txns|
        ensures o.store.txns[i].categoryId in o.store.categories
      {
        assert s.txns[i].categoryId != id;
      }
    }
  }

  /** Keeping its own name is never a conflict for the record being updated;
      taking another record's name always is. */
  lemma UpdateOwnNameAllowed(s: Store, id: string, input: Schemas.CategoryInput)
    requires Consistent(s)
    requires id in s.categories && s.categories[id].name == input.name
    requires Schemas.CategoryIssues(input) == []
    ensures UpdateCategory(s, id, input, NoFaults).result == Ok(id)
  {
    forall k | k in s.categories && k != id
      ensures s.categories[k].name != input.name
    {
      assert s.categories[id].name == input.name;
    }
  }

  lemma UpdateOtherNameRejected(s: Store, id: string, other: string, input: Schemas.CategoryInput, faults: Faults)
    requires other in s.categories && other != id && s.categories[other].name == input.name
    requires Schemas.CategoryIssues(input) == [] && faults.onLookup.None?
    ensures UpdateCategory(s, id, input, faults) == Outcome(Failed(DuplicateName), s)
  {
  }

  /** The in-use message carries the count, readable back as a number. */
  lemma InUseMessageCarriesCount(count: nat)
    ensures var m := InUseMessage(count);
      var prefix := "Cannot delete category: it is used in ";
      var digits := m[|prefix|..|m| - |" transaction(s)"|];
      m[..|prefix|] == prefix && Text.IsDigits(digits) && Text.DigitsValue(digits) == count
  {
    Text.NatToStringRoundTrip(count);
    var m := InUseMessage(count);
    var prefix := "Cannot delete category: it is used in ";
    assert m[|prefix|..|m| - |" transaction(s)"|] == Text.NatToString(count);
  }

  // -------------------------------------------------------------------
  // Reads

  /** `orderBy: [{ type: 'asc' }, { label: 'asc' }]`: income before expense
      (the enum's declaration order), then label. */
  predicate TypeThenLabel(a: Category, b: Category) {
    if a.kind != b.kind then a.kind == Income else Text.StrLe(a.labelText, b.labelText)
  }

  /** `orderBy: { label: 'asc' }`. */
  predicate ByLabel(a: Category, b: Category) {
    Text.StrLe(a.labelText, b.labelText)
  }

  lemma TypeThenLabelIsTotalPreorder()
    ensures Seqs.TotalPreorder(TypeThenLabel)
  {
    forall a, b
      ensures TypeThenLabel(a, b) || TypeThenLabel(b, a)
    {
      Text.StrLeTotal(a.labelText, b.labelText);
    }
    forall a, b, c | TypeThenLabel(a, b) && TypeThenLabel(b, c)
      ensures TypeThenLabel(a, c)
    {
      if a.kind == b.kind && b.kind == c.kind {
        Text.StrLeTransitive(a.labelText, b.labelText, c.labelText);
      }
    }
  }

  lemma ByLabelIsTotalPreorder()
    ensures Seqs.TotalPreorder(ByLabel)
  {
    forall a, b
      ensures ByLabel(a, b) || ByLabel(b, a)
    {
      Text.StrLeTotal(a.labelText, b.labelText);
    }
    forall a, b, c | ByLabel(a, b) && ByLabel(b, c)
      ensures ByLabel(a, c)
    {
      Text.StrLeTransitive(a.labelText, b.labelText, c.labelText);
    }
  }

  function IdOf(c: Category): string { c.id }

  /** The records of the store, one per id, in no particular order. */
  method Records(s: Store) returns (r: seq<Category>)
    ensures |r| == |s.categories|
    ensures forall c :: c in r <==> c in s.categories.Values
    ensures WellKeyed(s) ==> Seqs.DistinctBy(r, IdOf)
  {
    var pending := s.categories.Keys;
    r := [];
    while pending != {}
      invariant pending <= s.categories.Keys
      invariant |r| + |pending| == |s.categories|
      invariant forall c :: c in r <==>
        exists k :: k in s.categories.Keys - pending && s.categories[k] == c
      invariant WellKeyed(s) ==> forall i :: 0 <= i < |r| ==> r[i].id !in pending
      invariant WellKeyed(s) ==> Seqs.DistinctBy(r, IdOf)
      decreases |pending|
    {
      var k :| k in pending;
      r := r + [s.categories[k]];
      pending := pending - {k};
    }
  }

  /** `getCategories`: every category, by type and then label. */
  method GetCategories(s: Store) returns (r: seq<Category>)
    ensures |r| == |s.categories|
    ensures forall c :: c in r <==> c in s.categories.Values
    ensures Seqs.SortedBy(r, TypeThenLabel)
    ensures WellKeyed(s) ==> Seqs.DistinctBy(r, IdOf)
  {
    var records := Records(s);
    r := Seqs.SortBy(records, TypeThenLabel);
    TypeThenLabelIsTotalPreorder();
    Seqs.SortBySorted(records, TypeThenLabel);
    assert forall c :: c in r <==> c in multiset(records);
    if WellKeyed(s) {
      Seqs.SubmultisetKeepsDistinct(records, r, IdOf);
    }
  }

  /** The records of type `kind`, in the order given. */
  function OfKind(cs: seq<Category>, kind: TxnType): (r: seq<Category>)
    ensures forall c :: c in r <==> c in cs && c.kind == kind
    ensures Seqs.IsSubseq(r, cs)
    ensures multiset(r) <= multiset(cs)
  {
    assert |cs| > 0 ==> cs == [cs[0]] + cs[1..];
    if |cs| == 0 then []
    else if cs[0].kind == kind then [cs[0]] + OfKind(cs[1..], kind)
    else OfKind(cs[1..], kind)
  }

  /** `getCategoriesByType`: the categories of one type, by label. */
  method GetCategoriesByType(s: Store, kind: TxnType) returns (r: seq<Category>)
    ensures forall c :: c in r <==> c in s.categories.Values && c.kind == kind
    ensures Seqs.SortedBy(r, ByLabel)
    ensures WellKeyed(s) ==> Seqs.DistinctBy(r, IdOf)
  {
    var records := Records(s);
    var matching := OfKind(records, kind);
    r := Seqs.SortBy(matching, ByLabel);
    ByLabelIsTotalPreorder();
    Seqs.SortBySorted(matching, ByLabel);
    assert forall c :: c in r <==> c in multiset(matching);
    if WellKeyed(s) {
      Seqs.SubmultisetKeepsDistinct(records, matching, IdOf);
      Seqs.SubmultisetKeepsDistinct(matching, r, IdOf);
    }
  }
}

=== FILE: category_chart.dfy ===
/** The expense breakdown of components/category-chart.tsx: the expense
    transactions grouped by their `category` string in first-seen order,
    each group's share of all expenses, then sorted largest first. */
module CategoryChart {
  import opened Common
  import opened Ledger
  import Seqs
  import Grouping

  function CategoryOf(t: Txn): string { t.category }

  function AddExpense(x: real, t: Txn): real { x + t.amount }

  /** The `reduce` of lines 25-40: one group per category string. */
  function CategoryData(ts: seq<Txn>): (r: seq<Grouping.Entry<string, real>>)
    ensures Grouping.KeysDistinct(r)
    ensures forall c :: c in Grouping.Keys(r) <==> Grouping.Occurs(OfType(ts, Expense), CategoryOf, c)
  {
    Grouping.GroupBy(OfType(ts, Expense), CategoryOf, 0.0, AddExpense)
  }

  /** One slice of the pie. The percentage is `None` where the division by
      a zero total yields `NaN` or an infinity. */
  datatype Slice = Slice(category: string, amount: real, percentage: Option<real>)

  function Percentage(amount: real, total: real): (r: Option<real>)
    ensures r.Some? <==> total != 0.0
    ensures r.Some? ==> r.value * total == amount * 100.0
  {
    if total == 0.0 then None else Some(amount / total * 100.0)
  }

  function Slices(groups: seq<Grouping.Entry<string, real>>, total: real): (r: seq<Slice>)
    ensures |r| == |groups|
    ensures forall i :: 0 <= i < |groups| ==>
      r[i].category == groups[i].key && r[i].amount == groups[i].value
      && r[i].percentage == Percentage(groups[i].value, total)
  {
    if |groups| == 0 then []
    else [Slice(groups[0].key, groups[0].value, Percentage(groups[0].value, total))] + Slices(groups[1..], total)
  }

  /** `(a, b) => b.amount - a.amount`: the larger amount first. */
  predicate LargerFirst(a: Slice, b: Slice) {
    b.amount <= a.amount
  }

  lemma LargerFirstIsTotalPreorder()
    ensures Seqs.TotalPreorder(LargerFirst)
  {
  }

  /** `chartData`: the slices, largest amount first. */
  function ChartData(ts: seq<Txn>): (r: seq<Slice>)
    ensures |r| == |CategoryData(ts)|
    ensures multiset(r) == multiset(Slices(CategoryData(ts), TotalOf(ts, Expense)))
  {
    Seqs.SortBy(Slices(CategoryData(ts), TotalOf(ts, Expense)), LargerFirst)
  }

  /** The slices run from the largest amount to the smallest. */
  lemma ChartDataLargestFirst(ts: seq<Txn>)
    ensures var r := ChartData(ts);
      forall i, j :: 0 <= i < j < |r| ==> r[j].amount <= r[i].amount
  {
    LargerFirstIsTotalPreorder();
    Seqs.SortBySorted(Slices(CategoryData(ts), TotalOf(ts, Expense)), LargerFirst);
    var r := ChartData(ts);
    forall i, j | 0 <= i < j < |r|
      ensures r[j].amount <= r[i].amount
    {
      assert LargerFirst(r[i], r[j]);
    }
  }

  function SliceCategory(s: Slice): string { s.category }
  function SliceAmount(s: Slice): real { s.amount }

  /** `t` is an expense filed under `c`. */
  predicate ExpenseIn(ts: seq<Txn>, c: string) {
    exists j :: 0 <= j < |ts| && ts[j].kind == Expense && ts[j].category == c
  }

  predicate HasSlice(r: seq<Slice>, c: string) {
    exists i :: 0 <= i < |r| && r[i].category == c
  }

  /** Only expenses count, and each category with an expense gets exactly one
      slice. */
  lemma ChartOnePerCategory(ts: seq<Txn>)
    ensures Seqs.DistinctBy(ChartData(ts), SliceCategory)
    ensures forall c :: HasSlice(ChartData(ts), c) <==> ExpenseIn(ts, c)
  {
    var groups := CategoryData(ts);
    var slices := Slices(groups, TotalOf(ts, Expense));
    var r := ChartData(ts);
    SlicesDistinct(groups, TotalOf(ts, Expense));
    Seqs.SubmultisetKeepsDistinct(slices, r, SliceCategory);
    forall c
      ensures HasSlice(r, c) <==> ExpenseIn(ts, c)
    {
      KeyIsExpenseCategory(ts, c);
      SliceIffKey(groups, TotalOf(ts, Expense), r, c);
    }
  }

  /** Groups with distinct keys give slices with distinct categories. */
  lemma SlicesDistinct(groups: seq<Grouping.Entry<string, real>>, total: real)
    requires Grouping.KeysDistinct(groups)
    ensures Seqs.DistinctBy(Slices(groups, total), SliceCategory)
  {
    var slices := Slices(groups, total);
    forall i, j | 0 <= i < j < |slices|
      ensures SliceCategory(slices[i]) != SliceCategory(slices[j])
    {
      assert groups[i].key != groups[j].key;
    }
  }

  /** Any reordering of the slices has a slice for `c` exactly when `c` is a
      group key. */
  lemma SliceIffKey(groups: seq<Grouping.Entry<string, real>>, total: real, r: seq<Slice>, c: string)
    requires multiset(r) == multiset(Slices(groups, total))
    ensures HasSlice(r, c) <==> c in Grouping.Keys(groups)
  {
    var slices := Slices(groups, total);
    if HasSlice(r, c) {
      var i :| 0 <= i < |r| && r[i].category == c;
      assert r[i] in multiset(slices);
      var k :| 0 <= k < |slices| && slices[k] == r[i];
      assert Grouping.Keys(groups)[k] == c;
    }
    if c in Grouping.Keys(groups) {
      var k :| 0 <= k < |groups| && Grouping.Keys(groups)[k] == c;
      assert slices[k] in multiset(r);
      var i :| 0 <= i < |r| && r[i] == slices[k];
      assert r[i].category == c;
    }
  }

  lemma KeyIsExpenseCategory(ts: seq<Txn>, c: string)
    ensures c in Grouping.Keys(CategoryData(ts)) <==> ExpenseIn(ts, c)
  {
    var e := OfType(ts, Expense);
    var g := Grouping.GroupBy(e, CategoryOf, 0.0, AddExpense);
    assert g == CategoryData(ts);
    assert c in Grouping.Keys(g) <==> Grouping.Occurs(e, CategoryOf, c);
    if ExpenseIn(ts, c) {
      ExpenseInOfType(ts, c);
    }
    if Grouping.Occurs(e, CategoryOf, c) {
      var k :| 0 <= k < |e| && CategoryOf(e[k]) == c;
      OfTypeHoldsExpense(ts, k);
    }
  }

  lemma ExpenseInOfType(ts: seq<Txn>, c: string)
    requires ExpenseIn(ts, c)
    ensures Grouping.Occurs(OfType(ts, Expense), CategoryOf, c)
  {
    var e := OfType(ts, Expense);
    var j :| 0 <= j < |ts| && ts[j].kind == Expense && ts[j].category == c;
    assert ts[j] in e;
    var k :| 0 <= k < |e| && e[k] == ts[j];
    assert CategoryOf(e[k]) == c;
  }

  lemma OfTypeHoldsExpense(ts: seq<Txn>, k: nat)
    requires k < |OfType(ts, Expense)|
    ensures ExpenseIn(ts, OfType(ts, Expense)[k].category)
  {
    var e := OfType(ts, Expense);
    assert e[k] in ts;
    var j :| 0 <= j < |ts| && ts[j] == e[k];
    assert ts[j].kind == Expense;
  }

  /** A slice's amount is the sum of its category's expense amounts, and its
      percentage is that amount's share of all expenses. */
  lemma SliceAmountIsCategorySum(ts: seq<Txn>, i: nat)
    requires i < |ChartData(ts)|
    ensures var s := ChartData(ts)[i];
      && s.amount == Sum(Grouping.Matching(OfType(ts, Expense), CategoryOf, s.category))
      && s.percentage == Percentage(s.amount, TotalOf(ts, Expense))
  {
    var groups := CategoryData(ts);
    var slices := Slices(groups, TotalOf(ts, Expense));
    var r := ChartData(ts);
    assert r[i] in multiset(slices);
    var k :| 0 <= k < |slices| && slices[k] == r[i];
    Grouping.GroupBySums(OfType(ts, Expense), CategoryOf, AddExpense, Amount, groups[k].key);
    Grouping.ValueOfDistinct(groups, k, 0.0);
  }

  lemma {:induction false} SlicesSumToTotal(groups: seq<Grouping.Entry<string, real>>, total: real)
    ensures Seqs.SumBy(Slices(groups, total), SliceAmount) == Grouping.Total(groups)
  {
    if |groups| > 0 {
      SlicesSumToTotal(groups[1..], total);
      assert Slices(groups, total)[1..] == Slices(groups[1..], total);
    }
  }

  /** The slice amounts add up to `totalExpenses`. */
  lemma ChartSumsToTotalExpenses(ts: seq<Txn>)
    ensures Seqs.SumBy(ChartData(ts), SliceAmount) == TotalOf(ts, Expense)
  {
    var groups := CategoryData(ts);
    var slices := Slices(groups, TotalOf(ts, Expense));
    Seqs.SumByPermutation(ChartData(ts), slices, SliceAmount);
    SlicesSumToTotal(groups, TotalOf(ts, Expense));
    Grouping.GroupByTotal(OfType(ts, Expense), CategoryOf, AddExpense, Amount);
  }

  function SlicePercent(s: Slice): real {
    if s.percentage.Some? then s.percentage.value else 0.0
  }

  lemma {:induction false} SlicePercentsAddUp(groups: seq<Grouping.Entry<string, real>>, total: real)
    requires total != 0.0
    ensures Seqs.SumBy(Slices(groups, total), SlicePercent) == Grouping.Total(groups) / total * 100.0
  {
    if |groups| > 0 {
      SlicePercentsAddUp(groups[1..], total);
      assert Slices(groups, total)[1..] == Slices(groups[1..], total);
      var a, rest := groups[0].value, Grouping.Total(groups[1..]);
      assert a / total * 100.0 + rest / total * 100.0 == (a + rest) / total * 100.0;
    }
  }

  /** With a non-zero expense total every slice has a percentage and the
      percentages add up to 100. */
  lemma ChartPercentagesSumTo100(ts: seq<Txn>)
    requires TotalOf(ts, Expense) != 0.0
    ensures forall i :: 0 <= i < |ChartData(ts)| ==> ChartData(ts)[i].percentage.Some?
    ensures Seqs.SumBy(ChartData(ts), SlicePercent) == 100.0
  {
    var groups := CategoryData(ts);
    Grouping.GroupByTotal(OfType(ts, Expense), CategoryOf, AddExpense, Amount);
    assert Grouping.Total(groups) == TotalOf(ts, Expense);
    ReorderedPercents(groups, TotalOf(ts, Expense), ChartData(ts));
  }

  lemma ReorderedPercents(groups: seq<Grouping.Entry<string, real>>, total: real, r: seq<Slice>)
    requires total != 0.0 && Grouping.Total(groups) == total
    requires multiset(r) == multiset(Slices(groups, total))
    ensures forall i :: 0 <= i < |r| ==> r[i].percentage.Some?
    ensures Seqs.SumBy(r, SlicePercent) == 100.0
  {
    var slices := Slices(groups, total);
    PercentsSurviveReordering(slices, r);
    Seqs.SumByPermutation(r, slices, SlicePercent);
    SlicePercentsAddUp(groups, total);
    HundredPercent(total);
  }

  lemma PercentsSurviveReordering(slices: seq<Slice>, r: seq<Slice>)
    requires forall i :: 0 <= i < |slices| ==> slices[i].percentage.Some?
    requires multiset(r) == multiset(slices)
    ensures forall i :: 0 <= i < |r| ==> r[i].percentage.Some?
  {
    forall i | 0 <= i < |r|
      ensures r[i].percentage.Some?
    {
      assert r[i] in multiset(slices);
    }
  }

  lemma HundredPercent(t: real)
    requires t != 0.0
    ensures t / t * 100.0 == 100.0
  {
  }

  /** With positive expense amounts a non-empty chart has a positive total,
      so the percentages are defined and add up to 100. */
  lemma PositiveAmountsDefinePercentages(ts: seq<Txn>)
    requires forall i :: 0 <= i < |ts| ==> ts[i].amount > 0.0
    requires |ChartData(ts)| > 0
    ensures TotalOf(ts, Expense) > 0.0
  {
    var e := OfType(ts, Expense);
    var groups := CategoryData(ts);
    assert groups[0].key in Grouping.Keys(groups);
    assert Grouping.Occurs(e, CategoryOf, groups[0].key);
    forall i | 0 <= i < |e|
      ensures e[i].amount > 0.0
    {
      assert e[i] in ts;
    }
    PositiveSum(e);
  }

  lemma {:induction false} PositiveSum(ts: seq<Txn>)
    requires forall i :: 0 <= i < |ts| ==> ts[i].amount > 0.0
    requires |ts| > 0
    ensures Sum(ts) > 0.0
  {
    assert Sum(ts) == Amount(ts[0]) + Sum(ts[1..]);
    if |ts| > 1 {
      PositiveSum(ts[1..]);
    } else {
      assert ts[1..] == [];
    }
  }
}

=== FILE: category_codes.dfy ===
/** The fixed category vocabulary (lib/types.ts `Category`) and the three
    translation tables between its kebab-case names and the database enum's
    camelCase names: the two in app/actions/transactions.ts and the
    legacy-tolerant one in prisma/seed.ts. */
module CategoryCodes {

  /** The sixteen categories of lib/types.ts. */
  datatype Code =
    | Salary | Freelance | Investments | OtherIncome
    | Food | Gas | Repair | Electricity | Water | Internet | Phone | OtherUtilities
    | Entertainment | Shopping | Health | OtherExpense

  /** The kebab-case name the client uses. */
  function KebabName(c: Code): (r: string)
    ensures r != "" && SeedToPrisma(r) == ToPrisma(c)
  {
    match c
    case Salary => "salary"
    case Freelance => "freelance"
    case Investments => "investments"
    case OtherIncome => "other-income"
    case Food => "food"
    case Gas => "gas"
    case Repair => "repair"
    case Electricity => "electricity"
    case Water => "water"
    case Internet => "internet"
    case Phone => "phone"
    case OtherUtilities => "other-utilities"
    case Entertainment => "entertainment"
    case Shopping => "shopping"
    case Health => "health"
    case OtherExpense => "other-expense"
  }

  /** `mapCategoryToPrisma` of app/actions/transactions.ts: the database enum
      name of a category. */
  function ToPrisma(c: Code): (r: string)
    ensures r in PrismaNames
  {
    match c
    case Salary => "salary"
    case Freelance => "freelance"
    case Investments => "investments"
    case OtherIncome => "otherIncome"
    case Food => "food"
    case Gas => "gas"
    case Repair => "repair"
    case Electricity => "electricity"
    case Water => "water"
    case Internet => "internet"
    case Phone => "phone"
    case OtherUtilities => "otherUtilities"
    case Entertainment => "entertainment"
    case Shopping => "shopping"
    case Health => "health"
    case OtherExpense => "otherExpense"
  }

  /** The sixteen database enum names. */
  const PrismaNames: set<string> := {
    "salary", "freelance", "investments", "otherIncome",
    "food", "gas", "repair", "electricity", "water", "internet", "phone", "otherUtilities",
    "entertainment", "shopping", "health", "otherExpense"}

  /** Whether `s` is one of the sixteen database enum names. */
  predicate IsPrismaName(s: string) {
    s in PrismaNames
  }

  lemma PrismaNamesAreTheImage(s: string)
    ensures IsPrismaName(s) <==> exists c :: ToPrisma(c) == s
  {
    if IsPrismaName(s) {
      assert ToPrisma(FromPrisma(s)) == s;
    }
  }

  /** `mapCategoryFromPrisma`: the category of a database enum name; any
      other string falls back to `other-expense`. */
  function FromPrisma(s: string): (r: Code)
    ensures IsPrismaName(s) ==> ToPrisma(r) == s
    ensures !IsPrismaName(s) ==> r == OtherExpense
  {
    match s
    case "salary" => Salary
    case "freelance" => Freelance
    case "investments" => Investments
    case "otherIncome" => OtherIncome
    case "food" => Food
    case "gas" => Gas
    case "repair" => Repair
    case "electricity" => Electricity
    case "water" => Water
    case "internet" => Internet
    case "phone" => Phone
    case "otherUtilities" => OtherUtilities
    case "entertainment" => Entertainment
    case "shopping" => Shopping
    case "health" => Health
    case "otherExpense" => OtherExpense
    case _ => OtherExpense
  }

  /** Reading back what was written gives the category that was written. */
  lemma PrismaRoundTrip(c: Code)
    ensures FromPrisma(ToPrisma(c)) == c
  {
  }

  /** Hence `mapCategoryToPrisma` never sends two categories to one name. */
  lemma ToPrismaInjective(a: Code, b: Code)
    ensures ToPrisma(a) == ToPrisma(b) ==> a == b
  {
    PrismaRoundTrip(a);
    PrismaRoundTrip(b);
  }

  /** `mapCategoryToPrisma` of prisma/seed.ts: the current kebab-case names,
      plus the legacy `transport` (now `gas`) and `utilities` (now
      `electricity`); anything else becomes `otherExpense`. */
  function SeedToPrisma(s: string): (r: string)
    ensures IsPrismaName(r)
  {
    match s
    case "salary" => "salary"
    case "freelance" => "freelance"
    case "investments" => "investments"
    case "other-income" => "otherIncome"
    case "food" => "food"
    case "gas" => "gas"
    case "repair" => "repair"
    case "electricity" => "electricity"
    case "water" => "water"
    case "internet" => "internet"
    case "phone" => "phone"
    case "other-utilities" => "otherUtilities"
    case "transport" => "gas"
    case "utilities" => "electricity"
    case "entertainment" => "entertainment"
    case "shopping" => "shopping"
    case "health" => "health"
    case "other-expense" => "otherExpense"
    case _ => "otherExpense"
  }

  /** On the sixteen current names the seed table agrees with the server's. */
  lemma SeedAgreesWithServer(c: Code)
    ensures SeedToPrisma(KebabName(c)) == ToPrisma(c)
  {
  }

  /** The seed's legacy entries and its fallback. */
  lemma SeedLegacyAndFallback(s: string)
    ensures SeedToPrisma("transport") == ToPrisma(Gas)
    ensures SeedToPrisma("utilities") == ToPrisma(Electricity)
    ensures (forall c :: s != KebabName(c)) && s != "transport" && s != "utilities"
            ==> SeedToPrisma(s) == ToPrisma(OtherExpense)
  {
    if (forall c :: s != KebabName(c)) && s != "transport" && s != "utilities" {
      SeedFallback(s);
    }
  }

  /** A string that is no kebab name and no legacy name takes the fallback. */
  lemma SeedFallback(s: string)
    requires forall c :: s != KebabName(c)
    requires s != "transport" && s != "utilities"
    ensures SeedToPrisma(s) == "otherExpense"
  {
    assert s != KebabName(Salary) && s != KebabName(Freelance) && s != KebabName(Investments);
    assert s != KebabName(OtherIncome) && s != KebabName(Food) && s != KebabName(Gas);
    assert s != KebabName(Repair) && s != KebabName(Electricity) && s != KebabName(Water);
    assert s != KebabName(Internet) && s != KebabName(Phone) && s != KebabName(OtherUtilities);
    assert s != KebabName(Entertainment) && s != KebabName(Shopping) && s != KebabName(Health);
    assert s != KebabName(OtherExpense);
  }

  /** Whatever the seed writes is read back as a real category: the server's
      reverse table never needs its fallback for seeded rows. */
  lemma SeedOutputRecognised(s: string)
    ensures ToPrisma(FromPrisma(SeedToPrisma(s))) == SeedToPrisma(s)
  {
  }
}

=== FILE: category_dialog.dfy ===
/** The client side of components/category-management-dialog.tsx: the form
    (defaults, editing, the upper-casing name input), the client checks
    before a save, the income/expense partition of the list, and what a
    save or a delete shows and leaves behind. Reloading the list after an
    action and the toasts' rendering are not modelled; a toast is its text. */
module CategoryDialog {
  import opened Common
  import opened Ledger
  import Text
  import Seqs
  import Schemas
  import CategoryActions

  /** `formData`: the category fields without the id. */
  datatype FormData = FormData(name: string, labelText: string, icon: string, kind: TxnType)

  /** The defaults of lines 53-58 and of `resetForm`. */
  const EmptyForm: FormData := FormData("", "", "", Expense)

  datatype DialogState = DialogState(form: FormData, editingId: Option<string>, categories: seq<Category>)

  datatype Toast = Success(text: string) | Error(text: string)

  const MissingFields := "Please fill in required fields (Name and Label)"
  const BadNameFormat := "Name must be uppercase, alphanumeric, and can contain hyphens only"
  const Created := "Category created successfully!"
  const Updated := "Category updated successfully!"
  const Deleted := "Category deleted successfully!"

  // -------------------------------------------------------------------
  // The form

  /** `resetForm` and `handleCancelEdit`. */
  function ResetForm(s: DialogState): (r: DialogState)
    ensures r.form == EmptyForm && r.editingId.None? && r.categories == s.categories
  {
    s.(form := EmptyForm, editingId := None)
  }

  /** The first loaded category with id `id`. */
  function FindById(cats: seq<Category>, id: string): (r: Option<Category>)
    ensures r.Some? ==> r.value in cats && r.value.id == id
    ensures r.None? ==> forall i :: 0 <= i < |cats| ==> cats[i].id != id
  {
    if |cats| == 0 then None
    else if cats[0].id == id then Some(cats[0])
    else
      var r := FindById(cats[1..], id);
      assert r.None? ==> forall i :: 1 <= i < |cats| ==> cats[i].id != id by {
        if r.None? {
          forall i | 1 <= i < |cats|
            ensures cats[i].id != id
          {
            assert cats[i] == cats[1..][i - 1];
          }
        }
      }
      r
  }

  /** `handleEdit` (lines 90-100): copy the loaded record into the form, a
      missing icon as `""`; an unknown id changes nothing. */
  function HandleEdit(s: DialogState, id: string): (r: DialogState)
    ensures r.categories == s.categories
    ensures (forall i :: 0 <= i < |s.categories| ==> s.categories[i].id != id) ==> r == s
    ensures r != s ==> exists c :: (c in s.categories && c.id == id && r.editingId == Some(id)
      && r.form == FormData(c.name, c.labelText, if c.icon.Some? then c.icon.value else "", c.kind))
    ensures (exists i :: 0 <= i < |s.categories| && s.categories[i].id == id) ==>
      var c := FindById(s.categories, id).value;
      && c in s.categories && c.id == id && r.editingId == Some(id)
      && r.form == FormData(c.name, c.labelText, if c.icon.Some? then c.icon.value else "", c.kind)
  {
    match FindById(s.categories, id)
    case None => s
    case Some(c) =>
      s.(form := FormData(c.name, c.labelText, if c.icon.Some? then c.icon.value else "", c.kind),
         editingId := Some(c.id))
  }

  /** The name input (line 229) stores what is typed, upper-cased. */
  function TypeName(s: DialogState, typed: string): (r: DialogState)
    ensures r.form.name == Text.Upper(typed) && r.form.labelText == s.form.labelText
    ensures r.form.icon == s.form.icon && r.form.kind == s.form.kind
    ensures r.editingId == s.editingId && r.categories == s.categories
  {
    s.(form := s.form.(name := Text.Upper(typed)))
  }

  /** Typing the stored name again changes nothing. */
  lemma RetypingIsStable(s: DialogState, typed: string)
    ensures TypeName(TypeName(s, typed), TypeName(s, typed).form.name) == TypeName(s, typed)
  {
    Text.UpperIdempotent(typed);
  }

  /** `/^[A-Z0-9-]+$/`: at least one character, each an ASCII capital, a
      digit or a hyphen. */
  predicate NameCharOk(c: char) { Text.IsAsciiUpper(c) || Text.IsAsciiDigit(c) || c == '-' }

  predicate NameRuleOk(name: string) {
    |name| > 0 && forall i :: 0 <= i < |name| ==> NameCharOk(name[i])
  }

  /** What typing produces passes the name rule exactly when the typed text
      is non-empty and made of ASCII letters of either case, digits and
      hyphens; a name that passes is already upper-case. */
  lemma TypedNameRule(typed: string)
    ensures NameRuleOk(Text.Upper(typed)) <==>
      |typed| > 0 && forall i :: 0 <= i < |typed| ==>
        Text.IsAsciiUpper(typed[i]) || Text.IsAsciiLower(typed[i]) || Text.IsAsciiDigit(typed[i]) || typed[i] == '-'
    ensures NameRuleOk(typed) ==> Text.Upper(typed) == typed
  {
    var u := Text.Upper(typed);
    forall i | 0 <= i < |typed|
      ensures NameCharOk(u[i]) <==>
        Text.IsAsciiUpper(typed[i]) || Text.IsAsciiLower(typed[i]) || Text.IsAsciiDigit(typed[i]) || typed[i] == '-'
    {
      assert u[i] == Text.UpperChar(typed[i]);
    }
    if NameRuleOk(typed) {
      forall i | 0 <= i < |typed|
        ensures u[i] == typed[i]
      {
        assert !Text.IsAsciiLower(typed[i]);
      }
    }
  }

  /** The client checks of `handleSubmit`, in order. */
  datatype Check = MissingRequired | BadName | Passes

  function ClientCheck(f: FormData): (r: Check)
    ensures r == Passes <==> f.name != "" && f.labelText != "" && NameRuleOk(f.name)
    ensures r == MissingRequired <==> f.name == "" || f.labelText == ""
  {
    if f.name == "" || f.labelText == "" then MissingRequired
    else if !NameRuleOk(f.name) then BadName
    else Passes
  }

  /** The payload sent to the server: the form as it stands. */
  function InputOf(f: FormData): (r: Schemas.CategoryInput)
    ensures r.name == f.name && r.labelText == f.labelText && r.icon == Some(f.icon)
    ensures Schemas.TxnTypeOk(r.kind)
  {
    Schemas.CategoryInput(f.name, f.labelText, Some(f.icon), Ledger.TypeName(f.kind))
  }

  // -------------------------------------------------------------------
  // Saving

  /** What a save leaves behind: the dialog, the store and the toast. */
  datatype Saved = Saved(dialog: DialogState, store: CategoryActions.Store, toast: Toast)

  /** The server action a save calls: update while editing, else create
      under the storage layer's fresh id. */
  function ServerSave(s: DialogState, store: CategoryActions.Store, newId: string, faults: CategoryActions.Faults): (o: CategoryActions.Outcome<string>)
    requires newId !in store.categories
  {
    if s.editingId.Some? && s.editingId.value != "" then
      CategoryActions.UpdateCategory(store, s.editingId.value, InputOf(s.form), faults)
    else CategoryActions.CreateCategory(store, InputOf(s.form), newId, faults)
  }

  function SuccessText(s: DialogState): string {
    if s.editingId.Some? && s.editingId.value != "" then Updated else Created
  }

  /** `handleSubmit` as written (lines 106-131): the server's result is
      awaited but never read, so the success toast and the reset follow
      every call that does not throw, a rejected one included. */
  function SubmitAsWritten(s: DialogState, store: CategoryActions.Store, newId: string, faults: CategoryActions.Faults): (r: Saved)
    requires newId !in store.categories
    ensures ClientCheck(s.form) != Passes ==> r.store == store && r.dialog == s && r.toast.Error?
    ensures ClientCheck(s.form) == Passes ==>
      r.toast == Success(SuccessText(s)) && r.dialog == ResetForm(s)
      && r.store == ServerSave(s, store, newId, faults).store
  {
    match ClientCheck(s.form)
    case MissingRequired => Saved(s, store, Error(MissingFields))
    case BadName => Saved(s, store, Error(BadNameFormat))
    case Passes =>
      var o := ServerSave(s, store, newId, faults);
      Saved(ResetForm(s), o.store, Success(SuccessText(s)))
  }

  /** `handleSubmit` reading the `{success, error}` envelope: a rejected save
      shows the server's message and keeps the form for correction. */
  function Submit(s: DialogState, store: CategoryActions.Store, newId: string, faults: CategoryActions.Faults): (r: Saved)
    requires newId !in store.categories
    ensures ClientCheck(s.form) != Passes ==> r == SubmitAsWritten(s, store, newId, faults)
  {
    match ClientCheck(s.form)
    case MissingRequired => Saved(s, store, Error(MissingFields))
    case BadName => Saved(s, store, Error(BadNameFormat))
    case Passes =>
      var o := ServerSave(s, store, newId, faults);
      match o.result
      case Ok(_) => Saved(ResetForm(s), o.store, Success(SuccessText(s)))
      case Failed(e) => Saved(s, store, Error(e))
  }

  /** With the envelope read, a success toast appears exactly when the store
      took the change; a rejection leaves store and form as they were and
      shows the server's reason. Where the server accepts, both versions
      agree. */
  lemma SubmitReportsOutcome(s: DialogState, store: CategoryActions.Store, newId: string, faults: CategoryActions.Faults)
    requires newId !in store.categories
    ensures var r := Submit(s, store, newId, faults);
      var o := ServerSave(s, store, newId, faults);
      && (r.toast.Success? <==> ClientCheck(s.form) == Passes && o.result.Ok?)
      && (ClientCheck(s.form) == Passes && o.result.Failed? ==>
            r == Saved(s, store, Error(o.result.error)))
      && (ClientCheck(s.form) == Passes && o.result.Ok? ==>
            r == SubmitAsWritten(s, store, newId, faults))
  {
  }

  /** A store with one expense category named "FOOD". */
  function FoodStore(): CategoryActions.Store {
    CategoryActions.Store(map["c1" := Category("c1", "FOOD", "Food", Some(""), Expense)], [])
  }

  /** Adding a second "FOOD" as written: the server refuses the duplicate
      and writes nothing, yet the dialog reports a creation and clears the
      form; the checked version shows the refusal instead. */
  lemma DuplicateReportedAsCreated()
    ensures var s := DialogState(FormData("FOOD", "Food", "", Expense), None, []);
      var r := SubmitAsWritten(s, FoodStore(), "c2", CategoryActions.NoFaults);
      && ServerSave(s, FoodStore(), "c2", CategoryActions.NoFaults).result == Failed(CategoryActions.DuplicateName)
      && r.store == FoodStore()
      && r.toast == Success(Created)
      && r.dialog.form == EmptyForm
    ensures var s := DialogState(FormData("FOOD", "Food", "", Expense), None, []);
      Submit(s, FoodStore(), "c2", CategoryActions.NoFaults)
        == Saved(s, FoodStore(), Error(CategoryActions.DuplicateName))
  {
    var input := InputOf(FormData("FOOD", "Food", "", Expense));
    assert Schemas.CategoryIssues(input) == [];
    assert FoodStore().categories["c1"].name == "FOOD";
    assert CategoryActions.NameTaken(FoodStore(), input.name);
  }

  // -------------------------------------------------------------------
  // Deleting

  /** What a delete leaves behind; `None` when nothing was chosen. */
  datatype Removed = Removed(store: CategoryActions.Store, toast: Option<Toast>)

  /** `handleDeleteConfirm` as written (lines 145-152): the result is not
      read, so every call that does not throw is reported as a deletion. */
  function DeleteAsWritten(store: CategoryActions.Store, target: Option<string>, faults: CategoryActions.Faults): (r: Removed)
    ensures target.None? || target.value == "" ==> r == Removed(store, None)
    ensures target.Some? && target.value != "" ==> r.toast == Some(Success(Deleted))
  {
    if target.None? || target.value == "" then Removed(store, None)
    else
      var o := CategoryActions.DeleteCategory(store, target.value, faults);
      Removed(o.store, Some(Success(Deleted)))
  }

  /** `handleDeleteConfirm` reading the envelope. */
  function Delete(store: CategoryActions.Store, target: Option<string>, faults: CategoryActions.Faults): (r: Removed)
    ensures target.None? || target.value == "" ==> r == Removed(store, None)
  {
    if target.None? || target.value == "" then Removed(store, None)
    else
      var o := CategoryActions.DeleteCategory(store, target.value, faults);
      match o.result
      case Ok(_) => Removed(o.store, Some(Success(Deleted)))
      case Failed(e) => Removed(store, Some(Error(e)))
  }

  /** With the envelope read, "deleted" is shown exactly when the category
      left the store; a category still in use stays and the toast gives
      the number of transactions using it. */
  lemma DeleteReportsOutcome(store: CategoryActions.Store, id: string, faults: CategoryActions.Faults)
    requires id != ""
    ensures var r := Delete(store, Some(id), faults);
      && (r.toast == Some(Success(Deleted)) <==> CategoryActions.DeleteCategory(store, id, faults).result.Ok?)
      && (r.toast == Some(Success(Deleted)) ==> id !in r.store.categories)
      && (faults.onLookup.None? && CategoryActions.CountUses(store.txns, id) > 0 ==>
            r == Removed(store, Some(Error(CategoryActions.InUseMessage(CategoryActions.CountUses(store.txns, id))))))
  {
  }

  /** A store where "c1" is used by one transaction. */
  function UsedStore(): CategoryActions.Store {
    var t := Txn("t1", "Lunch", 10.0, Expense, "food", "c1", "Food", None, Date(2025, 1, 1), "cash");
    CategoryActions.Store(map["c1" := Category("c1", "FOOD", "Food", Some(""), Expense)], [t])
  }

  /** Deleting a category in use as written: the server refuses and keeps
      it, yet the dialog reports a deletion; the checked version shows the
      refusal. */
  lemma InUseReportedAsDeleted()
    ensures var r := DeleteAsWritten(UsedStore(), Some("c1"), CategoryActions.NoFaults);
      && "c1" in r.store.categories
      && r.toast == Some(Success(Deleted))
    ensures Delete(UsedStore(), Some("c1"), CategoryActions.NoFaults)
      == Removed(UsedStore(), Some(Error(CategoryActions.InUseMessage(1))))
  {
    assert CategoryActions.CountUses(UsedStore().txns, "c1") == 1 by {
      var ts := UsedStore().txns;
      assert ts[1..] == [];
    }
  }

  // -------------------------------------------------------------------
  // The list

  function IncomeCategories(cats: seq<Category>): seq<Category> {
    Seqs.Filter(cats, (c: Category) => c.kind == Income)
  }

  function ExpenseCategories(cats: seq<Category>): seq<Category> {
    Seqs.Filter(cats, (c: Category) => c.kind == Expense)
  }

  /** Lines 163-164 split the list: every category lands in exactly one of
      the two lists, and the two lists together are as long as the list. */
  lemma {:induction false} PartitionIsExact(cats: seq<Category>)
    ensures forall c :: c in cats ==> (c in IncomeCategories(cats) <==> c !in ExpenseCategories(cats))
    ensures forall c :: c in IncomeCategories(cats) || c in ExpenseCategories(cats) ==> c in cats
    ensures |IncomeCategories(cats)| + |ExpenseCategories(cats)| == |cats|
  {
    if |cats| > 0 {
      PartitionIsExact(cats[1..]);
      assert IncomeCategories(cats) == (if cats[0].kind == Income then [cats[0]] else []) + IncomeCategories(cats[1..]);
      assert ExpenseCategories(cats) == (if cats[0].kind == Expense then [cats[0]] else []) + ExpenseCategories(cats[1..]);
    }
  }
}

=== FILE: category_match.dfy ===
/** The category-by-name matcher shared by components/transaction-form.tsx
    and components/edit-transaction-dialog.tsx: the first loaded category
    whose name equals the wanted one, exactly or ignoring case. */
module CategoryMatch {
  import opened Common
  import opened Ledger
  import Text

  /** `cat.name === name || cat.name.toLowerCase() === name.toLowerCase()`. */
  predicate NameMatches(c: Category, name: string) {
    c.name == name || Text.Lower(c.name) == Text.Lower(name)
  }

  /** `categories.find(...)`. */
  function FindByName(cats: seq<Category>, name: string): (r: Option<Category>)
    ensures r.Some? ==> r.value in cats && NameMatches(r.value, name)
  {
    if |cats| == 0 then None
    else if NameMatches(cats[0], name) then Some(cats[0])
    else FindByName(cats[1..], name)
  }

  /** The matcher finds nothing exactly when no category matches, and
      otherwise the match at the lowest position. */
  lemma {:induction false} FindByNameIsFirst(cats: seq<Category>, name: string)
    ensures FindByName(cats, name).None? <==> forall i :: 0 <= i < |cats| ==> !NameMatches(cats[i], name)
    ensures FindByName(cats, name).Some? ==>
      exists i :: 0 <= i < |cats| && cats[i] == FindByName(cats, name).value
        && forall j :: 0 <= j < i ==> !NameMatches(cats[j], name)
  {
    if |cats| > 0 && !NameMatches(cats[0], name) {
      FindByNameIsFirst(cats[1..], name);
      if FindByName(cats, name).Some? {
        var i :| 0 <= i < |cats[1..]| && cats[1..][i] == FindByName(cats, name).value
          && forall j :: 0 <= j < i ==> !NameMatches(cats[1..][j], name);
        assert cats[i + 1] == FindByName(cats, name).value;
        forall j | 0 <= j < i + 1
          ensures !NameMatches(cats[j], name)
        {
          if j > 0 {
            assert cats[j] == cats[1..][j - 1];
          }
        }
      } else {
        forall i | 0 <= i < |cats|
          ensures !NameMatches(cats[i], name)
        {
          if i > 0 {
            assert cats[i] == cats[1..][i - 1];
          }
        }
      }
    } else if |cats| > 0 {
      assert cats[0] == FindByName(cats, name).value;
    }
  }

  /** Matching ignores case: names equal up to ASCII case find the same
      category. */
  lemma {:induction false} CaseDoesNotMatter(cats: seq<Category>, a: string, b: string)
    requires Text.Lower(a) == Text.Lower(b)
    ensures FindByName(cats, a) == FindByName(cats, b)
  {
    if |cats| > 0 {
      CaseDoesNotMatter(cats[1..], a, b);
    }
  }
}

=== FILE: common.dfy ===
/** Shared result shapes: the optional value and the `{success, data|error}`
    envelope that every mutating server action returns. */
module Common {

  datatype Option<T> = None | Some(value: T)

  /** The action result envelope: `{success: true, data}` or `{success: false, error}`. */
  datatype ActionResult<T> = Ok(data: T) | Failed(error: string)

  /** What a storage call can throw: an `Error` object (carrying its message)
      or any other thrown value. */
  datatype Exception = ErrorObject(message: string) | OtherThrown

  /** The text an action puts in its failure envelope for a caught exception:
      the message of an `Error`, otherwise the action's fixed fallback. */
  function ErrorText(e: Exception, fallback: string): (r: string)
    ensures e.ErrorObject? ==> r == e.message
    ensures e.OtherThrown? ==> r == fallback
  {
    match e
    case ErrorObject(m) => m
    case OtherThrown => fallback
  }
}

=== FILE: dashboard.dfy ===
/** The summary cards of components/dashboard.tsx: income and expense totals
    over the loaded transactions, the balance and the savings rate. */
module Dashboard {
  import opened Ledger
  import Seqs
  import CategoryChart
  import PaymentModeChart

  datatype Summary = Summary(totalIncome: real, totalExpenses: real, balance: real, savingsRate: real)

  /** Lines 55-64. The savings rate is the balance as a percentage of the
      income, or 0 without positive income. */
  function Summarize(ts: seq<Txn>): (r: Summary)
    ensures r.totalIncome == Seqs.SumBy(ts, Weight(Income))
    ensures r.totalExpenses == Seqs.SumBy(ts, Weight(Expense))
    ensures r.balance == r.totalIncome - r.totalExpenses
    ensures r.totalIncome <= 0.0 ==> r.savingsRate == 0.0
    ensures r.totalIncome > 0.0 ==> r.savingsRate * r.totalIncome == r.balance * 100.0
  {
    TotalOfAsWeightedSum(ts, Income);
    TotalOfAsWeightedSum(ts, Expense);
    var income := TotalOf(ts, Income);
    var expenses := TotalOf(ts, Expense);
    Summary(income, expenses, income - expenses, Share(income - expenses, income))
  }

  /** With non-negative amounts the savings rate is at most 100, and it is
      negative exactly when expenses exceed a positive income. */
  lemma SavingsRateBounds(ts: seq<Txn>)
    requires AmountsNonNegative(ts)
    ensures Summarize(ts).savingsRate <= 100.0
    ensures var r := Summarize(ts);
      r.totalIncome > 0.0 ==> (r.savingsRate < 0.0 <==> r.totalExpenses > r.totalIncome)
  {
    TotalOfNonNegative(ts, Expense);
    var r := Summarize(ts);
    if r.totalIncome > 0.0 {
      RateBounds(r.totalIncome, r.totalExpenses);
    }
  }

  lemma RateBounds(income: real, expenses: real)
    requires income > 0.0 && expenses >= 0.0
    ensures Share(income - expenses, income) <= 100.0
    ensures Share(income - expenses, income) < 0.0 <==> expenses > income
  {
    var q := (income - expenses) / income;
    assert q * income == income - expenses;
    assert q <= 1.0;
  }

  /** The cards do not depend on the order the transactions arrive in. */
  lemma SummaryIgnoresOrder(a: seq<Txn>, b: seq<Txn>)
    requires multiset(a) == multiset(b)
    ensures Summarize(a) == Summarize(b)
  {
    TotalOfPermutation(a, b, Income);
    TotalOfPermutation(a, b, Expense);
    TotalOfAsWeightedSum(a, Income);
    TotalOfAsWeightedSum(b, Income);
    TotalOfAsWeightedSum(a, Expense);
    TotalOfAsWeightedSum(b, Expense);
  }

  /** The dashboard's totals agree with the charts beside it: the category
      slices add up to its expense total, and the payment-mode cards add up
      to both totals when every mode is one of the four and no amount is
      negative. */
  lemma ViewsAgree(ts: seq<Txn>)
    ensures Seqs.SumBy(CategoryChart.ChartData(ts), CategoryChart.SliceAmount) == Summarize(ts).totalExpenses
    ensures PaymentModeChart.ModesKnown(ts) && AmountsNonNegative(ts) ==>
      && Seqs.SumBy(PaymentModeChart.ModeStats(ts), PaymentModeChart.StatIncome) == Summarize(ts).totalIncome
      && Seqs.SumBy(PaymentModeChart.ModeStats(ts), PaymentModeChart.StatExpenses) == Summarize(ts).totalExpenses
  {
    CategoryChart.ChartSumsToTotalExpenses(ts);
    if PaymentModeChart.ModesKnown(ts) && AmountsNonNegative(ts) {
      PaymentModeChart.CardsAddUpToTotals(ts);
    }
  }
}

=== FILE: edit_dialog.dfy ===
/** The state logic of components/edit-transaction-dialog.tsx: the form
    filled from the edited transaction, the matcher that recovers its
    category id from its category name, the type toggle, the submit guard
    and the update payload. Parsing the amount text is a parameter. */
module EditDialog {
  import opened Common
  import opened Ledger
  import Schemas
  import CategoryMatch
  import Text

  datatype EditState = EditState(
    kind: TxnType,
    description: string,
    amount: string,
    categoryId: string,
    date: string,
    categories: seq<Category>)

  /** The initial state and the reset effect (lines 49-55 and 79-87): the
      transaction's fields, with a missing category id as `""` (the model
      already stores a missing one as `""`). The amount text (`toString`)
      and the stored `YYYY-MM-DD` date text are parameters. */
  function FromTxn(t: Txn, amountText: string, dateText: string, cats: seq<Category>): (s: EditState)
    ensures s.kind == t.kind && s.categoryId == t.categoryId && s.description == t.description
    ensures s.amount == amountText && s.date == dateText && s.categories == cats
  {
    EditState(t.kind, t.description, amountText, t.categoryId, dateText, cats)
  }

  /** The matcher effect (lines 67-76): unlike the form's, it runs with the
      transaction's category name even when that name is empty. */
  function MatchByName(s: EditState, name: string): (r: EditState)
    ensures r.categories == s.categories && r.kind == s.kind
    ensures s.categoryId != "" ==> r == s
  {
    if |s.categories| > 0 && s.categoryId == "" then
      match CategoryMatch.FindByName(s.categories, name)
      case Some(c) => s.(categoryId := c.id)
      case None => s
    else s
  }

  /** A selected category is never replaced by the matcher; an empty one is
      replaced by the first loaded category whose name matches. */
  lemma MatcherOnlyFillsEmpty(s: EditState, name: string)
    ensures s.categoryId != "" ==> MatchByName(s, name) == s
    ensures s.categoryId == "" && |s.categories| > 0 ==>
      match CategoryMatch.FindByName(s.categories, name)
      case Some(c) => MatchByName(s, name).categoryId == c.id
      case None => MatchByName(s, name) == s
    ensures s.categoryId == "" && (forall i :: 0 <= i < |s.categories| ==> !CategoryMatch.NameMatches(s.categories[i], name))
      ==> MatchByName(s, name) == s
  {
    CategoryMatch.FindByNameIsFirst(s.categories, name);
  }

  /** The Income and Expense buttons (lines 150-153 and 165-168). */
  function SetType(s: EditState, k: TxnType): (r: EditState)
    ensures r.kind == k && r.categoryId == ""
    ensures r.description == s.description && r.amount == s.amount && r.date == s.date
    ensures r.categories == s.categories
  {
    s.(kind := k, categoryId := "")
  }

  /** The `updateTransaction` call: the id and a payload. */
  datatype Update = Update(id: string, input: Schemas.TxnInput)

  /** `handleSubmit` (lines 99-115): no call unless every field is filled
      in; the payload always names the category "other-expense" next to the
      selected id, and carries no payment mode. */
  function Submit(s: EditState, id: string, parse: string -> real): (r: Option<Update>)
    ensures r.Some? <==> s.description != "" && s.amount != "" && s.categoryId != "" && s.date != ""
    ensures r.Some? ==> r.value.id == id && r.value.input == Schemas.TxnInput(
      s.description, parse(s.amount), TypeName(s.kind), "other-expense", Some(s.categoryId), s.date, "")
  {
    if s.description == "" || s.amount == "" || s.categoryId == "" || s.date == "" then None
    else Some(Update(id, Schemas.TxnInput(s.description, parse(s.amount), TypeName(s.kind),
                                          "other-expense", Some(s.categoryId), s.date, "")))
  }

  /** Read against the transaction schema, the payload always lacks the
      payment mode the schema requires, and its category id and type are
      always acceptable. */
  lemma PayloadAgainstSchema(s: EditState, id: string, parse: string -> real)
    requires Submit(s, id, parse).Some?
    ensures var input := Submit(s, id, parse).value.input;
      && Schemas.PaymentModeRequired in Schemas.TxnIssues(input)
      && Schemas.TypeInvalid !in Schemas.TxnIssues(input)
      && Schemas.CategoryRequired !in Schemas.TxnIssues(input)
  {
  }

  /** Saving a dialog opened on `t` without edits sends `t`'s description,
      type and category id back, under the fixed category name; it sends
      exactly when those fields and the two texts are non-empty. A selected
      category survives the matcher. */
  lemma UneditedSubmitKeepsTxn(t: Txn, amountText: string, dateText: string, cats: seq<Category>,
                               name: string, parse: string -> real)
    ensures var s := MatchByName(FromTxn(t, amountText, dateText, cats), name);
      t.categoryId != "" ==> (
        && (Submit(s, t.id, parse).Some? <==> t.description != "" && amountText != "" && dateText != "")
        && (Submit(s, t.id, parse).Some? ==>
              && Submit(s, t.id, parse).value.id == t.id
              && Submit(s, t.id, parse).value.input.description == t.description
              && Submit(s, t.id, parse).value.input.kind == TypeName(t.kind)
              && Submit(s, t.id, parse).value.input.categoryId == Some(t.categoryId)
              && Submit(s, t.id, parse).value.input.date == dateText))
  {
    MatcherOnlyFillsEmpty(FromTxn(t, amountText, dateText, cats), name);
  }

  /** A successful `loadCategories` (lines 89-97): the new list replaces
      the old one and the category is left as it is. */
  function Loaded(s: EditState, data: seq<Category>): (r: EditState)
    ensures r.categories == data && r.categoryId == s.categoryId && r.kind == s.kind
    ensures r.description == s.description && r.amount == s.amount && r.date == s.date
  {
    s.(categories := data)
  }

  /** A type click as React runs it: the click (lines 150-153 and 165-168)
      clears the category, and the matcher effect (lines 67-76), which
      depends on `categoryId`, runs at once on the list still loaded for the
      old type. The load of the new type's list is still pending. */
  function SwitchType(s: EditState, k: TxnType, name: string): (r: EditState)
    ensures r.kind == k && r.categories == s.categories
    ensures r.description == s.description && r.amount == s.amount && r.date == s.date
    ensures r.categoryId == "" || exists c :: c in s.categories && c.id == r.categoryId && CategoryMatch.NameMatches(c, name)
  {
    MatchByName(SetType(s, k), name)
  }

  /** As written, a switch puts back the first category of the old list
      that matches the transaction's name, and the new type's load keeps
      it: the update goes out with the new type and the old category. */
  lemma SwitchRestoresOldCategory(s: EditState, k: TxnType, name: string, data: seq<Category>,
                                  id: string, parse: string -> real)
    requires CategoryMatch.FindByName(s.categories, name).Some?
    ensures var c := CategoryMatch.FindByName(s.categories, name).value;
      var r := MatchByName(Loaded(SwitchType(s, k, name), data), name);
      && r.kind == k && c in s.categories
      && (c.id != "" ==> r.categoryId == c.id)
      && (c.id != "" && s.description != "" && s.amount != "" && s.date != "" ==>
            && Submit(r, id, parse).Some?
            && Submit(r, id, parse).value.input.kind == TypeName(k)
            && Submit(r, id, parse).value.input.categoryId == Some(c.id))
  {
    var c := CategoryMatch.FindByName(s.categories, name).value;
    assert |s.categories| > 0;
    MatcherOnlyFillsEmpty(SetType(s, k), name);
    assert SwitchType(s, k, name).categoryId == c.id;
  }

  /** An expense "Lunch" filed under FOOD, switched to income: the update
      carries type "income" and the id of the expense category FOOD. */
  lemma SwitchToIncomeAsWritten(parse: string -> real)
    ensures var food := Category("c1", "FOOD", "Food", None, Expense);
      var s := EditState(Expense, "Lunch", "12.5", "c1", "2026-01-10", [food]);
      var data := [Category("c2", "SALARY", "Salary", None, Income)];
      var r := MatchByName(Loaded(SwitchType(s, Income, "food"), data), "food");
      && food.kind == Expense
      && Submit(r, "t1", parse) == Some(Update("t1", Schemas.TxnInput(
           "Lunch", parse("12.5"), "income", "other-expense", Some("c1"), "2026-01-10", "")))
  {
    var food := Category("c1", "FOOD", "Food", None, Expense);
    assert Text.Lower("FOOD") == "food";
    assert CategoryMatch.NameMatches(food, "food");
    var s := EditState(Expense, "Lunch", "12.5", "c1", "2026-01-10", [food]);
    assert CategoryMatch.FindByName([food], "food") == Some(food);
    assert SwitchType(s, Income, "food").categoryId == "c1";
  }

  /** The corrected click: the old type's list is dropped together with the
      category, so the matcher has nothing to pick from until the new
      type's categories arrive. */
  function SwitchTypeCorrected(s: EditState, k: TxnType): (r: EditState)
    ensures r.kind == k && r.categoryId == "" && r.categories == []
    ensures r.description == s.description && r.amount == s.amount && r.date == s.date
  {
    s.(kind := k, categoryId := "", categories := [])
  }

  /** With the corrected click no update is sent until a category is
      chosen again, even after the matcher effect; once the new type's list
      arrives, the matcher can only select one of the new type's
      categories. */
  lemma SwitchingTypeBlocksSubmit(s: EditState, k: TxnType, name: string, data: seq<Category>,
                                  id: string, parse: string -> real)
    ensures Submit(MatchByName(SwitchTypeCorrected(s, k), name), id, parse).None?
    ensures (forall c :: c in data ==> c.kind == k) ==>
      var r := MatchByName(Loaded(MatchByName(SwitchTypeCorrected(s, k), name), data), name);
      r.kind == k && (r.categoryId == "" || exists c :: c in data && c.id == r.categoryId && c.kind == k)
  {
    var w := MatchByName(SwitchTypeCorrected(s, k), name);
    assert w == SwitchTypeCorrected(s, k);
    MatcherOnlyFillsEmpty(Loaded(w, data), name);
  }
}

=== FILE: export_utils.dfy ===
/** The report builders of lib/export-utils.ts, short of the PDF and
    spreadsheet libraries: the chronological sort, the row fallbacks, the
    period text and the row grid handed to the spreadsheet writer. Dates and
    amounts stay values here; their text formatting is not modelled. */
module Export {
  import opened Common
  import opened Ledger
  import Seqs
  import CategoryCodes
  import TransactionActions

  // -------------------------------------------------------------------
  // Sorting

  /** `sortChronologically`: a stable sort on a copy, older dates first. */
  function SortChronologically(ts: seq<Txn>): (r: seq<Txn>)
    ensures |r| == |ts|
    ensures multiset(r) == multiset(ts)
  {
    Seqs.SortBy(ts, OldestFirst)
  }

  /** The sorted copy runs from the oldest date to the newest. */
  lemma ChronologicalOrder(ts: seq<Txn>)
    ensures var r := SortChronologically(ts);
      forall i, j :: 0 <= i < j < |r| ==> DateLe(r[i].date, r[j].date)
  {
    OldestFirstIsTotalPreorder();
    Seqs.SortBySorted(ts, OldestFirst);
    var r := SortChronologically(ts);
    forall i, j | 0 <= i < j < |r|
      ensures DateLe(r[i].date, r[j].date)
    {
      assert OldestFirst(r[i], r[j]);
    }
  }

  // -------------------------------------------------------------------
  // Rows

  /** `ExportRow` before formatting: the date and amount are kept as values. */
  datatype ExportRow = ExportRow(date: Date, description: string, category: string, paymentMode: string, amount: real)

  /** The text shown for a payment mode: its label when the label table has a
      non-empty one, else the stored value. The table is a parameter. */
  function ModeCell(labels: map<string, string>, mode: string): (r: string)
    ensures r == mode || (mode in labels && r == labels[mode] && r != "")
    ensures mode in labels && labels[mode] != "" ==> r == labels[mode]
    ensures mode !in labels ==> r == mode
  {
    if mode in labels && labels[mode] != "" then labels[mode] else mode
  }

  /** `toExportRow`. */
  function ToExportRow(labels: map<string, string>, t: Txn): (r: ExportRow)
    ensures r.category == (if t.categoryLabel != "" then t.categoryLabel else t.category)
    ensures r.paymentMode == ModeCell(labels, t.paymentMode)
    ensures r.date == t.date && r.description == t.description && r.amount == t.amount
  {
    ExportRow(t.date, t.description,
      if t.categoryLabel != "" then t.categoryLabel else t.category,
      ModeCell(labels, t.paymentMode), t.amount)
  }

  /** A transaction as `getTransactions` returns it has no label and no
      mode, so its row shows the kebab name of the stored category and, when
      the label table has no entry for an absent mode, an empty mode cell. */
  lemma ReadRowExport(labels: map<string, string>, row: TransactionActions.Row, c: CategoryCodes.Code)
    ensures var r := ToExportRow(labels, TransactionActions.ToClient(row));
      && r.category == CategoryCodes.KebabName(CategoryCodes.FromPrisma(row.category))
      && (row.category == CategoryCodes.ToPrisma(c) ==> r.category == CategoryCodes.KebabName(c))
      && r.category != ""
      && ("" !in labels ==> r.paymentMode == "")
      && r.date == row.date && r.description == row.description && r.amount == row.amount
  {
  }

  // -------------------------------------------------------------------
  // Period text

  /** `d` is the date of some transaction of `ts`. */
  predicate HasDate(ts: seq<Txn>, d: Date) {
    exists i :: 0 <= i < |ts| && ts[i].date == d
  }

  /** `Math.min` over the dates. */
  function EarliestDate(ts: seq<Txn>): (r: Date)
    requires |ts| > 0
    ensures HasDate(ts, r)
    ensures forall i :: 0 <= i < |ts| ==> DateLe(r, ts[i].date)
  {
    if |ts| == 1 then ts[0].date
    else
      var m := EarliestDate(ts[1..]);
      DateLeTotalOrder();
      assert forall i :: 1 <= i < |ts| ==> ts[i] == ts[1..][i - 1];
      if DateLe(ts[0].date, m) then ts[0].date else m
  }

  /** `Math.max` over the dates. */
  function LatestDate(ts: seq<Txn>): (r: Date)
    requires |ts| > 0
    ensures HasDate(ts, r)
    ensures forall i :: 0 <= i < |ts| ==> DateLe(ts[i].date, r)
  {
    if |ts| == 1 then ts[0].date
    else
      var m := LatestDate(ts[1..]);
      DateLeTotalOrder();
      assert forall i :: 1 <= i < |ts| ==> ts[i] == ts[1..][i - 1];
      if DateLe(m, ts[0].date) then ts[0].date else m
  }

  /** The three shapes of `getDateRangeText`. */
  datatype RangeText = NoTransactions | SingleDay(day: Date) | Span(first: Date, last: Date)

  /** `getDateRangeText`. */
  function DateRangeText(ts: seq<Txn>): (r: RangeText)
    ensures r.NoTransactions? <==> |ts| == 0
  {
    if |ts| == 0 then NoTransactions
    else
      var lo, hi := EarliestDate(ts), LatestDate(ts);
      if lo == hi then SingleDay(lo) else Span(lo, hi)
  }

  /** A single day is shown exactly when every transaction has that date; a
      span runs from one transaction's date to a strictly later one's and
      covers every date. */
  lemma DateRangeTextMeaning(ts: seq<Txn>)
    ensures DateRangeText(ts).SingleDay? <==>
      |ts| > 0 && forall i :: 0 <= i < |ts| ==> ts[i].date == ts[0].date
    ensures DateRangeText(ts).SingleDay? ==> DateRangeText(ts).day == ts[0].date
    ensures var r := DateRangeText(ts);
      r.Span? ==> && HasDate(ts, r.first) && HasDate(ts, r.last)
                  && DateLe(r.first, r.last) && r.first != r.last
                  && forall i :: 0 <= i < |ts| ==> DateLe(r.first, ts[i].date) && DateLe(ts[i].date, r.last)
  {
    DateLeTotalOrder();
    if |ts| > 0 {
      var lo, hi := EarliestDate(ts), LatestDate(ts);
      if forall i :: 0 <= i < |ts| ==> ts[i].date == ts[0].date {
        var a :| 0 <= a < |ts| && ts[a].date == lo;
        var b :| 0 <= b < |ts| && ts[b].date == hi;
        assert lo == hi;
      }
      if lo == hi {
        forall i | 0 <= i < |ts|
          ensures ts[i].date == ts[0].date
        {
          assert DateLe(lo, ts[i].date) && DateLe(ts[i].date, hi);
          assert DateLe(lo, ts[0].date) && DateLe(ts[0].date, hi);
        }
      }
    }
  }

  /** The period runs from the first to the last transaction of the
      chronological sort. */
  lemma RangeMatchesSortedEnds(ts: seq<Txn>)
    requires |ts| > 0
    ensures var s := SortChronologically(ts);
      EarliestDate(ts) == s[0].date && LatestDate(ts) == s[|s| - 1].date
  {
    ChronologicalOrder(ts);
    var s := SortChronologically(ts);
    SortedEnds(ts, s, EarliestDate(ts), LatestDate(ts));
  }

  lemma SortedEnds(ts: seq<Txn>, s: seq<Txn>, lo: Date, hi: Date)
    requires |ts| > 0 && multiset(s) == multiset(ts)
    requires forall i, j :: 0 <= i < j < |s| ==> DateLe(s[i].date, s[j].date)
    requires HasDate(ts, lo) && forall i :: 0 <= i < |ts| ==> DateLe(lo, ts[i].date)
    requires HasDate(ts, hi) && forall i :: 0 <= i < |ts| ==> DateLe(ts[i].date, hi)
    ensures lo == s[0].date && hi == s[|s| - 1].date
  {
    var n := |s|;
    assert s[0] in multiset(ts) && s[n - 1] in multiset(ts);
    var a :| 0 <= a < |ts| && ts[a].date == lo;
    var b :| 0 <= b < |ts| && ts[b].date == hi;
    assert ts[a] in multiset(s) && ts[b] in multiset(s);
    var ia :| 0 <= ia < n && s[ia] == ts[a];
    var ib :| 0 <= ib < n && s[ib] == ts[b];
    assert ia == 0 || DateLe(s[0].date, s[ia].date);
    assert ib == n - 1 || DateLe(s[ib].date, s[n - 1].date);
    var k0 :| 0 <= k0 < |ts| && ts[k0] == s[0];
    var k1 :| 0 <= k1 < |ts| && ts[k1] == s[n - 1];
    assert DateLe(lo, ts[k0].date) && DateLe(ts[k1].date, hi);
  }

  // -------------------------------------------------------------------
  // Row grid

  const Columns: seq<string> := ["Date", "Description", "Category", "Payment Mode", "Amount"]

  /** One row of the array of arrays handed to the spreadsheet writer. */
  datatype GridRow =
    | TitleRow(text: string)
    | PeriodRow(range: RangeText)
    | BlankRow
    | LabelRow(text: string)
    | HeaderRow(columns: seq<string>)
    | DataRow(row: ExportRow)
    | TotalRow(caption: string, amount: real)

  function DataRows(labels: map<string, string>, ts: seq<Txn>): (r: seq<GridRow>)
    ensures |r| == |ts|
    ensures forall i :: 0 <= i < |ts| ==> r[i] == DataRow(ToExportRow(labels, ts[i]))
  {
    if |ts| == 0 then [] else [DataRow(ToExportRow(labels, ts[0]))] + DataRows(labels, ts[1..])
  }

  /** A section: nothing for no transactions, else its label, the header,
      one row per transaction, the subtotal and a blank row. */
  function Section(labels: map<string, string>, title: string, ts: seq<Txn>, subtotal: real): (r: seq<GridRow>)
    ensures |r| == if |ts| == 0 then 0 else |ts| + 4
  {
    if |ts| == 0 then []
    else [LabelRow(title), HeaderRow(Columns)] + DataRows(labels, ts) + [TotalRow("Subtotal:", subtotal), BlankRow]
  }

  function Abs(x: real): real { if x < 0.0 then -x else x }

  function IncomeRows(ts: seq<Txn>): seq<Txn> { SortChronologically(OfType(ts, Income)) }
  function ExpenseRows(ts: seq<Txn>): seq<Txn> { SortChronologically(OfType(ts, Expense)) }

  /** The grid `exportToExcel` builds. The three totals are the caller's. */
  function Grid(labels: map<string, string>, ts: seq<Txn>, totalIncome: real, totalExpense: real, netTotal: real): (r: seq<GridRow>)
    ensures |r| >= 5
    ensures r[0] == TitleRow("Yamban FinTracker") && r[2] == PeriodRow(DateRangeText(ts))
    ensures r[|r| - 1] == TotalRow("Net Total:", Abs(netTotal))
  {
    Assemble(labels, DateRangeText(ts), IncomeRows(ts), ExpenseRows(ts), totalIncome, totalExpense, netTotal)
  }

  /** The preamble, the two optional sections and the net row. */
  function Assemble(labels: map<string, string>, period: RangeText, ir: seq<Txn>, er: seq<Txn>,
                    totalIncome: real, totalExpense: real, netTotal: real): (r: seq<GridRow>)
    ensures |r| >= 5
    ensures r[0] == TitleRow("Yamban FinTracker") && r[2] == PeriodRow(period)
    ensures r[|r| - 1] == TotalRow("Net Total:", Abs(netTotal))
  {
    var pre := [TitleRow("Yamban FinTracker"), TitleRow("Sales and Expense Report"), PeriodRow(period), BlankRow];
    var body := pre + Section(labels, "Income", ir, totalIncome) + Section(labels, "Expenses", er, totalExpense);
    assert body[0] == pre[0] && body[2] == pre[2];
    body + [TotalRow("Net Total:", Abs(netTotal))]
  }

  function BlockSize(n: nat): nat { if n == 0 then 0 else n + 4 }

  /** The grid has the four preamble rows, a block of `n + 4` rows for each
      non-empty type and the net row; that last row shows the magnitude of
      the net total. */
  lemma GridLayout(labels: map<string, string>, ts: seq<Txn>, inc: real, exp: real, net: real)
    ensures var g := Grid(labels, ts, inc, exp, net);
      var ni, ne := |OfType(ts, Income)|, |OfType(ts, Expense)|;
      && |g| == 5 + BlockSize(ni) + BlockSize(ne)
      && g[2] == PeriodRow(DateRangeText(ts))
      && g[|g| - 1] == TotalRow("Net Total:", if net < 0.0 then -net else net)
      && g[|g| - 1].amount >= 0.0
  {
    var ir, er := IncomeRows(ts), ExpenseRows(ts);
    assert |ir| == |OfType(ts, Income)| && |er| == |OfType(ts, Expense)|;
    var pre := [TitleRow("Yamban FinTracker"), TitleRow("Sales and Expense Report"), PeriodRow(DateRangeText(ts)), BlankRow];
    var g := Grid(labels, ts, inc, exp, net);
    assert g == pre + Section(labels, "Income", ir, inc) + Section(labels, "Expenses", er, exp)
      + [TotalRow("Net Total:", Abs(net))];
    assert g[2] == pre[2];
  }

  /** What a non-empty section holds: its label, the column header, one
      data row per transaction in order, the subtotal and a blank row. */
  lemma SectionContents(labels: map<string, string>, title: string, ts: seq<Txn>, sub: real)
    requires |ts| > 0
    ensures var sec := Section(labels, title, ts, sub);
      && sec[0] == LabelRow(title) && sec[1] == HeaderRow(Columns)
      && (forall i :: 0 <= i < |ts| ==> sec[2 + i] == DataRow(ToExportRow(labels, ts[i])))
      && sec[2 + |ts|] == TotalRow("Subtotal:", sub) && sec[3 + |ts|] == BlankRow
  {
    var sec := Section(labels, title, ts, sub);
    var rows := DataRows(labels, ts);
    assert sec == [LabelRow(title), HeaderRow(Columns)] + rows + [TotalRow("Subtotal:", sub), BlankRow];
    forall i | 0 <= i < |ts|
      ensures sec[2 + i] == DataRow(ToExportRow(labels, ts[i]))
    {
      assert sec[2 + i] == rows[i];
    }
  }

  /** The income section follows the four preamble rows and the expense
      section follows it; the income rows are the income transactions
      oldest first, and the expense rows the expense transactions. */
  lemma GridSections(labels: map<string, string>, ts: seq<Txn>, inc: real, exp: real, net: real)
    ensures var g := Grid(labels, ts, inc, exp, net);
      var si := Section(labels, "Income", IncomeRows(ts), inc);
      var se := Section(labels, "Expenses", ExpenseRows(ts), exp);
      && g[4..4 + |si|] == si
      && g[4 + |si|..4 + |si| + |se|] == se
  {
    var pre := [TitleRow("Yamban FinTracker"), TitleRow("Sales and Expense Report"), PeriodRow(DateRangeText(ts)), BlankRow];
    var si := Section(labels, "Income", IncomeRows(ts), inc);
    var se := Section(labels, "Expenses", ExpenseRows(ts), exp);
    assert Grid(labels, ts, inc, exp, net) == pre + si + se + [TotalRow("Net Total:", Abs(net))];
    Pieces(pre, si, se, [TotalRow("Net Total:", Abs(net))]);
  }

  lemma Pieces<T>(a: seq<T>, b: seq<T>, c: seq<T>, d: seq<T>)
    ensures (a + b + c + d)[|a|..|a| + |b|] == b
    ensures (a + b + c + d)[|a| + |b|..|a| + |b| + |c|] == c
  {
    assert (a + b + c + d)[|a|..|a| + |b|] == b;
    assert (a + b + c + d)[|a| + |b|..|a| + |b| + |c|] == c;
  }

  /** Each block holds its type's transactions and no others, oldest first. */
  lemma SplitIsByType(ts: seq<Txn>, k: TxnType)
    ensures var r := SortChronologically(OfType(ts, k));
      && (forall t :: t in r <==> t in ts && t.kind == k)
      && multiset(r) == multiset(OfType(ts, k))
      && forall i, j :: 0 <= i < j < |r| ==> DateLe(r[i].date, r[j].date)
  {
    ChronologicalOrder(OfType(ts, k));
    var r := SortChronologically(OfType(ts, k));
    forall t
      ensures t in r <==> t in OfType(ts, k)
    {
      assert t in r <==> t in multiset(r);
    }
  }
}

=== FILE: grouping.dfy ===
/** Grouping by key in first-seen order: the `Map`-based and the
    find-or-push folds of app/actions/transactions.ts and
    components/category-chart.tsx. A group's value is accumulated with `add`
    from `zero`, one element at a time, in input order. */
module Grouping {
  import Seqs

  datatype Entry<K, V> = Entry(key: K, value: V)

  function Keys<K, V>(g: seq<Entry<K, V>>): (r: seq<K>)
    ensures |r| == |g|
    ensures forall i :: 0 <= i < |g| ==> r[i] == g[i].key
  {
    if |g| == 0 then [] else [g[0].key] + Keys(g[1..])
  }

  predicate KeysDistinct<K(==), V>(g: seq<Entry<K, V>>) {
    forall i, j :: 0 <= i < j < |g| ==> g[i].key != g[j].key
  }

  /** The value filed under `k`, or `zero` when there is none. */
  function ValueOf<K(==), V>(g: seq<Entry<K, V>>, k: K, zero: V): (v: V)
    ensures k !in Keys(g) ==> v == zero
  {
    if |g| == 0 then zero
    else if g[0].key == k then g[0].value
    else ValueOf(g[1..], k, zero)
  }

  /** In groups with distinct keys, the value looked up under a group's key
      is that group's own. */
  lemma {:induction false} ValueOfDistinct<K, V>(g: seq<Entry<K, V>>, i: nat, zero: V)
    requires KeysDistinct(g)
    requires i < |g|
    ensures ValueOf(g, g[i].key, zero) == g[i].value
  {
    if i > 0 {
      assert g[0].key != g[i].key;
      var tail := g[1..];
      assert KeysDistinct(tail) by {
        forall p, q | 0 <= p < q < |tail|
          ensures tail[p].key != tail[q].key
        {
          assert tail[p] == g[p + 1] && tail[q] == g[q + 1];
        }
      }
      ValueOfDistinct(tail, i - 1, zero);
    }
  }

  /** Some element of `s` has key `k`. */
  predicate Occurs<T, K(==)>(s: seq<T>, key: T -> K, k: K) {
    exists i :: 0 <= i < |s| && key(s[i]) == k
  }

  /** The elements of `s` whose key is `k`, in order. */
  function Matching<T(!new), K(==)>(s: seq<T>, key: T -> K, k: K): (r: seq<T>)
    ensures forall t :: t in r <==> t in s && key(t) == k
    ensures Seqs.IsSubseq(r, s)
  {
    if |s| == 0 then []
    else if key(s[0]) == k then [s[0]] + Matching(s[1..], key, k)
    else Matching(s[1..], key, k)
  }

  /** `add` folded over `s` from `v`. */
  function Accumulate<T, V>(v: V, s: seq<T>, add: (V, T) -> V): V {
    if |s| == 0 then v else Accumulate(add(v, s[0]), s[1..], add)
  }

  /** One step of the fold: add `t` into the group of its key, or append a
      new group for it after the existing ones. */
  function AddTo<T, K(!new,==), V>(g: seq<Entry<K, V>>, t: T, key: T -> K, zero: V, add: (V, T) -> V): (r: seq<Entry<K, V>>)
    ensures forall k :: k in Keys(r) <==> k in Keys(g) || k == key(t)
    ensures |g| <= |r| && forall i :: 0 <= i < |g| ==> r[i].key == g[i].key
    ensures ValueOf(r, key(t), zero) == add(ValueOf(g, key(t), zero), t)
    ensures forall k :: k != key(t) ==> ValueOf(r, k, zero) == ValueOf(g, k, zero)
  {
    if |g| == 0 then [Entry(key(t), add(zero, t))]
    else if g[0].key == key(t) then [Entry(key(t), add(g[0].value, t))] + g[1..]
    else
      var rest := AddTo(g[1..], t, key, zero, add);
      assert Keys([g[0]] + rest) == [g[0].key] + Keys(rest);
      assert Keys(g) == [g[0].key] + Keys(g[1..]);
      [g[0]] + rest
  }

  /** A group list headed by `e` has distinct keys exactly when its tail
      does and does not hold `e`'s key. */
  lemma DistinctCons<K, V>(e: Entry<K, V>, rest: seq<Entry<K, V>>)
    ensures KeysDistinct([e] + rest) <==> e.key !in Keys(rest) && KeysDistinct(rest)
  {
    var r := [e] + rest;
    if e.key !in Keys(rest) && KeysDistinct(rest) {
      forall i, j | 0 <= i < j < |r|
        ensures r[i].key != r[j].key
      {
        assert r[j] == rest[j - 1];
        if i == 0 {
          assert Keys(rest)[j - 1] == rest[j - 1].key;
        } else {
          assert r[i] == rest[i - 1];
        }
      }
    }
    if KeysDistinct(r) {
      forall i, j | 0 <= i < j < |rest|
        ensures rest[i].key != rest[j].key
      {
        assert r[i + 1] == rest[i] && r[j + 1] == rest[j];
      }
      forall i | 0 <= i < |rest|
        ensures Keys(rest)[i] != e.key
      {
        assert r[0] == e && r[i + 1] == rest[i];
        assert Keys(rest)[i] == rest[i].key;
      }
    }
  }

  /** A step never files two groups under one key. */
  lemma {:induction false} AddToKeepsDistinct<T, K(!new), V>(g: seq<Entry<K, V>>, t: T, key: T -> K, zero: V, add: (V, T) -> V)
    requires KeysDistinct(g)
    ensures KeysDistinct(AddTo(g, t, key, zero, add))
  {
    if |g| > 0 {
      assert g == [g[0]] + g[1..];
      DistinctCons(g[0], g[1..]);
      if g[0].key != key(t) {
        AddToKeepsDistinct(g[1..], t, key, zero, add);
        DistinctCons(g[0], AddTo(g[1..], t, key, zero, add));
      } else {
        DistinctCons(Entry(key(t), add(g[0].value, t)), g[1..]);
      }
    }
  }

  /** The fold over all of `s`, starting from the groups `acc`. */
  function GroupInto<T(!new), K(!new,==), V>(acc: seq<Entry<K, V>>, s: seq<T>, key: T -> K, zero: V, add: (V, T) -> V): (r: seq<Entry<K, V>>)
    decreases |s|
    ensures forall k :: k in Keys(r) <==> k in Keys(acc) || Occurs(s, key, k)
    ensures |acc| <= |r| && forall i :: 0 <= i < |acc| ==> r[i].key == acc[i].key
    ensures KeysDistinct(acc) ==> KeysDistinct(r)
    ensures forall k :: ValueOf(r, k, zero) == Accumulate(ValueOf(acc, k, zero), Matching(s, key, k), add)
  {
    if |s| == 0 then acc
    else
      var step := AddTo(acc, s[0], key, zero, add);
      var r := GroupInto(step, s[1..], key, zero, add);
      assert KeysDistinct(acc) ==> KeysDistinct(step) by {
        if KeysDistinct(acc) {
          AddToKeepsDistinct(acc, s[0], key, zero, add);
        }
      }
      OccursCons(s, key);
      MatchingCons(acc, s, key, zero, add);
      r
  }

  /** A key occurs in `s` when it is the head's or occurs in the tail. */
  lemma OccursCons<T, K(!new)>(s: seq<T>, key: T -> K)
    requires |s| > 0
    ensures forall k :: Occurs(s, key, k) <==> key(s[0]) == k || Occurs(s[1..], key, k)
  {
    forall k | Occurs(s, key, k) && key(s[0]) != k
      ensures Occurs(s[1..], key, k)
    {
      var i :| 0 <= i < |s| && key(s[i]) == k;
      assert s[1..][i - 1] == s[i];
    }
    forall k | Occurs(s[1..], key, k)
      ensures Occurs(s, key, k)
    {
      var i :| 0 <= i < |s[1..]| && key(s[1..][i]) == k;
      assert s[i + 1] == s[1..][i];
    }
  }

  /** Folding a key's elements onto its group's value takes the head first
      when it has that key. */
  lemma MatchingCons<T(!new), K(!new), V>(acc: seq<Entry<K, V>>, s: seq<T>, key: T -> K, zero: V, add: (V, T) -> V)
    requires |s| > 0
    ensures forall k :: (Accumulate(ValueOf(acc, k, zero), Matching(s, key, k), add)
      == Accumulate(if key(s[0]) == k then add(ValueOf(acc, k, zero), s[0]) else ValueOf(acc, k, zero),
                    Matching(s[1..], key, k), add))
  {
    forall k
      ensures Accumulate(ValueOf(acc, k, zero), Matching(s, key, k), add)
        == Accumulate(if key(s[0]) == k then add(ValueOf(acc, k, zero), s[0]) else ValueOf(acc, k, zero),
                      Matching(s[1..], key, k), add)
    {
      if key(s[0]) == k {
        var m := [s[0]] + Matching(s[1..], key, k);
        assert m[1..] == Matching(s[1..], key, k);
      }
    }
  }

  /** Grouping `s` from no groups: one group per distinct key, in the order
      the keys first occur, each holding the fold of its elements. */
  function GroupBy<T(!new), K(!new,==), V>(s: seq<T>, key: T -> K, zero: V, add: (V, T) -> V): (r: seq<Entry<K, V>>)
    ensures KeysDistinct(r)
    ensures forall k :: k in Keys(r) <==> Occurs(s, key, k)
    ensures forall k :: k in Keys(r) ==> ValueOf(r, k, zero) == Accumulate(zero, Matching(s, key, k), add)
  {
    GroupInto([], s, key, zero, add)
  }

  function KeyOf<K, V>(e: Entry<K, V>): K { e.key }

  /** Any selection of groups with distinct keys, in any order, still has
      distinct keys. */
  lemma SubmultisetKeepsDistinct<K, V>(a: seq<Entry<K, V>>, b: seq<Entry<K, V>>)
    requires KeysDistinct(a)
    requires multiset(b) <= multiset(a)
    ensures KeysDistinct(b)
  {
    assert Seqs.DistinctBy(a, KeyOf) by {
      forall i, j | 0 <= i < j < |a|
        ensures KeyOf(a[i]) != KeyOf(a[j])
      {
      }
    }
    Seqs.SubmultisetKeepsDistinct(a, b, KeyOf);
    forall i, j | 0 <= i < j < |b|
      ensures b[i].key != b[j].key
    {
      assert KeyOf(b[i]) != KeyOf(b[j]);
    }
  }

  // -------------------------------------------------------------------
  // Sums

  /** The sum of the values of real-valued groups. */
  function Total<K>(g: seq<Entry<K, real>>): real {
    if |g| == 0 then 0.0 else g[0].value + Total(g[1..])
  }

  /** A fold that adds `val` is the sum of `val`. */
  lemma {:induction false} AccumulateSum<T>(v: real, s: seq<T>, add: (real, T) -> real, val: T -> real)
    requires forall x, t :: add(x, t) == x + val(t)
    decreases |s|
    ensures Accumulate(v, s, add) == v + Seqs.SumBy(s, val)
  {
    if |s| > 0 {
      AccumulateSum(add(v, s[0]), s[1..], add, val);
    }
  }

  lemma {:induction false} AddToTotal<T(!new), K(!new)>(g: seq<Entry<K, real>>, t: T, key: T -> K, add: (real, T) -> real, val: T -> real)
    requires forall x, t :: add(x, t) == x + val(t)
    ensures Total(AddTo(g, t, key, 0.0, add)) == Total(g) + val(t)
  {
    if |g| > 0 && g[0].key != key(t) {
      AddToTotal(g[1..], t, key, add, val);
      var rest := AddTo(g[1..], t, key, 0.0, add);
      assert ([g[0]] + rest)[1..] == rest;
    } else if |g| > 0 {
      assert ([Entry(key(t), add(g[0].value, t))] + g[1..])[1..] == g[1..];
    }
  }

  lemma {:induction false} GroupIntoTotal<T(!new), K(!new)>(acc: seq<Entry<K, real>>, s: seq<T>, key: T -> K, add: (real, T) -> real, val: T -> real)
    requires forall x, t :: add(x, t) == x + val(t)
    decreases |s|
    ensures Total(GroupInto(acc, s, key, 0.0, add)) == Total(acc) + Seqs.SumBy(s, val)
  {
    if |s| > 0 {
      AddToTotal(acc, s[0], key, add, val);
      GroupIntoTotal(AddTo(acc, s[0], key, 0.0, add), s[1..], key, add, val);
    }
  }

  /** Summing groups loses nothing and counts nothing twice: the group
      totals add up to the sum over the whole input. */
  lemma GroupByTotal<T(!new), K(!new)>(s: seq<T>, key: T -> K, add: (real, T) -> real, val: T -> real)
    requires forall x, t :: add(x, t) == x + val(t)
    ensures Total(GroupBy(s, key, 0.0, add)) == Seqs.SumBy(s, val)
  {
    GroupIntoTotal([], s, key, add, val);
  }

  /** Each group of a summing fold holds the sum over its own elements. */
  lemma GroupBySums<T(!new), K(!new)>(s: seq<T>, key: T -> K, add: (real, T) -> real, val: T -> real, k: K)
    requires forall x, t :: add(x, t) == x + val(t)
    ensures ValueOf(GroupBy(s, key, 0.0, add), k, 0.0) == Seqs.SumBy(Matching(s, key, k), val)
  {
    AccumulateSum(0.0, Matching(s, key, k), add, val);
  }

  /** Totals do not depend on the order of the groups. */
  lemma {:induction false} TotalPermutation<K>(a: seq<Entry<K, real>>, b: seq<Entry<K, real>>)
    requires multiset(a) == multiset(b)
    ensures Total(a) == Total(b)
  {
    TotalIsSumBy(a);
    TotalIsSumBy(b);
    Seqs.SumByPermutation(a, b, (e: Entry<K, real>) => e.value);
  }

  lemma {:induction false} TotalIsSumBy<K>(g: seq<Entry<K, real>>)
    ensures Total(g) == Seqs.SumBy(g, (e: Entry<K, real>) => e.value)
  {
    if |g| > 0 {
      TotalIsSumBy(g[1..]);
    }
  }
}

=== FILE: ledger.dfy ===
/** The application's records (lib/types.ts): transaction types, payment
    modes, calendar dates, categories and transactions, with the sums and
    orderings every view shares. */
module Ledger {
  import opened Common
  import Text
  import Seqs

  datatype TxnType = Income | Expense

  function TypeName(t: TxnType): string {
    match t
    case Income => "income"
    case Expense => "expense"
  }

  /** `z.enum(["income", "expense"])`: the type named by `s`, if any. */
  function ParseType(s: string): (r: Option<TxnType>)
    ensures r.Some? <==> (s == "income" || s == "expense")
    ensures r.Some? ==> TypeName(r.value) == s
  {
    if s == "income" then Some(Income)
    else if s == "expense" then Some(Expense)
    else None
  }

  datatype PaymentMode = Cash | GCash | BdoSavings | CbsChecking

  /** The key of a mode in `paymentModeLabels`. */
  function ModeKey(m: PaymentMode): string {
    match m
    case Cash => "cash"
    case GCash => "gcash"
    case BdoSavings => "bdo_savings"
    case CbsChecking => "cbs_checking"
  }

  /** The keys of `paymentModeLabels` in declaration order. */
  const AllModes: seq<PaymentMode> := [Cash, GCash, BdoSavings, CbsChecking]

  /** The mode a raw payment-mode string names, if it names one. */
  function ParseMode(s: string): (r: Option<PaymentMode>)
    ensures r.Some? ==> ModeKey(r.value) == s
    ensures r.None? ==> forall m :: ModeKey(m) != s
  {
    if s == "cash" then Some(Cash)
    else if s == "gcash" then Some(GCash)
    else if s == "bdo_savings" then Some(BdoSavings)
    else if s == "cbs_checking" then Some(CbsChecking)
    else None
  }

  /** A calendar date (`YYYY-MM-DD`, no time component). */
  datatype Date = Date(year: int, month: int, day: int)

  /** Day-granularity chronological order. */
  predicate DateLe(a: Date, b: Date) {
    a.year < b.year
    || (a.year == b.year && (a.month < b.month || (a.month == b.month && a.day <= b.day)))
  }

  lemma DateLeTotalOrder()
    ensures forall a, b :: DateLe(a, b) || DateLe(b, a)
    ensures forall a, b, c :: DateLe(a, b) && DateLe(b, c) ==> DateLe(a, c)
    ensures forall a, b :: DateLe(a, b) && DateLe(b, a) ==> a == b
  {
  }

  /** A category record as stored (`Category(id, name, label, icon, type)`;
      `label` is a Dafny keyword, so the field is `labelText`);
      `icon` is `None` for a null column. */
  datatype Category = Category(id: string, name: string, labelText: string, icon: Option<string>, kind: TxnType)

  /** A transaction as the client sees it (lib/types.ts `Transaction`, plus the
      `paymentMode` the components read). A string field the server leaves
      undefined is `""` here: every reader treats the two alike. */
  datatype Txn = Txn(
    id: string,
    description: string,
    amount: real,
    kind: TxnType,
    category: string,
    categoryId: string,
    categoryLabel: string,
    categoryIcon: Option<string>,
    date: Date,
    paymentMode: string)

  /** `ts.filter((t) => t.type === k)`. */
  function OfType(ts: seq<Txn>, k: TxnType): (r: seq<Txn>)
    ensures forall t :: t in r <==> t in ts && t.kind == k
    ensures Seqs.IsSubseq(r, ts)
  {
    if |ts| == 0 then []
    else if ts[0].kind == k then [ts[0]] + OfType(ts[1..], k)
    else OfType(ts[1..], k)
  }

  function Amount(t: Txn): real { t.amount }

  /** `ts.reduce((sum, t) => sum + t.amount, 0)`. */
  function Sum(ts: seq<Txn>): real {
    Seqs.SumBy(ts, Amount)
  }

  /** The total of the transactions of type `k`: filter, then reduce. */
  function TotalOf(ts: seq<Txn>, k: TxnType): real {
    Sum(OfType(ts, k))
  }

  /** The amount a transaction contributes to the total of type `k`. */
  function Weight(k: TxnType): Txn -> real {
    (t: Txn) => if t.kind == k then t.amount else 0.0
  }

  lemma {:induction false} TotalOfAsWeightedSum(ts: seq<Txn>, k: TxnType)
    ensures TotalOf(ts, k) == Seqs.SumBy(ts, Weight(k))
  {
    if |ts| > 0 {
      TotalOfAsWeightedSum(ts[1..], k);
    }
  }

  /** Per-type totals do not depend on the order of the list. */
  lemma TotalOfPermutation(a: seq<Txn>, b: seq<Txn>, k: TxnType)
    requires multiset(a) == multiset(b)
    ensures TotalOf(a, k) == TotalOf(b, k)
  {
    TotalOfAsWeightedSum(a, k);
    TotalOfAsWeightedSum(b, k);
    Seqs.SumByPermutation(a, b, Weight(k));
  }

  predicate AmountsNonNegative(ts: seq<Txn>) {
    forall i :: 0 <= i < |ts| ==> ts[i].amount >= 0.0
  }

  lemma {:induction false} TotalOfNonNegative(ts: seq<Txn>, k: TxnType)
    requires AmountsNonNegative(ts)
    ensures TotalOf(ts, k) >= 0.0
  {
    TotalOfAsWeightedSum(ts, k);
    WeightedSumNonNegative(ts, k);
  }

  lemma {:induction false} WeightedSumNonNegative(ts: seq<Txn>, k: TxnType)
    requires AmountsNonNegative(ts)
    ensures Seqs.SumBy(ts, Weight(k)) >= 0.0
  {
    if |ts| > 0 {
      WeightedSumNonNegative(ts[1..], k);
    }
  }

  /** `whole > 0 ? (part / whole) * 100 : 0`: a percentage guarded against
      an empty or negative whole. */
  function Share(part: real, whole: real): real {
    if whole > 0.0 then part / whole * 100.0 else 0.0
  }

  /** Shares of one whole add like the parts. */
  lemma ShareAdds(x: real, y: real, t: real)
    requires t > 0.0
    ensures Share(x, t) + Share(y, t) == Share(x + y, t)
  {
  }

  lemma ShareOfWhole(t: real)
    requires t > 0.0
    ensures Share(t, t) == 100.0
  {
  }

  /** The comparator of the transaction lists: newer date first, and on the
      same date the larger id first (`dateB - dateA`, then
      `b.id.localeCompare(a.id)`). */
  predicate NewestFirst(a: Txn, b: Txn) {
    if a.date != b.date then DateLe(b.date, a.date) else Text.StrLe(b.id, a.id)
  }

  /** The comparator of the reports: older date first (`dateA - dateB`). */
  predicate OldestFirst(a: Txn, b: Txn) {
    DateLe(a.date, b.date)
  }

  lemma NewestFirstIsTotalPreorder()
    ensures Seqs.TotalPreorder(NewestFirst)
  {
    DateLeTotalOrder();
    forall a, b
      ensures NewestFirst(a, b) || NewestFirst(b, a)
    {
      Text.StrLeTotal(a.id, b.id);
    }
    forall a, b, c | NewestFirst(a, b) && NewestFirst(b, c)
      ensures NewestFirst(a, c)
    {
      if a.date == b.date && b.date == c.date {
        Text.StrLeTransitive(c.id, b.id, a.id);
      }
    }
  }

  lemma OldestFirstIsTotalPreorder()
    ensures Seqs.TotalPreorder(OldestFirst)
  {
    DateLeTotalOrder();
  }
}

=== FILE: payment_mode_chart.dfy ===
/** The per-payment-mode cash flow of components/payment-mode-chart.tsx: for
    each of the four modes, in the key order of `paymentModeLabels`, the
    income and expenses paid through it, the balance and both shares; modes
    with no activity are dropped. A transaction without a mode counts as
    cash. */
module PaymentModeChart {
  import opened Ledger
  import Seqs

  /** `t.paymentMode || "cash"`. */
  function EffectiveMode(t: Txn): string {
    if t.paymentMode == "" then ModeKey(Cash) else t.paymentMode
  }

  /** `transactions.filter((t) => t.type === k && (t.paymentMode || "cash") === m)`. */
  function InMode(ts: seq<Txn>, k: TxnType, m: PaymentMode): seq<Txn> {
    if |ts| == 0 then []
    else if ts[0].kind == k && EffectiveMode(ts[0]) == ModeKey(m) then [ts[0]] + InMode(ts[1..], k, m)
    else InMode(ts[1..], k, m)
  }

  /** One card of the chart. */
  datatype ModeStat = ModeStat(
    mode: PaymentMode,
    income: real,
    expenses: real,
    balance: real,
    incomePercent: real,
    expensePercent: real)

  /** The `map` callback of lines 28-38 for mode `m`. */
  function StatOf(ts: seq<Txn>, m: PaymentMode): (s: ModeStat)
    ensures s.mode == m
    ensures s.income == Sum(InMode(ts, Income, m)) && s.expenses == Sum(InMode(ts, Expense, m))
    ensures s.balance == s.income - s.expenses
    ensures s.incomePercent == Share(s.income, TotalOf(ts, Income))
    ensures s.expensePercent == Share(s.expenses, TotalOf(ts, Expense))
  {
    var income := Sum(InMode(ts, Income, m));
    var expenses := Sum(InMode(ts, Expense, m));
    ModeStat(m, income, expenses, income - expenses,
      Share(income, TotalOf(ts, Income)), Share(expenses, TotalOf(ts, Expense)))
  }

  /** `modes.map((mode) => ...)`. */
  function StatsFor(ts: seq<Txn>, modes: seq<PaymentMode>): (r: seq<ModeStat>)
    ensures |r| == |modes|
    ensures forall i :: 0 <= i < |modes| ==> r[i] == StatOf(ts, modes[i])
  {
    if |modes| == 0 then [] else [StatOf(ts, modes[0])] + StatsFor(ts, modes[1..])
  }

  /** All four modes, before the filter. */
  function AllStats(ts: seq<Txn>): seq<ModeStat> {
    StatsFor(ts, AllModes)
  }

  /** `s.income > 0 || s.expenses > 0`. */
  predicate Active(s: ModeStat) {
    s.income > 0.0 || s.expenses > 0.0
  }

  function ModeIndex(m: PaymentMode): nat {
    match m
    case Cash => 0
    case GCash => 1
    case BdoSavings => 2
    case CbsChecking => 3
  }

  /** `stats`: the four modes' cards with the idle ones left out. */
  function ModeStats(ts: seq<Txn>): (r: seq<ModeStat>)
    ensures |r| <= 4
    ensures forall s :: s in r <==> s in AllStats(ts) && Active(s)
  {
    Seqs.Filter(AllStats(ts), Active)
  }

  /** Each active mode has exactly one card, no idle mode has one, and the
      cards follow the key order of `paymentModeLabels`. */
  lemma ModeStatsShape(ts: seq<Txn>)
    ensures var r := ModeStats(ts);
      && (forall m :: StatOf(ts, m) in r <==> Active(StatOf(ts, m)))
      && (forall s :: s in r ==> Active(s) && s == StatOf(ts, s.mode))
      && (forall i, j :: 0 <= i < j < |r| ==> ModeIndex(r[i].mode) < ModeIndex(r[j].mode))
  {
    var all := AllStats(ts);
    var r := ModeStats(ts);
    assert r == Seqs.Filter(all, Active);
    OneCardPerMode(ts);
    AllStatsInKeyOrder(ts);
    KeyOrderKept(all, r);
  }

  lemma OneCardPerMode(ts: seq<Txn>)
    ensures forall m :: StatOf(ts, m) in AllStats(ts)
    ensures forall s :: s in AllStats(ts) ==> s == StatOf(ts, s.mode)
  {
    var all := AllStats(ts);
    forall m
      ensures StatOf(ts, m) in all
    {
      assert AllModes[ModeIndex(m)] == m;
      assert all[ModeIndex(m)] == StatOf(ts, m);
    }
    forall s | s in all
      ensures s == StatOf(ts, s.mode)
    {
      var i :| 0 <= i < |all| && all[i] == s;
    }
  }

  lemma AllStatsInKeyOrder(ts: seq<Txn>)
    ensures var all := AllStats(ts);
      forall i, j :: 0 <= i < j < |all| ==> ModeIndex(all[i].mode) < ModeIndex(all[j].mode)
  {
    var all := AllStats(ts);
    assert forall i :: 0 <= i < 4 ==> ModeIndex(AllModes[i]) == i;
  }

  /** A subsequence of the four stats keeps their strictly increasing mode
      order. */
  lemma {:induction false} KeyOrderKept(all: seq<ModeStat>, r: seq<ModeStat>)
    requires Seqs.IsSubseq(r, all)
    requires forall i, j :: 0 <= i < j < |all| ==> ModeIndex(all[i].mode) < ModeIndex(all[j].mode)
    decreases |all|
    ensures |r| <= |all|
    ensures forall i, j :: 0 <= i < j < |r| ==> ModeIndex(r[i].mode) < ModeIndex(r[j].mode)
  {
    if |r| > 0 && |all| > 0 {
      var tail := all[1..];
      assert forall i, j :: 0 <= i < j < |tail| ==> ModeIndex(tail[i].mode) < ModeIndex(tail[j].mode) by {
        forall i, j | 0 <= i < j < |tail|
          ensures ModeIndex(tail[i].mode) < ModeIndex(tail[j].mode)
        {
          assert tail[i] == all[i + 1] && tail[j] == all[j + 1];
        }
      }
      if r[0] == all[0] {
        KeyOrderKept(tail, r[1..]);
        SubseqElementsFollow(r[1..], tail);
        forall i, j | 0 <= i < j < |r|
          ensures ModeIndex(r[i].mode) < ModeIndex(r[j].mode)
        {
          assert r[j] == r[1..][j - 1];
          if i == 0 {
            assert r[j] in tail;
            var p :| 0 <= p < |tail| && tail[p] == r[j];
            assert all[p + 1] == r[j];
          } else {
            assert r[i] == r[1..][i - 1];
          }
        }
      } else {
        KeyOrderKept(tail, r);
      }
    }
  }

  lemma {:induction false} SubseqElementsFollow<T>(sub: seq<T>, s: seq<T>)
    requires Seqs.IsSubseq(sub, s)
    decreases |s|
    ensures forall x :: x in sub ==> x in s
  {
    if |sub| > 0 && |s| > 0 {
      if sub[0] == s[0] {
        SubseqElementsFollow(sub[1..], s[1..]);
        assert sub == [sub[0]] + sub[1..];
      } else {
        SubseqElementsFollow(sub, s[1..]);
      }
    }
  }

  /** The filter keeps exactly the transactions of type `k` paid through
      `m`, in order. */
  lemma {:induction false} InModeMembers(ts: seq<Txn>, k: TxnType, m: PaymentMode)
    ensures forall t :: t in InMode(ts, k, m) <==> t in ts && t.kind == k && EffectiveMode(t) == ModeKey(m)
    ensures Seqs.IsSubseq(InMode(ts, k, m), ts)
  {
    if |ts| > 0 {
      InModeMembers(ts[1..], k, m);
      assert ts == [ts[0]] + ts[1..];
    }
  }

  /** A transaction without a mode is counted with the cash totals of its
      type, and with no other mode's. */
  lemma MissingModeIsCash(ts: seq<Txn>, t: Txn)
    requires t in ts && t.paymentMode == ""
    ensures t in InMode(ts, t.kind, Cash)
    ensures forall m :: m != Cash ==> t !in InMode(ts, t.kind, m)
  {
    forall m
      ensures t in InMode(ts, t.kind, m) <==> m == Cash
    {
      InModeMembers(ts, t.kind, m);
    }
  }

  // -------------------------------------------------------------------
  // The modes share out the totals

  /** Every transaction is paid through one of the four modes. */
  predicate ModesKnown(ts: seq<Txn>) {
    forall i :: 0 <= i < |ts| ==> ParseMode(EffectiveMode(ts[i])).Some?
  }

  function AcrossModes(ts: seq<Txn>, k: TxnType): real {
    Sum(InMode(ts, k, Cash)) + Sum(InMode(ts, k, GCash))
    + Sum(InMode(ts, k, BdoSavings)) + Sum(InMode(ts, k, CbsChecking))
  }

  /** When every mode is one of the four, the per-mode amounts of a type add
      up to that type's total. */
  lemma {:induction false} ModesShareOutTotal(ts: seq<Txn>, k: TxnType)
    requires ModesKnown(ts)
    ensures AcrossModes(ts, k) == TotalOf(ts, k)
  {
    if |ts| > 0 {
      var t, rest := ts[0], ts[1..];
      assert ModesKnown(rest) by {
        forall i | 0 <= i < |rest|
          ensures ParseMode(EffectiveMode(rest[i])).Some?
        {
          assert rest[i] == ts[i + 1];
        }
      }
      ModesShareOutTotal(rest, k);
      assert Sum(OfType(ts, k)) == (if t.kind == k then t.amount else 0.0) + Sum(OfType(rest, k));
      InModeCons(ts, k, Cash);
      InModeCons(ts, k, GCash);
      InModeCons(ts, k, BdoSavings);
      InModeCons(ts, k, CbsChecking);
      OneModeTakesIt(t, k);
    }
  }

  /** What the head of the list adds to the amount of mode `m`. */
  function Contribution(t: Txn, k: TxnType, m: PaymentMode): real {
    if t.kind == k && EffectiveMode(t) == ModeKey(m) then t.amount else 0.0
  }

  lemma InModeCons(ts: seq<Txn>, k: TxnType, m: PaymentMode)
    requires |ts| > 0
    ensures Sum(InMode(ts, k, m)) == Contribution(ts[0], k, m) + Sum(InMode(ts[1..], k, m))
  {
    if ts[0].kind == k && EffectiveMode(ts[0]) == ModeKey(m) {
      assert ([ts[0]] + InMode(ts[1..], k, m))[1..] == InMode(ts[1..], k, m);
    }
  }

  /** A transaction of a known mode is counted under exactly one mode. */
  lemma OneModeTakesIt(t: Txn, k: TxnType)
    requires ParseMode(EffectiveMode(t)).Some?
    ensures Contribution(t, k, Cash) + Contribution(t, k, GCash) + Contribution(t, k, BdoSavings)
      + Contribution(t, k, CbsChecking) == (if t.kind == k then t.amount else 0.0)
  {
    var m := ParseMode(EffectiveMode(t)).value;
    assert ModeKey(m) == EffectiveMode(t);
  }

  function StatIncome(s: ModeStat): real { s.income }
  function StatExpenses(s: ModeStat): real { s.expenses }

  lemma {:induction false} InModeNonNegative(ts: seq<Txn>, k: TxnType, m: PaymentMode)
    requires AmountsNonNegative(ts)
    ensures Sum(InMode(ts, k, m)) >= 0.0
  {
    if |ts| > 0 {
      assert AmountsNonNegative(ts[1..]) by {
        forall i | 0 <= i < |ts[1..]|
          ensures ts[1..][i].amount >= 0.0
        {
          assert ts[1..][i] == ts[i + 1];
        }
      }
      InModeNonNegative(ts[1..], k, m);
      var rest := InMode(ts[1..], k, m);
      if ts[0].kind == k && EffectiveMode(ts[0]) == ModeKey(m) {
        assert ([ts[0]] + rest)[1..] == rest;
      }
    }
  }

  /** With non-negative amounts a mode's totals are non-negative, so a
      dropped mode had neither income nor expenses. */
  lemma DroppedModesAreEmpty(ts: seq<Txn>, m: PaymentMode)
    requires AmountsNonNegative(ts)
    ensures StatOf(ts, m).income >= 0.0 && StatOf(ts, m).expenses >= 0.0
    ensures !Active(StatOf(ts, m)) ==> StatOf(ts, m).income == 0.0 && StatOf(ts, m).expenses == 0.0
  {
    InModeNonNegative(ts, Income, m);
    InModeNonNegative(ts, Expense, m);
  }

  lemma SumOfFour(all: seq<ModeStat>, f: ModeStat -> real)
    requires |all| == 4
    ensures Seqs.SumBy(all, f) == f(all[0]) + f(all[1]) + f(all[2]) + f(all[3])
  {
    var a1 := all[1..];
    var a2 := a1[1..];
    var a3 := a2[1..];
    assert a3[1..] == [];
    assert Seqs.SumBy(a3, f) == f(all[3]);
    assert Seqs.SumBy(a2, f) == f(all[2]) + f(all[3]);
    assert Seqs.SumBy(a1, f) == f(all[1]) + f(all[2]) + f(all[3]);
  }

  /** Before the filter, the four cards share out each type's total. */
  lemma FourCardsShareOut(ts: seq<Txn>)
    requires ModesKnown(ts)
    ensures Seqs.SumBy(AllStats(ts), StatIncome) == TotalOf(ts, Income)
    ensures Seqs.SumBy(AllStats(ts), StatExpenses) == TotalOf(ts, Expense)
  {
    var all := AllStats(ts);
    SumOfFour(all, StatIncome);
    SumOfFour(all, StatExpenses);
    assert StatIncome(all[0]) + StatIncome(all[1]) + StatIncome(all[2]) + StatIncome(all[3]) == AcrossModes(ts, Income);
    assert StatExpenses(all[0]) + StatExpenses(all[1]) + StatExpenses(all[2]) + StatExpenses(all[3]) == AcrossModes(ts, Expense);
    ModesShareOutTotal(ts, Income);
    ModesShareOutTotal(ts, Expense);
  }

  /** With non-negative amounts, the cards left out are worth nothing. */
  lemma IdleCardsAreEmpty(ts: seq<Txn>)
    requires AmountsNonNegative(ts)
    ensures var all := AllStats(ts);
      forall i :: 0 <= i < |all| && !Active(all[i]) ==> all[i].income == 0.0 && all[i].expenses == 0.0
  {
    var all := AllStats(ts);
    forall i | 0 <= i < |all|
      ensures !Active(all[i]) ==> all[i].income == 0.0 && all[i].expenses == 0.0
    {
      DroppedModesAreEmpty(ts, AllModes[i]);
    }
  }

  /** The cards' incomes add up to `totalIncome` and their expenses to
      `totalExpenses`: dropping idle modes loses nothing when amounts are
      non-negative and every mode is one of the four. */
  lemma CardsAddUpToTotals(ts: seq<Txn>)
    requires ModesKnown(ts) && AmountsNonNegative(ts)
    ensures Seqs.SumBy(ModeStats(ts), StatIncome) == TotalOf(ts, Income)
    ensures Seqs.SumBy(ModeStats(ts), StatExpenses) == TotalOf(ts, Expense)
  {
    var all := AllStats(ts);
    IdleCardsAreEmpty(ts);
    FilterKeepsSum(all, Active, StatIncome);
    FilterKeepsSum(all, Active, StatExpenses);
    FourCardsShareOut(ts);
  }

  /** Filtering out elements worth nothing does not change a sum. */
  lemma {:induction false} FilterKeepsSum<T(!new)>(s: seq<T>, p: T -> bool, f: T -> real)
    requires forall i :: 0 <= i < |s| && !p(s[i]) ==> f(s[i]) == 0.0
    ensures Seqs.SumBy(Seqs.Filter(s, p), f) == Seqs.SumBy(s, f)
  {
    if |s| > 0 {
      assert forall i :: 1 <= i < |s| ==> s[1..][i - 1] == s[i];
      FilterKeepsSum(s[1..], p, f);
      if p(s[0]) {
        assert Seqs.Filter(s, p)[1..] == Seqs.Filter(s[1..], p);
      }
    }
  }

  function StatIncomePercent(s: ModeStat): real { s.incomePercent }

  /** With income present, the cards' income shares add up to 100. */
  lemma IncomeSharesAddUp(ts: seq<Txn>)
    requires ModesKnown(ts) && AmountsNonNegative(ts)
    requires TotalOf(ts, Income) > 0.0
    ensures Seqs.SumBy(ModeStats(ts), StatIncomePercent) == 100.0
  {
    var all := AllStats(ts);
    IdleCardsAreEmpty(ts);
    FourCardsShareOut(ts);
    assert ModeStats(ts) == Seqs.Filter(all, Active);
    ActiveShares(all, TotalOf(ts, Income));
  }

  /** Cards whose incomes add up to `total`, each with its share of `total`:
      the shares of the active ones add up to 100. */
  lemma ActiveShares(all: seq<ModeStat>, total: real)
    requires total > 0.0
    requires Seqs.SumBy(all, StatIncome) == total
    requires forall i :: 0 <= i < |all| ==> all[i].incomePercent == Share(all[i].income, total)
    requires forall i :: 0 <= i < |all| && !Active(all[i]) ==> all[i].income == 0.0 && all[i].expenses == 0.0
    ensures Seqs.SumBy(Seqs.Filter(all, Active), StatIncomePercent) == 100.0
  {
    forall i | 0 <= i < |all| && !Active(all[i])
      ensures StatIncomePercent(all[i]) == 0.0
    {
      ShareOfNothing(total);
    }
    FilterKeepsSum(all, Active, StatIncomePercent);
    SharesSum(all, total);
    ShareOfWhole(total);
  }

  lemma ShareOfNothing(t: real)
    requires t > 0.0
    ensures Share(0.0, t) == 0.0
  {
  }

  /** The shares of the cards add up to the share of their summed incomes. */
  lemma {:induction false} SharesSum(s: seq<ModeStat>, total: real)
    requires total > 0.0
    requires forall i :: 0 <= i < |s| ==> s[i].incomePercent == Share(s[i].income, total)
    ensures Seqs.SumBy(s, StatIncomePercent) == Share(Seqs.SumBy(s, StatIncome), total)
  {
    if |s| == 0 {
      ShareOfNothing(total);
    } else {
      assert forall i :: 1 <= i < |s| ==> s[1..][i - 1] == s[i];
      SharesSum(s[1..], total);
      ShareAdds(s[0].income, Seqs.SumBy(s[1..], StatIncome), total);
    }
  }
}

=== FILE: report_dialog.dfy ===
/** The preview of components/transaction-report-dialog.tsx: the income and
    expense lists, each filtered from a copy and sorted oldest first, the
    period line, and which sections are shown. */
module ReportDialog {
  import opened Ledger
  import Seqs
  import Export

  function IsType(k: TxnType): Txn -> bool {
    (t: Txn) => t.kind == k
  }

  /** `[...transactions].filter((t) => t.type === k).sort(...)`. */
  function ListOf(ts: seq<Txn>, k: TxnType): (r: seq<Txn>)
    ensures |r| == |Seqs.Filter(ts, IsType(k))|
    ensures multiset(r) == multiset(Seqs.Filter(ts, IsType(k)))
  {
    Seqs.SortBy(Seqs.Filter(ts, IsType(k)), OldestFirst)
  }

  function IncomeList(ts: seq<Txn>): seq<Txn> { ListOf(ts, Income) }
  function ExpenseList(ts: seq<Txn>): seq<Txn> { ListOf(ts, Expense) }

  /** The lambda filter and the typed filter of the ledger keep the same
      elements in the same order. */
  lemma {:induction false} FilterIsOfType(ts: seq<Txn>, k: TxnType)
    ensures Seqs.Filter(ts, IsType(k)) == OfType(ts, k)
  {
    if |ts| > 0 {
      FilterIsOfType(ts[1..], k);
    }
  }

  /** The preview lists the same rows, in the same order, as the spreadsheet
      export; so each list is exactly its type's transactions, oldest first. */
  lemma ListsMatchExport(ts: seq<Txn>)
    ensures IncomeList(ts) == Export.IncomeRows(ts)
    ensures ExpenseList(ts) == Export.ExpenseRows(ts)
    ensures forall t :: t in IncomeList(ts) <==> t in ts && t.kind == Income
    ensures forall t :: t in ExpenseList(ts) <==> t in ts && t.kind == Expense
    ensures forall i, j :: 0 <= i < j < |IncomeList(ts)| ==> DateLe(IncomeList(ts)[i].date, IncomeList(ts)[j].date)
    ensures forall i, j :: 0 <= i < j < |ExpenseList(ts)| ==> DateLe(ExpenseList(ts)[i].date, ExpenseList(ts)[j].date)
  {
    FilterIsOfType(ts, Income);
    FilterIsOfType(ts, Expense);
    Export.SplitIsByType(ts, Income);
    Export.SplitIsByType(ts, Expense);
  }

  /** The period line of the header. */
  function Period(ts: seq<Txn>): (r: Export.RangeText)
    ensures r.NoTransactions? <==> |ts| == 0
  {
    Export.DateRangeText(ts)
  }

  /** A section is rendered only when its list is non-empty (lines 103 and
      150). */
  predicate ShowsIncome(ts: seq<Txn>) { |IncomeList(ts)| > 0 }
  predicate ShowsExpenses(ts: seq<Txn>) { |ExpenseList(ts)| > 0 }

  /** The income section appears exactly when some transaction is income,
      the expense section exactly when some transaction is an expense. */
  lemma SectionsShownIffPresent(ts: seq<Txn>)
    ensures ShowsIncome(ts) <==> exists i :: 0 <= i < |ts| && ts[i].kind == Income
    ensures ShowsExpenses(ts) <==> exists i :: 0 <= i < |ts| && ts[i].kind == Expense
  {
    ListsMatchExport(ts);
    if exists i :: 0 <= i < |ts| && ts[i].kind == Income {
      var i :| 0 <= i < |ts| && ts[i].kind == Income;
      assert ts[i] in IncomeList(ts);
    }
    if ShowsIncome(ts) {
      assert IncomeList(ts)[0] in ts;
    }
    if exists i :: 0 <= i < |ts| && ts[i].kind == Expense {
      var i :| 0 <= i < |ts| && ts[i].kind == Expense;
      assert ts[i] in ExpenseList(ts);
    }
    if ShowsExpenses(ts) {
      assert ExpenseList(ts)[0] in ts;
    }
  }
}

=== FILE: schemas.dfy ===
/** The input schemas of lib/schemas.ts as validity checks that list every
    violated rule's message, in field declaration order. The update schemas
    are the create schemas themselves, so each has one validator here. */
module Schemas {
  import opened Common
  import Text
  import Ledger

  /** A transaction payload (`createTransactionSchema` input). */
  datatype TxnInput = TxnInput(
    description: string,
    amount: real,
    kind: string,
    category: string,
    categoryId: Option<string>,
    date: string,
    paymentMode: string)

  /** A category payload (`createCategorySchema` input); an absent and a null
      icon are both `None`. */
  datatype CategoryInput = CategoryInput(name: string, labelText: string, icon: Option<string>, kind: string)

  /** One violated schema rule. */
  datatype Issue =
    | DescriptionRequired | DescriptionTooLong | AmountNotPositive | TypeInvalid
    | CategoryRequired | DateRequired | PaymentModeRequired
    | NameRequired | NameTooLong | LabelRequired | LabelTooLong | IconTooLong

  /** The message zod reports for a rule. */
  function Message(issue: Issue): string {
    match issue
    case DescriptionRequired => "Description is required"
    case DescriptionTooLong => "Description must be 255 characters or less"
    case AmountNotPositive => "Amount must be a positive number"
    case TypeInvalid => "Type must be 'income' or 'expense'"
    case CategoryRequired => "Category is required"
    case DateRequired => "Date is required"
    case PaymentModeRequired => "Payment mode is required"
    case NameRequired => "Name is required"
    case NameTooLong => "Name must be 100 characters or less"
    case LabelRequired => "Label is required"
    case LabelTooLong => "Label must be 100 characters or less"
    case IconTooLong => "Icon must be 10 characters or less"
  }

  /** `cond ? [] : [message]`, one rule of a schema. */
  function Check(ok: bool, issue: Issue): (r: seq<Issue>)
    ensures ok <==> r == []
    ensures !ok ==> r == [issue]
    ensures forall x :: x in r <==> !ok && x == issue
  {
    if ok then [] else [issue]
  }

  /** `z.enum(["income", "expense"])` accepts `s`. */
  predicate TxnTypeOk(s: string) { s == "income" || s == "expense" }

  /** `z.enum(["cash", "gcash", "bdo_savings", "cbs_checking"])` accepts `s`. */
  predicate PaymentModeOk(s: string) { s == "cash" || s == "gcash" || s == "bdo_savings" || s == "cbs_checking" }

  /** Whether payload `i` breaks the transaction rule `issue`. */
  predicate TxnViolates(i: TxnInput, issue: Issue) {
    match issue
    case DescriptionRequired => |i.description| < 1
    case DescriptionTooLong => |i.description| > 255
    case AmountNotPositive => i.amount <= 0.0
    case TypeInvalid => !TxnTypeOk(i.kind)
    case CategoryRequired => i.categoryId.Some? && |i.categoryId.value| < 1
    case DateRequired => |i.date| < 1
    case PaymentModeRequired => !PaymentModeOk(i.paymentMode)
    case _ => false
  }

  /** Whether payload `i` breaks the category rule `issue`. */
  predicate CategoryViolates(i: CategoryInput, issue: Issue) {
    match issue
    case NameRequired => |i.name| < 1
    case NameTooLong => |i.name| > 100
    case LabelRequired => |i.labelText| < 1
    case LabelTooLong => |i.labelText| > 100
    case IconTooLong => i.icon.Some? && |i.icon.value| > 10
    case TypeInvalid => !TxnTypeOk(i.kind)
    case _ => false
  }

  /** The rules `createTransactionSchema.safeParse` reports as violated for
      `i`: each broken rule once, in field declaration order. */
  function TxnIssues(i: TxnInput): (r: seq<Issue>)
    ensures forall x :: x in r <==> TxnViolates(i, x)
    ensures r == [] <==>
      && 1 <= |i.description| <= 255
      && i.amount > 0.0
      && TxnTypeOk(i.kind)
      && (i.categoryId.Some? ==> |i.categoryId.value| >= 1)
      && |i.date| >= 1
      && PaymentModeOk(i.paymentMode)
  {
    var description := Check(|i.description| >= 1, DescriptionRequired) + Check(|i.description| <= 255, DescriptionTooLong);
    var amount := Check(i.amount > 0.0, AmountNotPositive);
    var kind := Check(TxnTypeOk(i.kind), TypeInvalid);
    var categoryId := Check(i.categoryId.None? || |i.categoryId.value| >= 1, CategoryRequired);
    var date := Check(|i.date| >= 1, DateRequired);
    var mode := Check(PaymentModeOk(i.paymentMode), PaymentModeRequired);
    var r := description + amount + kind + categoryId + date + mode;
    assert |r| == |description| + |amount| + |kind| + |categoryId| + |date| + |mode|;
    r
  }

  /** The rules `createCategorySchema.safeParse` reports as violated for `i`:
      each broken rule once, in field declaration order. */
  function CategoryIssues(i: CategoryInput): (r: seq<Issue>)
    ensures forall x :: x in r <==> CategoryViolates(i, x)
    ensures r == [] <==>
      && 1 <= |i.name| <= 100
      && 1 <= |i.labelText| <= 100
      && (i.icon.Some? ==> |i.icon.value| <= 10)
      && TxnTypeOk(i.kind)
  {
    var name := Check(|i.name| >= 1, NameRequired) + Check(|i.name| <= 100, NameTooLong);
    var labelText := Check(|i.labelText| >= 1, LabelRequired) + Check(|i.labelText| <= 100, LabelTooLong);
    var icon := Check(i.icon.None? || |i.icon.value| <= 10, IconTooLong);
    var kind := Check(TxnTypeOk(i.kind), TypeInvalid);
    var r := name + labelText + icon + kind;
    assert |r| == |name| + |labelText| + |icon| + |kind|;
    r
  }

  /** The single error string an action returns for a rejected payload:
      `errors.map(e => e.message).join(', ')`. */
  function IssuesText(issues: seq<Issue>): string {
    Text.Join(Messages(issues), ", ")
  }

  function Messages(issues: seq<Issue>): (r: seq<string>)
    ensures |r| == |issues|
    ensures forall k :: 0 <= k < |issues| ==> r[k] == Message(issues[k])
  {
    if |issues| == 0 then [] else [Message(issues[0])] + Messages(issues[1..])
  }

  /** The boundary cases the schema tests name: an empty and a 256-character
      description, a zero and a negative amount, a 101-character name and an
      11-character icon are rejected; 255 and 100 characters pass the length
      rules. */
  lemma LengthAndSignBoundaries(i: TxnInput, c: CategoryInput)
    ensures |i.description| == 256 ==> TxnIssues(i) != []
    ensures |i.description| == 0 ==> TxnIssues(i)[0] == DescriptionRequired
    ensures i.amount == 0.0 || i.amount == -50.0 ==> AmountNotPositive in TxnIssues(i)
    ensures |i.description| == 255 ==> DescriptionTooLong !in TxnIssues(i)
    ensures |c.name| == 101 ==> NameTooLong in CategoryIssues(c)
    ensures |c.name| == 100 ==> NameTooLong !in CategoryIssues(c)
    ensures c.icon.Some? && |c.icon.value| == 11 ==> IconTooLong in CategoryIssues(c)
  {
  }
}

=== FILE: seqs.dfy ===
/** Sequence helpers shared by every list the application builds: the stable
    sort behind `Array.prototype.sort`, order-preserving subsequences and
    reversal. */
module Seqs {

  /** A comparator in "may precede" form: `le(a, b)` holds when the source's
      comparator `cmp` gives `cmp(a, b) <= 0`. It behaves like a sort key
      when it is total and transitive. */
  ghost predicate TotalPreorder<T(!new)>(le: (T, T) -> bool) {
    && (forall a, b :: le(a, b) || le(b, a))
    && (forall a, b, c :: le(a, b) && le(b, c) ==> le(a, c))
  }

  ghost predicate SortedBy<T>(s: seq<T>, le: (T, T) -> bool) {
    forall i, j :: 0 <= i < j < |s| ==> le(s[i], s[j])
  }

  /** Places `x` in front of the first element it may precede, so that it
      stays ahead of elements it ties with. */
  function Insert<T>(x: T, s: seq<T>, le: (T, T) -> bool): (r: seq<T>)
    ensures |r| == |s| + 1
    ensures multiset(r) == multiset(s) + multiset{x}
  {
    if |s| == 0 then [x]
    else if le(x, s[0]) then [x] + s
    else
      assert s == [s[0]] + s[1..];
      [s[0]] + Insert(x, s[1..], le)
  }

  /** The stable sort of `s` under `le` (ECMAScript requires
      `Array.prototype.sort` to be stable, and a stable sort's result is
      determined by the comparator). */
  function SortBy<T>(s: seq<T>, le: (T, T) -> bool): (r: seq<T>)
    ensures |r| == |s|
    ensures multiset(r) == multiset(s)
  {
    if |s| == 0 then []
    else
      assert s == [s[0]] + s[1..];
      Insert(s[0], SortBy(s[1..], le), le)
  }

  lemma {:induction false} InsertSorted<T(!new)>(x: T, s: seq<T>, le: (T, T) -> bool)
    requires TotalPreorder(le)
    requires SortedBy(s, le)
    ensures SortedBy(Insert(x, s, le), le)
  {
    if |s| > 0 && !le(x, s[0]) {
      assert le(s[0], x);
      var rest := Insert(x, s[1..], le);
      InsertSorted(x, s[1..], le);
      forall y | y in rest
        ensures le(s[0], y)
      {
        assert y in multiset(rest);
        if y != x {
          assert y in multiset(s[1..]);
          assert y in s[1..];
        }
      }
      var r := [s[0]] + rest;
      forall i, j | 0 <= i < j < |r|
        ensures le(r[i], r[j])
      {
        if i == 0 {
          assert r[j] == rest[j - 1];
          assert r[j] in rest;
        } else {
          assert r[i] == rest[i - 1] && r[j] == rest[j - 1];
        }
      }
    }
  }

  /** The result of `SortBy` is ordered by its comparator. */
  lemma {:induction false} SortBySorted<T(!new)>(s: seq<T>, le: (T, T) -> bool)
    requires TotalPreorder(le)
    ensures SortedBy(SortBy(s, le), le)
  {
    if |s| > 0 {
      SortBySorted(s[1..], le);
      InsertSorted(s[0], SortBy(s[1..], le), le);
    }
  }

  /** Sorting a sequence that is already in order leaves it as it is. */
  lemma {:induction false} SortBySortedIsIdentity<T>(s: seq<T>, le: (T, T) -> bool)
    requires SortedBy(s, le)
    ensures SortBy(s, le) == s
  {
    if |s| > 0 {
      assert SortedBy(s[1..], le) by {
        forall i, j | 0 <= i < j < |s[1..]|
          ensures le(s[1..][i], s[1..][j])
        {
          assert s[1..][i] == s[i + 1] && s[1..][j] == s[j + 1];
        }
      }
      SortBySortedIsIdentity(s[1..], le);
      if |s| > 1 {
        assert le(s[0], s[1]);
      }
      assert s == [s[0]] + s[1..];
    }
  }

  /** Sorting twice is sorting once. */
  lemma SortByIdempotent<T(!new)>(s: seq<T>, le: (T, T) -> bool)
    requires TotalPreorder(le)
    ensures SortBy(SortBy(s, le), le) == SortBy(s, le)
  {
    SortBySorted(s, le);
    SortBySortedIsIdentity(SortBy(s, le), le);
  }

  /** Filtering with a test every element passes keeps everything. */
  lemma {:induction false} FilterKeepsAll<T(!new)>(s: seq<T>, p: T -> bool)
    requires forall i :: 0 <= i < |s| ==> p(s[i])
    ensures Filter(s, p) == s
  {
    if |s| > 0 {
      assert forall i :: 1 <= i < |s| ==> s[1..][i - 1] == s[i];
      FilterKeepsAll(s[1..], p);
      assert s == [s[0]] + s[1..];
    }
  }

  /** `sub` is obtained from `s` by deleting elements, keeping the order. */
  predicate IsSubseq<T(==)>(sub: seq<T>, s: seq<T>)
    decreases |s|
  {
    if |sub| == 0 then true
    else if |s| == 0 then false
    else if sub[0] == s[0] then IsSubseq(sub[1..], s[1..])
    else IsSubseq(sub, s[1..])
  }

  function Reverse<T>(s: seq<T>): (r: seq<T>)
    ensures |r| == |s|
    ensures forall i :: 0 <= i < |s| ==> r[i] == s[|s| - 1 - i]
  {
    if |s| == 0 then [] else Reverse(s[1..]) + [s[0]]
  }

  lemma ReverseMultiset<T>(s: seq<T>)
    ensures multiset(Reverse(s)) == multiset(s)
  {
    if |s| > 0 {
      ReverseMultiset(s[1..]);
      assert s == [s[0]] + s[1..];
    }
  }

  /** `s[..n]` clamped as `Array.prototype.slice(0, n)` does. */
  function Take<T>(s: seq<T>, n: nat): (r: seq<T>)
    ensures |r| == if n < |s| then n else |s|
    ensures r == s[..|r|]
  {
    if n < |s| then s[..n] else s
  }

  /** `s.sort(cmp).slice(0, n).reverse()`: the first `n` under `le`, listed
      last to first. The result runs against `le`, and everything dropped
      may follow, under `le`, everything kept. */
  function SortTakeReverse<T(!new)>(s: seq<T>, le: (T, T) -> bool, n: nat): (r: seq<T>)
    ensures |r| == if n < |s| then n else |s|
    ensures multiset(r) <= multiset(s)
    ensures |s| <= n ==> multiset(r) == multiset(s)
    ensures TotalPreorder(le) ==> KeepsTopReversed(s, le, r)
  {
    var kept := Take(SortBy(s, le), n);
    ReverseMultiset(kept);
    assert SortBy(s, le) == kept + SortBy(s, le)[|kept|..];
    assert TotalPreorder(le) ==> KeepsTopReversed(s, le, Reverse(kept)) by {
      if TotalPreorder(le) {
        TopReversed(s, le, n);
      }
    }
    Reverse(kept)
  }

  /** `r` runs against `le`, and whatever of `s` is not in `r` may follow
      everything in `r`. */
  ghost predicate KeepsTopReversed<T(!new)>(s: seq<T>, le: (T, T) -> bool, r: seq<T>) {
    && (forall i, j :: 0 <= i < j < |r| ==> le(r[j], r[i]))
    && (forall x, y :: x in multiset(s) - multiset(r) && y in r ==> le(y, x))
  }

  lemma TopReversed<T(!new)>(s: seq<T>, le: (T, T) -> bool, n: nat)
    requires TotalPreorder(le)
    ensures KeepsTopReversed(s, le, Reverse(Take(SortBy(s, le), n)))
  {
    var sorted := SortBy(s, le);
    var kept := Take(sorted, n);
    SortBySorted(s, le);
    TakeSortedKeepsFirst(sorted, n, le);
    ReverseOfSorted(kept, le);
  }

  /** Reversal keeps the elements and turns the order around. */
  lemma ReverseOfSorted<T>(s: seq<T>, le: (T, T) -> bool)
    requires SortedBy(s, le)
    ensures multiset(Reverse(s)) == multiset(s)
    ensures forall y :: y in Reverse(s) <==> y in s
    ensures forall i, j :: 0 <= i < j < |s| ==> le(Reverse(s)[j], Reverse(s)[i])
  {
    var r := Reverse(s);
    ReverseMultiset(s);
    forall y
      ensures y in r <==> y in s
    {
      assert y in r <==> y in multiset(r);
      assert y in s <==> y in multiset(s);
    }
    forall i, j | 0 <= i < j < |s|
      ensures le(r[j], r[i])
    {
      assert r[i] == s[|s| - 1 - i] && r[j] == s[|s| - 1 - j];
    }
  }

  /** What `Take` keeps of a sorted sequence may precede what it drops. */
  lemma TakeSortedKeepsFirst<T(!new)>(s: seq<T>, n: nat, le: (T, T) -> bool)
    requires SortedBy(s, le)
    ensures multiset(Take(s, n)) <= multiset(s)
    ensures forall x, y :: x in multiset(s) - multiset(Take(s, n)) && y in Take(s, n) ==> le(y, x)
  {
    var kept := Take(s, n);
    var dropped := s[|kept|..];
    assert s == kept + dropped;
    assert multiset(s) - multiset(kept) == multiset(dropped);
    forall x, y | x in multiset(dropped) && y in kept
      ensures le(y, x)
    {
      var i :| 0 <= i < |kept| && kept[i] == y;
      var j :| 0 <= j < |dropped| && dropped[j] == x;
      assert s[i] == y && s[|kept| + j] == x;
    }
  }

  /** `s.filter(p)`: the elements satisfying `p`, in order. */
  function Filter<T(!new)>(s: seq<T>, p: T -> bool): (r: seq<T>)
    ensures |r| <= |s|
    ensures forall x :: x in r <==> x in s && p(x)
    ensures IsSubseq(r, s)
  {
    if |s| == 0 then []
    else if p(s[0]) then [s[0]] + Filter(s[1..], p)
    else Filter(s[1..], p)
  }

  /** No two elements of `s` agree on `f`. */
  ghost predicate DistinctBy<T, K>(s: seq<T>, f: T -> K) {
    forall i, j :: 0 <= i < j < |s| ==> f(s[i]) != f(s[j])
  }

  /** In a sequence whose elements differ under `f`, each element occurs
      once. */
  lemma {:induction false} CountOfDistinct<T, K>(a: seq<T>, p: nat, f: T -> K)
    requires DistinctBy(a, f) && p < |a|
    ensures multiset(a)[a[p]] == 1
  {
    var x := a[p];
    var rest := a[..p] + a[p + 1..];
    assert a == a[..p] + [x] + a[p + 1..];
    assert multiset(a) == multiset(rest) + multiset{x};
    forall k | 0 <= k < |rest|
      ensures rest[k] != x
    {
      if k < p {
        assert rest[k] == a[k];
      } else {
        assert rest[k] == a[k + 1];
      }
    }
    assert x !in rest;
  }

  lemma CountOfRepeated<T>(b: seq<T>, i: nat, j: nat)
    requires i < j < |b| && b[i] == b[j]
    ensures multiset(b)[b[i]] >= 2
  {
    assert b == b[..i] + [b[i]] + b[i + 1..j] + [b[j]] + b[j + 1..];
  }

  /** Any selection from a sequence whose elements differ under `f`, in any
      order, still has elements that differ under `f`. */
  lemma SubmultisetKeepsDistinct<T, K>(a: seq<T>, b: seq<T>, f: T -> K)
    requires DistinctBy(a, f)
    requires multiset(b) <= multiset(a)
    ensures DistinctBy(b, f)
  {
    forall i, j | 0 <= i < j < |b|
      ensures f(b[i]) != f(b[j])
    {
      assert b[i] in multiset(a) && b[j] in multiset(a);
      var p :| 0 <= p < |a| && a[p] == b[i];
      var q :| 0 <= q < |a| && a[q] == b[j];
      if b[i] == b[j] {
        CountOfRepeated(b, i, j);
        CountOfDistinct(a, p, f);
        assert false;
      } else {
        assert f(a[p]) != f(a[q]) || p == q;
      }
    }
  }

  /** `s.reduce((sum, x) => sum + f(x), 0)` over exact reals. */
  function SumBy<T>(s: seq<T>, f: T -> real): real {
    if |s| == 0 then 0.0 else f(s[0]) + SumBy(s[1..], f)
  }

  lemma {:induction false} SumByConcat<T>(a: seq<T>, b: seq<T>, f: T -> real)
    ensures SumBy(a + b, f) == SumBy(a, f) + SumBy(b, f)
  {
    if |a| > 0 {
      assert (a + b)[1..] == a[1..] + b;
      SumByConcat(a[1..], b, f);
    } else {
      assert a + b == b;
    }
  }

  /** Removing the element at `k` takes it out of the multiset and the sum. */
  lemma {:induction false} RemoveAt<T>(b: seq<T>, k: nat, f: T -> real)
    requires k < |b|
    ensures multiset(b[..k] + b[k + 1..]) == multiset(b) - multiset{b[k]}
    ensures SumBy(b, f) == SumBy(b[..k] + b[k + 1..], f) + f(b[k])
  {
    var left, right := b[..k], b[k + 1..];
    assert b == left + ([b[k]] + right);
    assert multiset(b) == multiset(left) + multiset{b[k]} + multiset(right);
    assert multiset(left + right) == multiset(left) + multiset(right);
    SumByConcat(left, [b[k]] + right, f);
    SumByConcat([b[k]], right, f);
    SumByConcat(left, right, f);
  }

  /** A sum does not depend on the order of its terms. */
  lemma {:induction false} SumByPermutation<T>(a: seq<T>, b: seq<T>, f: T -> real)
    requires multiset(a) == multiset(b)
    ensures SumBy(a, f) == SumBy(b, f)
  {
    if |a| > 0 {
      assert a[0] in multiset(b);
      var k :| 0 <= k < |b| && b[k] == a[0];
      RemoveAt(b, k, f);
      assert a == [a[0]] + a[1..];
      assert multiset(a[1..]) == multiset(a) - multiset{a[0]};
      SumByPermutation(a[1..], b[..k] + b[k + 1..], f);
    }
  }
}

=== FILE: text.dfy ===
/** String helpers the application relies on: the ECMAScript whitespace test
    behind `trim()`, ASCII case mapping, `join`, code-unit ordering of
    strings, and decimal rendering of a count. */
module Text {

  /** The characters `String.prototype.trim` removes: ECMAScript WhiteSpace
      and LineTerminator code points. */
  predicate IsJsWhitespace(c: char) {
    c == ' ' || c == '\t' || c == '\n' || c == '\U{000B}' || c == '\U{000C}' || c == '\r'
    || c == '\U{00A0}' || c == '\U{1680}' || ('\U{2000}' <= c <= '\U{200A}')
    || c == '\U{2028}' || c == '\U{2029}' || c == '\U{202F}' || c == '\U{205F}'
    || c == '\U{3000}' || c == '\U{FEFF}'
  }

  /** `s.trim() === ''`: every character is whitespace. */
  predicate IsBlank(s: string) {
    forall i :: 0 <= i < |s| ==> IsJsWhitespace(s[i])
  }

  // ---------------------------------------------------------------------
  // ASCII case mapping (`toLowerCase` / `toUpperCase` restricted to ASCII)

  predicate IsAsciiUpper(c: char) { 'A' <= c <= 'Z' }
  predicate IsAsciiLower(c: char) { 'a' <= c <= 'z' }
  predicate IsAsciiDigit(c: char) { '0' <= c <= '9' }

  function LowerChar(c: char): (r: char)
    ensures IsAsciiUpper(c) ==> IsAsciiLower(r)
    ensures !IsAsciiUpper(c) ==> r == c
  {
    if IsAsciiUpper(c) then (c as int + 32) as char else c
  }

  function UpperChar(c: char): (r: char)
    ensures IsAsciiLower(c) ==> IsAsciiUpper(r)
    ensures !IsAsciiLower(c) ==> r == c
  {
    if IsAsciiLower(c) then (c as int - 32) as char else c
  }

  function Lower(s: string): (r: string)
    ensures |r| == |s|
    ensures forall i :: 0 <= i < |s| ==> r[i] == LowerChar(s[i])
  {
    if |s| == 0 then [] else [LowerChar(s[0])] + Lower(s[1..])
  }

  function Upper(s: string): (r: string)
    ensures |r| == |s|
    ensures forall i :: 0 <= i < |s| ==> r[i] == UpperChar(s[i])
    ensures forall i :: 0 <= i < |r| ==> !IsAsciiLower(r[i])
  {
    if |s| == 0 then [] else [UpperChar(s[0])] + Upper(s[1..])
  }

  /** Upper-casing is idempotent: a second application changes nothing. */
  lemma UpperIdempotent(s: string)
    ensures Upper(Upper(s)) == Upper(s)
  {
    var u := Upper(s);
    assert forall i :: 0 <= i < |u| ==> UpperChar(u[i]) == u[i];
  }

  /** Equality ignoring ASCII case: `a.toLowerCase() === b.toLowerCase()`. */
  predicate EqualsIgnoringCase(a: string, b: string) {
    Lower(a) == Lower(b)
  }

  // ---------------------------------------------------------------------
  // `Array.prototype.join`

  function Join(parts: seq<string>, sep: string): (r: string)
    ensures |parts| == 0 ==> r == ""
    ensures |parts| == 1 ==> r == parts[0]
  {
    if |parts| == 0 then ""
    else if |parts| == 1 then parts[0]
    else Join(parts[..|parts| - 1], sep) + sep + parts[|parts| - 1]
  }

  // ---------------------------------------------------------------------
  // Code-unit (lexicographic) ordering of strings

  /** `a <= b` comparing UTF-16 code units left to right; a proper prefix
      sorts first. */
  predicate StrLe(a: string, b: string) {
    if |a| == 0 then true
    else if |b| == 0 then false
    else if a[0] != b[0] then a[0] < b[0]
    else StrLe(a[1..], b[1..])
  }

  lemma {:induction false} StrLeTotal(a: string, b: string)
    ensures StrLe(a, b) || StrLe(b, a)
  {
    if |a| > 0 && |b| > 0 && a[0] == b[0] {
      StrLeTotal(a[1..], b[1..]);
    }
  }

  lemma {:induction false} StrLeTransitive(a: string, b: string, c: string)
    requires StrLe(a, b) && StrLe(b, c)
    ensures StrLe(a, c)
  {
    if |a| > 0 && |b| > 0 && |c| > 0 && a[0] == b[0] && b[0] == c[0] {
      StrLeTransitive(a[1..], b[1..], c[1..]);
    }
  }

  lemma {:induction false} StrLeAntisymmetric(a: string, b: string)
    requires StrLe(a, b) && StrLe(b, a)
    ensures a == b
  {
    if |a| > 0 && |b| > 0 {
      StrLeAntisymmetric(a[1..], b[1..]);
      assert a == [a[0]] + a[1..];
      assert b == [b[0]] + b[1..];
    }
  }

  // ---------------------------------------------------------------------
  // Decimal rendering of a count (`${n}` for a non-negative integer)

  function DigitChar(d: nat): (r: char)
    requires d < 10
    ensures IsAsciiDigit(r) && r as int - '0' as int == d
  {
    ('0' as int + d) as char
  }

  predicate IsDigits(s: string) {
    forall i :: 0 <= i < |s| ==> IsAsciiDigit(s[i])
  }

  /** Reads a string of decimal digits back as a number. */
  function DigitsValue(s: string): nat
    requires IsDigits(s)
  {
    if |s| == 0 then 0
    else DigitsValue(s[..|s| - 1]) * 10 + (s[|s| - 1] as int - '0' as int)
  }

  function NatToString(n: nat): (r: string)
    ensures |r| > 0 && IsDigits(r)
  {
    if n < 10 then [DigitChar(n)] else NatToString(n / 10) + [DigitChar(n % 10)]
  }

  /** The decimal text of `n` reads back as `n`, so distinct counts give
      distinct messages. */
  lemma {:induction false} NatToStringRoundTrip(n: nat)
    ensures DigitsValue(NatToString(n)) == n
  {
    if n >= 10 {
      NatToStringRoundTrip(n / 10);
      var s := NatToString(n);
      assert s[..|s| - 1] == NatToString(n / 10);
    }
  }
}

=== FILE: transaction_actions.dfy ===
/** The read side of app/actions/transactions.ts: the row mapping of
    `getTransactions`, the monthly series of `getMonthlyStats` (as written,
    and with the month order corrected) and the per-category expense shares
    of `getCategoryStats`. The query results are parameters. */
module TransactionActions {
  import opened Ledger
  import Seqs
  import Grouping
  import CategoryCodes

  /** A transaction row as the database returns it; `category` holds the
      database enum name. */
  datatype Row = Row(id: string, description: string, amount: real, kind: TxnType, category: string, date: Date)

  function RowAmount(r: Row): real { r.amount }

  /** The client record of a row. The fields the mapping leaves out
      (`categoryId`, `categoryLabel`, `categoryIcon`, `paymentMode`) are
      absent. */
  function ToClient(row: Row): (t: Txn)
    ensures t.id == row.id && t.description == row.description && t.amount == row.amount
    ensures t.kind == row.kind && t.date == row.date
    ensures t.category == CategoryCodes.KebabName(CategoryCodes.FromPrisma(row.category))
    ensures forall c :: row.category == CategoryCodes.ToPrisma(c) ==> t.category == CategoryCodes.KebabName(c)
    ensures t.categoryId == "" && t.categoryLabel == "" && t.categoryIcon.None? && t.paymentMode == ""
  {
    Txn(row.id, row.description, row.amount, row.kind,
        CategoryCodes.KebabName(CategoryCodes.FromPrisma(row.category)),
        "", "", Common.None, row.date, "")
  }

  /** `getTransactions`: one client record per row, in query order. */
  function ReadTransactions(rows: seq<Row>): (r: seq<Txn>)
    ensures |r| == |rows|
    ensures forall i :: 0 <= i < |rows| ==> r[i] == ToClient(rows[i])
  {
    if |rows| == 0 then [] else [ToClient(rows[0])] + ReadTransactions(rows[1..])
  }

  /** The rows come newest first (`orderBy: { date: 'desc' }`). */
  ghost predicate NewestDateFirst(rows: seq<Row>) {
    forall i, j :: 0 <= i < j < |rows| ==> DateLe(rows[j].date, rows[i].date)
  }

  /** The mapping keeps the query's order and each row's category. */
  lemma ReadKeepsOrderAndCategory(rows: seq<Row>, c: CategoryCodes.Code)
    requires NewestDateFirst(rows)
    ensures forall i, j :: 0 <= i < j < |rows| ==>
      DateLe(ReadTransactions(rows)[j].date, ReadTransactions(rows)[i].date)
    ensures forall i :: (0 <= i < |rows| && rows[i].category == CategoryCodes.ToPrisma(c)
      ==> ReadTransactions(rows)[i].category == CategoryCodes.KebabName(c))
  {
    var ts := ReadTransactions(rows);
    forall i, j | 0 <= i < j < |rows|
      ensures DateLe(ts[j].date, ts[i].date)
    {
      assert ts[i].date == rows[i].date && ts[j].date == rows[j].date;
    }
    forall i | 0 <= i < |rows| && rows[i].category == CategoryCodes.ToPrisma(c)
      ensures ts[i].category == CategoryCodes.KebabName(c)
    {
      assert ts[i] == ToClient(rows[i]);
    }
  }

  // -------------------------------------------------------------------
  // getMonthlyStats

  /** The `YYYY-MM` key of a row's date. */
  datatype MonthKey = MonthKey(year: int, month: int)

  /** A bucket's running totals. */
  datatype Flows = Flows(income: real, expenses: real)

  const NoFlows := Flows(0.0, 0.0)

  function MonthOf(r: Row): MonthKey { MonthKey(r.date.year, r.date.month) }

  /** Income goes to `income`; every other type to `expenses`. */
  function AddFlow(f: Flows, r: Row): (g: Flows)
    ensures g.income + g.expenses == f.income + f.expenses + r.amount
    ensures r.kind == Income ==> g == f.(income := f.income + r.amount)
    ensures r.kind != Income ==> g == f.(expenses := f.expenses + r.amount)
  {
    if r.kind == Income then f.(income := f.income + r.amount)
    else f.(expenses := f.expenses + r.amount)
  }

  function IncomePart(r: Row): real { if r.kind == Income then r.amount else 0.0 }
  function ExpensePart(r: Row): real { if r.kind == Income then 0.0 else r.amount }

  /** The month buckets, in the order their months first occur. */
  function Buckets(rows: seq<Row>): (r: seq<Grouping.Entry<MonthKey, Flows>>)
    ensures Grouping.KeysDistinct(r)
    ensures forall k :: k in Grouping.Keys(r) <==> Grouping.Occurs(rows, MonthOf, k)
  {
    Grouping.GroupBy(rows, MonthOf, NoFlows, AddFlow)
  }

  lemma {:induction false} AccumulateFlows(f: Flows, s: seq<Row>)
    decreases |s|
    ensures Grouping.Accumulate(f, s, AddFlow)
      == Flows(f.income + Seqs.SumBy(s, IncomePart), f.expenses + Seqs.SumBy(s, ExpensePart))
  {
    if |s| > 0 {
      AccumulateFlows(AddFlow(f, s[0]), s[1..]);
    }
  }

  /** Every row lands in the bucket of its own month, and in exactly one of
      that bucket's two totals. */
  lemma BucketsHoldMonthTotals(rows: seq<Row>, k: MonthKey)
    ensures k in Grouping.Keys(Buckets(rows)) <==> Grouping.Occurs(rows, MonthOf, k)
    ensures var inMonth := Grouping.Matching(rows, MonthOf, k);
      Grouping.ValueOf(Buckets(rows), k, NoFlows)
        == Flows(Seqs.SumBy(inMonth, IncomePart), Seqs.SumBy(inMonth, ExpensePart))
    ensures forall r: Row :: IncomePart(r) + ExpensePart(r) == r.amount
  {
    AccumulateFlows(NoFlows, Grouping.Matching(rows, MonthOf, k));
  }

  /** What `toLocaleDateString('en-US', { month: 'short' })` can print. */
  datatype MonthLabel = Jan | Feb | Mar | Apr | May | Jun | Jul | Aug | Sep | Oct | Nov | Dec | InvalidDate

  function LabelText(l: MonthLabel): string {
    match l
    case Jan => "Jan" case Feb => "Feb" case Mar => "Mar" case Apr => "Apr"
    case May => "May" case Jun => "Jun" case Jul => "Jul" case Aug => "Aug"
    case Sep => "Sep" case Oct => "Oct" case Nov => "Nov" case Dec => "Dec"
    case InvalidDate => "Invalid Date"
  }

  /** The label of the first day of month `m` (1 to 12). */
  function ShortMonth(m: int): MonthLabel {
    match m
    case 1 => Jan case 2 => Feb case 3 => Mar case 4 => Apr
    case 5 => May case 6 => Jun case 7 => Jul case 8 => Aug
    case 9 => Sep case 10 => Oct case 11 => Nov case 12 => Dec
    case _ => InvalidDate
  }

  /** The month a label denotes when `new Date(label + ' 1, ' + year)` reads
      it back (an invalid label never arises from valid dates). */
  function MonthIndex(l: MonthLabel): int {
    match l
    case Jan => 1 case Feb => 2 case Mar => 3 case Apr => 4
    case May => 5 case Jun => 6 case Jul => 7 case Aug => 8
    case Sep => 9 case Oct => 10 case Nov => 11 case Dec => 12
    case InvalidDate => 0
  }

  /** Reading a label back gives the month it was printed from. */
  lemma MonthIndexInvertsShortMonth(m: int)
    requires 1 <= m <= 12
    ensures MonthIndex(ShortMonth(m)) == m
    ensures ShortMonth(m) != InvalidDate
  {
  }

  /** One point of the overview chart. */
  datatype MonthPoint = MonthPoint(month: MonthLabel, income: real, expenses: real)

  function ToPoint(b: Grouping.Entry<MonthKey, Flows>): MonthPoint {
    MonthPoint(ShortMonth(b.key.month), b.value.income, b.value.expenses)
  }

  function Points(bs: seq<Grouping.Entry<MonthKey, Flows>>): (r: seq<MonthPoint>)
    ensures |r| == |bs|
    ensures forall i :: 0 <= i < |bs| ==> r[i] == ToPoint(bs[i])
  {
    if |bs| == 0 then [] else [ToPoint(bs[0])] + Points(bs[1..])
  }

  /** The comparator of the monthly sort: the later month of the current
      year first. The year of the data plays no part. */
  predicate LaterInYear(a: MonthPoint, b: MonthPoint) {
    MonthIndex(b.month) <= MonthIndex(a.month)
  }

  predicate ValidMonths(rows: seq<Row>) {
    forall i :: 0 <= i < |rows| ==> 1 <= rows[i].date.month <= 12
  }

  /** `getMonthlyStats` as written: group, sort by month-of-year (latest
      first), keep six, reverse. */
  function MonthlyStats(rows: seq<Row>): (r: seq<MonthPoint>)
    requires ValidMonths(rows)
    ensures |r| == if |Buckets(rows)| < 6 then |Buckets(rows)| else 6
    ensures forall i, j :: 0 <= i < j < |r| ==> MonthIndex(r[i].month) <= MonthIndex(r[j].month)
  {
    LaterInYearIsTotalPreorder();
    Seqs.SortTakeReverse(Points(Buckets(rows)), LaterInYear, 6)
  }

  lemma LaterInYearIsTotalPreorder()
    ensures Seqs.TotalPreorder(LaterInYear)
  {
  }

  /** What is kept are points of the latest months of the year: every point
      that is dropped has a month no later than any kept one. */
  lemma MonthlyStatsKeepsLatest(rows: seq<Row>)
    requires ValidMonths(rows)
    ensures var all := Points(Buckets(rows));
      var r := MonthlyStats(rows);
      && |r| == (if |all| < 6 then |all| else 6)
      && multiset(r) <= multiset(all)
      && (|all| <= 6 ==> multiset(r) == multiset(all))
      && forall p: MonthPoint, q: MonthPoint :: p in multiset(all) - multiset(r) && q in r ==> MonthIndex(p.month) <= MonthIndex(q.month)
  {
    var all := Points(Buckets(rows));
    LaterInYearIsTotalPreorder();
    var r := MonthlyStats(rows);
    assert r == Seqs.SortTakeReverse(all, LaterInYear, 6);
    forall p: MonthPoint, q: MonthPoint | p in multiset(all) - multiset(r) && q in r
      ensures MonthIndex(p.month) <= MonthIndex(q.month)
    {
      assert LaterInYear(q, p);
    }
  }

  // The corrected monthly series: the months sorted chronologically.

  predicate MonthKeyLe(a: MonthKey, b: MonthKey) {
    a.year < b.year || (a.year == b.year && a.month <= b.month)
  }

  /** Later month (year first) goes first. */
  predicate LaterMonth(a: Grouping.Entry<MonthKey, Flows>, b: Grouping.Entry<MonthKey, Flows>) {
    MonthKeyLe(b.key, a.key)
  }

  lemma LaterMonthIsTotalPreorder()
    ensures Seqs.TotalPreorder(LaterMonth)
  {
  }

  /** `r` lists months strictly oldest to newest, and every bucket of `all`
      left out of `r` is no later than every bucket in it. */
  ghost predicate LatestInOrder(all: seq<Grouping.Entry<MonthKey, Flows>>, r: seq<Grouping.Entry<MonthKey, Flows>>) {
    && (forall i, j :: 0 <= i < j < |r| ==> MonthKeyLe(r[i].key, r[j].key) && r[i].key != r[j].key)
    && (forall b, q :: b in multiset(all) - multiset(r) && q in r ==> MonthKeyLe(b.key, q.key))
  }

  /** The buckets of the six latest months present, oldest first. */
  function RecentBuckets(rows: seq<Row>): (r: seq<Grouping.Entry<MonthKey, Flows>>)
    ensures |r| == if |Buckets(rows)| < 6 then |Buckets(rows)| else 6
    ensures multiset(r) <= multiset(Buckets(rows))
    ensures |Buckets(rows)| <= 6 ==> multiset(r) == multiset(Buckets(rows))
    ensures LatestInOrder(Buckets(rows), r)
  {
    var all := Buckets(rows);
    LaterMonthIsTotalPreorder();
    var r := Seqs.SortTakeReverse(all, LaterMonth, 6);
    Grouping.SubmultisetKeepsDistinct(all, r);
    assert forall b, q :: b in multiset(all) - multiset(r) && q in r ==> MonthKeyLe(b.key, q.key) by {
      forall b, q | b in multiset(all) - multiset(r) && q in r
        ensures MonthKeyLe(b.key, q.key)
      {
        assert LaterMonth(q, b);
      }
    }
    assert forall i, j :: 0 <= i < j < |r| ==> MonthKeyLe(r[i].key, r[j].key) && r[i].key != r[j].key by {
      forall i, j | 0 <= i < j < |r|
        ensures MonthKeyLe(r[i].key, r[j].key) && r[i].key != r[j].key
      {
        assert LaterMonth(r[j], r[i]);
      }
    }
    r
  }

  /** The monthly series with the months ordered by year and month. */
  function MonthlyStatsChronological(rows: seq<Row>): (r: seq<MonthPoint>)
    ensures |r| == if |Buckets(rows)| < 6 then |Buckets(rows)| else 6
    ensures |r| == |RecentBuckets(rows)|
    ensures forall i :: 0 <= i < |r| ==> r[i] == ToPoint(RecentBuckets(rows)[i])
  {
    Points(RecentBuckets(rows))
  }

  /** Two rows a month apart across a year boundary. */
  function BoundaryRows(): seq<Row> {
    [Row("a", "rent", 10.0, Expense, "otherExpense", Date(2026, 1, 5)),
     Row("b", "food", 20.0, Expense, "food", Date(2025, 12, 20))]
  }

  lemma BoundaryBuckets()
    ensures Buckets(BoundaryRows())
      == [Grouping.Entry(MonthKey(2026, 1), Flows(0.0, 10.0)), Grouping.Entry(MonthKey(2025, 12), Flows(0.0, 20.0))]
  {
    var rows := BoundaryRows();
    var jan := Grouping.Entry(MonthKey(2026, 1), Flows(0.0, 10.0));
    var dec := Grouping.Entry(MonthKey(2025, 12), Flows(0.0, 20.0));
    var one := Grouping.AddTo([], rows[0], MonthOf, NoFlows, AddFlow);
    assert one == [jan];
    assert Grouping.AddTo(one, rows[1], MonthOf, NoFlows, AddFlow) == [jan, dec];
    assert rows[1..][1..] == [];
  }

  lemma BoundaryPoints()
    ensures Points(Buckets(BoundaryRows())) == [MonthPoint(Jan, 0.0, 10.0), MonthPoint(Dec, 0.0, 20.0)]
  {
    BoundaryBuckets();
  }

  lemma SortTwoMonthsOfYear(pj: MonthPoint, pd: MonthPoint)
    requires pj.month == Jan && pd.month == Dec
    ensures Seqs.SortTakeReverse([pj, pd], LaterInYear, 6) == [pj, pd]
  {
    assert !LaterInYear(pj, pd);
    assert Seqs.Insert(pj, [pd], LaterInYear) == [pd, pj];
    assert Seqs.SortBy([pj, pd], LaterInYear) == [pd, pj];
    assert Seqs.Reverse([pd, pj]) == [pj, pd];
  }

  /** Across a year boundary the month-of-year sort puts January 2026 before
      December 2025. */
  lemma YearBoundaryAsWritten()
    ensures MonthlyStats(BoundaryRows()) == [MonthPoint(Jan, 0.0, 10.0), MonthPoint(Dec, 0.0, 20.0)]
  {
    BoundaryPoints();
    SortTwoMonthsOfYear(MonthPoint(Jan, 0.0, 10.0), MonthPoint(Dec, 0.0, 20.0));
  }

  lemma SortTwoMonths(jan: Grouping.Entry<MonthKey, Flows>, dec: Grouping.Entry<MonthKey, Flows>)
    requires jan.key == MonthKey(2026, 1) && dec.key == MonthKey(2025, 12)
    ensures Seqs.SortTakeReverse([jan, dec], LaterMonth, 6) == [dec, jan]
  {
    assert LaterMonth(jan, dec);
    assert Seqs.Insert(jan, [dec], LaterMonth) == [jan, dec];
    assert Seqs.SortBy([jan, dec], LaterMonth) == [jan, dec];
    assert Seqs.Reverse([jan, dec]) == [dec, jan];
  }

  lemma BoundaryRecentBuckets()
    ensures RecentBuckets(BoundaryRows())
      == [Grouping.Entry(MonthKey(2025, 12), Flows(0.0, 20.0)), Grouping.Entry(MonthKey(2026, 1), Flows(0.0, 10.0))]
  {
    var rows := BoundaryRows();
    var jan := Grouping.Entry(MonthKey(2026, 1), Flows(0.0, 10.0));
    var dec := Grouping.Entry(MonthKey(2025, 12), Flows(0.0, 20.0));
    assert RecentBuckets(rows) == Seqs.SortTakeReverse(Buckets(rows), LaterMonth, 6);
    BoundaryBuckets();
    SortTwoMonths(jan, dec);
  }

  lemma PointsOfBoundary(bs: seq<Grouping.Entry<MonthKey, Flows>>)
    requires bs == [Grouping.Entry(MonthKey(2025, 12), Flows(0.0, 20.0)), Grouping.Entry(MonthKey(2026, 1), Flows(0.0, 10.0))]
    ensures Points(bs) == [MonthPoint(Dec, 0.0, 20.0), MonthPoint(Jan, 0.0, 10.0)]
  {
    assert Points(bs) == [ToPoint(bs[0])] + Points(bs[1..]);
  }

  /** The chronological version puts December 2025 first. */
  lemma YearBoundaryCorrected()
    ensures MonthlyStatsChronological(BoundaryRows()) == [MonthPoint(Dec, 0.0, 20.0), MonthPoint(Jan, 0.0, 10.0)]
  {
    var rows := BoundaryRows();
    BoundaryRecentBuckets();
    assert MonthlyStatsChronological(rows) == Points(RecentBuckets(rows));
    PointsOfBoundary(RecentBuckets(rows));
  }

  // -------------------------------------------------------------------
  // getCategoryStats

  /** `findMany({ where: { type: 'expense' } })`. */
  function ExpenseRows(rows: seq<Row>): (r: seq<Row>)
    ensures forall x :: x in r <==> x in rows && x.kind == Expense
    ensures Seqs.IsSubseq(r, rows)
  {
    if |rows| == 0 then []
    else if rows[0].kind == Expense then [rows[0]] + ExpenseRows(rows[1..])
    else ExpenseRows(rows[1..])
  }

  function CodeOf(r: Row): CategoryCodes.Code { CategoryCodes.FromPrisma(r.category) }

  function AddAmount(x: real, r: Row): real { x + r.amount }

  /** One entry of the category summary (lib/types.ts `CategorySummary`). */
  datatype CategoryStat = CategoryStat(category: CategoryCodes.Code, amount: real, percentage: real)

  function Stats(groups: seq<Grouping.Entry<CategoryCodes.Code, real>>, total: real): (r: seq<CategoryStat>)
    ensures |r| == |groups|
    ensures forall i :: 0 <= i < |groups| ==>
      r[i].category == groups[i].key && r[i].amount == groups[i].value
      && r[i].percentage == Share(groups[i].value, total)
  {
    if |groups| == 0 then []
    else [CategoryStat(groups[0].key, groups[0].value, Share(groups[0].value, total))] + Stats(groups[1..], total)
  }

  function CategoryGroups(rows: seq<Row>): seq<Grouping.Entry<CategoryCodes.Code, real>> {
    Grouping.GroupBy(ExpenseRows(rows), CodeOf, 0.0, AddAmount)
  }

  /** `getCategoryStats`: the expense rows grouped by mapped category, each
      with its share of the grouped total. */
  function CategoryStats(rows: seq<Row>): (r: seq<CategoryStat>)
    ensures |r| == |CategoryGroups(rows)|
  {
    var groups := CategoryGroups(rows);
    Stats(groups, Grouping.Total(groups))
  }

  predicate HasStat(r: seq<CategoryStat>, c: CategoryCodes.Code) {
    exists i :: 0 <= i < |r| && r[i].category == c
  }

  predicate HasExpense(rows: seq<Row>, c: CategoryCodes.Code) {
    exists j :: 0 <= j < |rows| && rows[j].kind == Expense && CodeOf(rows[j]) == c
  }

  /** One entry per distinct mapped category of the expense rows, and none
      for a category without expenses. */
  lemma CategoryStatsOnePerCategory(rows: seq<Row>)
    ensures var r := CategoryStats(rows);
      forall i, j :: 0 <= i < j < |r| ==> r[i].category != r[j].category
    ensures forall c :: HasStat(CategoryStats(rows), c) <==> HasExpense(rows, c)
  {
    var groups := CategoryGroups(rows);
    var r := CategoryStats(rows);
    assert r == Stats(groups, Grouping.Total(groups));
    forall c
      ensures HasStat(r, c) <==> c in Grouping.Keys(groups)
    {
      if c in Grouping.Keys(groups) {
        var i :| 0 <= i < |groups| && Grouping.Keys(groups)[i] == c;
        assert r[i].category == c;
      }
    }
    forall c
      ensures c in Grouping.Keys(groups) <==> HasExpense(rows, c)
    {
      GroupKeyIsExpenseCategory(rows, c);
    }
  }

  lemma GroupKeyIsExpenseCategory(rows: seq<Row>, c: CategoryCodes.Code)
    ensures c in Grouping.Keys(CategoryGroups(rows)) <==> HasExpense(rows, c)
  {
    var e := ExpenseRows(rows);
    var g := Grouping.GroupBy(e, CodeOf, 0.0, AddAmount);
    assert g == CategoryGroups(rows);
    assert c in Grouping.Keys(g) <==> Grouping.Occurs(e, CodeOf, c);
    if HasExpense(rows, c) {
      ExpenseInExpenseRows(rows, c);
    }
    if Grouping.Occurs(e, CodeOf, c) {
      var k :| 0 <= k < |e| && CodeOf(e[k]) == c;
      ExpenseRowIsExpense(rows, k);
    }
  }

  lemma ExpenseInExpenseRows(rows: seq<Row>, c: CategoryCodes.Code)
    requires HasExpense(rows, c)
    ensures Grouping.Occurs(ExpenseRows(rows), CodeOf, c)
  {
    var e := ExpenseRows(rows);
    var j :| 0 <= j < |rows| && rows[j].kind == Expense && CodeOf(rows[j]) == c;
    assert rows[j] in e;
    var k :| 0 <= k < |e| && e[k] == rows[j];
    assert CodeOf(e[k]) == c;
  }

  lemma ExpenseRowIsExpense(rows: seq<Row>, k: nat)
    requires k < |ExpenseRows(rows)|
    ensures HasExpense(rows, CodeOf(ExpenseRows(rows)[k]))
  {
    var e := ExpenseRows(rows);
    assert e[k] in rows;
    var j :| 0 <= j < |rows| && rows[j] == e[k];
    assert rows[j].kind == Expense;
  }

  /** Each entry's amount is the sum of its category's expense amounts, and
      the shares are `amount / total * 100`, or all 0 when the total is not
      positive; a positive total is the sum of all expenses. */
  lemma CategoryStatsAmounts(rows: seq<Row>, i: nat)
    requires i < |CategoryStats(rows)|
    ensures var s := CategoryStats(rows)[i];
      var total := Seqs.SumBy(ExpenseRows(rows), RowAmount);
      && s.amount == Seqs.SumBy(Grouping.Matching(ExpenseRows(rows), CodeOf, s.category), RowAmount)
      && s.percentage == Share(s.amount, total)
  {
    var groups := CategoryGroups(rows);
    Grouping.GroupByTotal(ExpenseRows(rows), CodeOf, AddAmount, RowAmount);
    var k := groups[i].key;
    Grouping.GroupBySums(ExpenseRows(rows), CodeOf, AddAmount, RowAmount, k);
    Grouping.ValueOfDistinct(groups, i, 0.0);
  }

  function SumPercentages(s: seq<CategoryStat>): real {
    if |s| == 0 then 0.0 else s[0].percentage + SumPercentages(s[1..])
  }

  lemma {:induction false} SharesAddUp(groups: seq<Grouping.Entry<CategoryCodes.Code, real>>, total: real)
    requires total > 0.0
    ensures SumPercentages(Stats(groups, total)) == Grouping.Total(groups) / total * 100.0
  {
    if |groups| > 0 {
      SharesAddUp(groups[1..], total);
      var a, rest := groups[0].value, Grouping.Total(groups[1..]);
      assert Stats(groups, total)[1..] == Stats(groups[1..], total);
      assert a / total * 100.0 + rest / total * 100.0 == (a + rest) / total * 100.0;
    }
  }

  lemma WholeIsHundredPercent(t: real)
    requires t > 0.0
    ensures t / t * 100.0 == 100.0
  {
  }

  /** With a positive total the percentages add up to 100. */
  lemma CategoryPercentagesSumTo100(rows: seq<Row>)
    requires Grouping.Total(CategoryGroups(rows)) > 0.0
    ensures SumPercentages(CategoryStats(rows)) == 100.0
  {
    var groups := CategoryGroups(rows);
    var total := Grouping.Total(groups);
    assert CategoryStats(rows) == Stats(groups, total);
    SharesAddUp(groups, total);
    WholeIsHundredPercent(total);
  }
}

=== FILE: transaction_form.dfy ===
/** The state logic of components/transaction-form.tsx: resetting from the
    initial values, category loads and the `isFirstLoad` flag, the
    name-to-category matcher, the type toggle and the submit guard. Effects
    run one at a time, each as a step on an immutable state. */
module TransactionForm {
  import opened Common
  import opened Ledger
  import CategoryMatch

  /** `TransactionFormValues`; the amount is the text of its input. */
  datatype FormValues = FormValues(
    kind: TxnType,
    description: string,
    amount: string,
    categoryId: string,
    category: string,
    date: string,
    paymentMode: PaymentMode)

  /** The component's state and the `isFirstLoad` ref. */
  datatype FormState = FormState(
    kind: TxnType,
    description: string,
    amount: string,
    categoryId: string,
    date: string,
    paymentMode: PaymentMode,
    categories: seq<Category>,
    firstLoad: bool)

  /** The initial state from `initialValues`. */
  function Open(init: FormValues): (s: FormState)
    ensures s.firstLoad && s.categories == [] && s.categoryId == init.categoryId
  {
    FormState(init.kind, init.description, init.amount, init.categoryId, init.date, init.paymentMode, [], true)
  }

  /** The reset effect (lines 70-78): every field from the initial values
      and the flag raised again; the loaded categories stay. */
  function Reset(s: FormState, init: FormValues): (r: FormState)
    ensures r.firstLoad && r.categories == s.categories
    ensures r.kind == init.kind && r.categoryId == init.categoryId && r.description == init.description
    ensures r.amount == init.amount && r.date == init.date && r.paymentMode == init.paymentMode
  {
    FormState(init.kind, init.description, init.amount, init.categoryId, init.date, init.paymentMode, s.categories, true)
  }

  /** A successful `loadCategories` (lines 97-106): the first load after an
      open or reset keeps the selected category, every later one clears
      it. A failed load changes nothing. */
  function Loaded(s: FormState, data: seq<Category>): (r: FormState)
    ensures !r.firstLoad && r.categories == data
    ensures r.categoryId == (if s.firstLoad then s.categoryId else "")
    ensures r.kind == s.kind && r.description == s.description && r.amount == s.amount
  {
    if s.firstLoad then s.(categories := data, firstLoad := false)
    else s.(categories := data, categoryId := "")
  }

  /** Several loads in a row. */
  function LoadAll(s: FormState, loads: seq<seq<Category>>): FormState
    decreases |loads|
  {
    if |loads| == 0 then s else LoadAll(Loaded(s, loads[0]), loads[1..])
  }

  /** After an open or reset, one load keeps the initial category and any
      further load clears it. */
  lemma {:induction false} OnlyFirstLoadKeepsCategory(s: FormState, init: FormValues, loads: seq<seq<Category>>)
    requires |loads| > 0
    ensures |loads| == 1 ==> LoadAll(Reset(s, init), loads).categoryId == init.categoryId
    ensures |loads| >= 2 ==> LoadAll(Reset(s, init), loads).categoryId == ""
    ensures !LoadAll(Reset(s, init), loads).firstLoad
  {
    var first := Loaded(Reset(s, init), loads[0]);
    assert LoadAll(Reset(s, init), loads) == LoadAll(first, loads[1..]);
    if |loads| >= 2 {
      LaterLoadsClear(first, loads[1..]);
    }
  }

  lemma {:induction false} LaterLoadsClear(s: FormState, loads: seq<seq<Category>>)
    requires !s.firstLoad && |loads| > 0
    ensures LoadAll(s, loads).categoryId == "" && !LoadAll(s, loads).firstLoad
    decreases |loads|
  {
    if |loads| > 1 {
      LaterLoadsClear(Loaded(s, loads[0]), loads[1..]);
    }
  }

  /** The matcher effect (lines 88-95), run with `matchCategoryByName`. */
  function MatchByName(s: FormState, name: string): (r: FormState)
    ensures r.categories == s.categories && r.firstLoad == s.firstLoad && r.kind == s.kind
    ensures s.categoryId != "" ==> r == s
  {
    if name != "" && |s.categories| > 0 && s.categoryId == "" then
      match CategoryMatch.FindByName(s.categories, name)
      case Some(c) => s.(categoryId := c.id)
      case None => s
    else s
  }

  /** The matcher never overwrites a selected category; when it acts, it
      selects the first category whose name matches. */
  lemma MatcherOnlyFillsEmpty(s: FormState, name: string)
    ensures s.categoryId != "" ==> MatchByName(s, name) == s
    ensures name == "" || |s.categories| == 0 ==> MatchByName(s, name) == s
    ensures s.categoryId == "" && name != "" && |s.categories| > 0 ==>
      match CategoryMatch.FindByName(s.categories, name)
      case Some(c) => MatchByName(s, name).categoryId == c.id
      case None => MatchByName(s, name) == s
    ensures s.categoryId == "" && name != "" && MatchByName(s, name).categoryId != "" ==>
      exists i :: 0 <= i < |s.categories| && s.categories[i].id == MatchByName(s, name).categoryId
        && CategoryMatch.NameMatches(s.categories[i], name)
        && forall j :: 0 <= j < i ==> !CategoryMatch.NameMatches(s.categories[j], name)
  {
    CategoryMatch.FindByNameIsFirst(s.categories, name);
  }

  /** The Income and Expense buttons (lines 135-138 and 150-153). */
  function SetType(s: FormState, k: TxnType): (r: FormState)
    ensures r.kind == k && r.categoryId == ""
    ensures r.description == s.description && r.amount == s.amount && r.date == s.date
    ensures r.paymentMode == s.paymentMode && r.categories == s.categories && r.firstLoad == s.firstLoad
  {
    s.(kind := k, categoryId := "")
  }

  /** The name of the loaded category with id `id`, or `""` (lines
      121-122). */
  function SelectedName(cats: seq<Category>, id: string): (r: string)
    ensures r != "" ==> exists i :: 0 <= i < |cats| && cats[i].id == id && cats[i].name == r
    ensures (forall i :: 0 <= i < |cats| ==> cats[i].id != id) ==> r == ""
  {
    if |cats| == 0 then ""
    else if cats[0].id == id then cats[0].name
    else
      var r := SelectedName(cats[1..], id);
      assert r != "" ==> exists i :: 1 <= i < |cats| && cats[i].id == id && cats[i].name == r by {
        if r != "" {
          var i :| 0 <= i < |cats[1..]| && cats[1..][i].id == id && cats[1..][i].name == r;
          assert cats[i + 1] == cats[1..][i];
        }
      }
      r
  }

  /** `handleSubmit`: nothing is submitted unless the description, amount,
      category and date are all filled in. */
  function Submit(s: FormState): (r: Option<FormValues>)
    ensures r.Some? <==> s.description != "" && s.amount != "" && s.categoryId != "" && s.date != ""
    ensures r.Some? ==> (r.value.categoryId == s.categoryId && r.value.kind == s.kind
      && r.value.category == SelectedName(s.categories, s.categoryId))
    ensures r.Some? ==> (r.value.description == s.description && r.value.amount == s.amount
      && r.value.date == s.date && r.value.paymentMode == s.paymentMode)
  {
    if s.description == "" || s.amount == "" || s.categoryId == "" || s.date == "" then None
    else Some(FormValues(s.kind, s.description, s.amount, s.categoryId,
                         SelectedName(s.categories, s.categoryId), s.date, s.paymentMode))
  }

  /** A type click as React runs it: the click (lines 135-138 and 150-153)
      clears the category, and the matcher effect (lines 88-95), which
      depends on `categoryId`, runs at once on the list still loaded for the
      old type. The name is `""` when `matchCategoryByName` is not given;
      the load of the new type's list is still pending. */
  function SwitchType(s: FormState, k: TxnType, name: string): (r: FormState)
    ensures r.kind == k && r.categories == s.categories && r.firstLoad == s.firstLoad
    ensures r.description == s.description && r.amount == s.amount && r.date == s.date
    ensures name == "" ==> r.categoryId == ""
    ensures r.categoryId == "" || exists c :: c in s.categories && c.id == r.categoryId && CategoryMatch.NameMatches(c, name)
  {
    MatchByName(SetType(s, k), name)
  }

  /** Without `matchCategoryByName`, nothing can be submitted after a type
      switch until a category is chosen again. */
  lemma SwitchingTypeBlocksSubmit(s: FormState, k: TxnType)
    ensures Submit(SwitchType(s, k, "")).None?
  {
  }

  /** With `matchCategoryByName`, the matcher refills the category from the
      old type's list: until the new list arrives, the form submits the new
      type with the first old category whose name matches. */
  lemma SwitchWindowKeepsOldCategory(s: FormState, k: TxnType, name: string)
    requires name != "" && CategoryMatch.FindByName(s.categories, name).Some?
    ensures var c := CategoryMatch.FindByName(s.categories, name).value;
      && c in s.categories && SwitchType(s, k, name).categoryId == c.id
      && (c.id != "" && s.description != "" && s.amount != "" && s.date != "" ==>
            && Submit(SwitchType(s, k, name)).Some?
            && Submit(SwitchType(s, k, name)).value.kind == k
            && Submit(SwitchType(s, k, name)).value.categoryId == c.id)
  {
    assert |s.categories| > 0;
    MatcherOnlyFillsEmpty(SetType(s, k), name);
  }

  /** Once the first load is behind it, the new type's load clears the
      refilled category, and the matcher then selects only one of the new
      type's categories. */
  lemma ReloadAfterSwitch(s: FormState, k: TxnType, name: string, data: seq<Category>)
    ensures !s.firstLoad ==> Loaded(SwitchType(s, k, name), data).categoryId == ""
    ensures !s.firstLoad && (forall c :: c in data ==> c.kind == k) ==>
      var r := MatchByName(Loaded(SwitchType(s, k, name), data), name);
      r.kind == k && (r.categoryId == "" || exists c :: c in data && c.id == r.categoryId && c.kind == k)
  {
    MatcherOnlyFillsEmpty(Loaded(SwitchType(s, k, name), data), name);
  }
}

=== FILE: transaction_list.dfy ===
/** The ordering of components/transaction-list.tsx, shared by the
    transactions page: newest date first, and on one date the larger id
    first. The list sorts a copy, so its input keeps its order. */
module TransactionList {
  import opened Ledger
  import Seqs
  import Text

  /** `[...transactions].sort(...)` with the comparator of lines 38-49. */
  function SortedTransactions(ts: seq<Txn>): (r: seq<Txn>)
    ensures |r| == |ts|
    ensures multiset(r) == multiset(ts)
  {
    Seqs.SortBy(ts, NewestFirst)
  }

  /** Dates never increase down the list, and entries of one date run from
      the larger id to the smaller. */
  lemma NewestFirstOrder(ts: seq<Txn>)
    ensures var r := SortedTransactions(ts);
      forall i, j :: 0 <= i < j < |r| ==>
        DateLe(r[j].date, r[i].date) && (r[i].date == r[j].date ==> Text.StrLe(r[j].id, r[i].id))
  {
    NewestFirstIsTotalPreorder();
    Seqs.SortBySorted(ts, NewestFirst);
    var r := SortedTransactions(ts);
    forall i, j | 0 <= i < j < |r|
      ensures DateLe(r[j].date, r[i].date) && (r[i].date == r[j].date ==> Text.StrLe(r[j].id, r[i].id))
    {
      assert NewestFirst(r[i], r[j]);
      DateLeTotalOrder();
    }
  }

  /** A list already in this order is shown as it is; in particular sorting
      the sorted list again changes nothing. */
  lemma SortingIsStable(ts: seq<Txn>)
    ensures Seqs.SortedBy(ts, NewestFirst) ==> SortedTransactions(ts) == ts
    ensures SortedTransactions(SortedTransactions(ts)) == SortedTransactions(ts)
  {
    if Seqs.SortedBy(ts, NewestFirst) {
      Seqs.SortBySortedIsIdentity(ts, NewestFirst);
    }
    NewestFirstIsTotalPreorder();
    Seqs.SortByIdempotent(ts, NewestFirst);
  }
}

=== FILE: transactions_page.dfy ===
/** The filter bar of components/transactions-page.tsx: the filter state and
    its transitions, the multi-criteria filter, the sorted view and the
    footer totals. The clock behind the "today" and "this week" presets is a
    parameter. */
module TransactionsPage {
  import opened Common
  import opened Ledger
  import Seqs
  import TransactionList

  /** `"all" | "income" | "expense"`. */
  datatype TypeFilter = AllTypes | OnlyType(kind: TxnType)

  /** `"all" | "today" | "this-week" | "custom"`. */
  datatype DatePreset = AnyTime | Today | ThisWeek | CustomRange

  /** react-day-picker's `DateRange`: either end may be unset. */
  datatype DateRange = DateRange(from: Option<Date>, to: Option<Date>)

  /** `TransactionFilters`; the category and mode filters hold an id or mode
      key, or the sentinel `"all"`. */
  datatype Filters = Filters(
    kind: TypeFilter,
    categoryId: string,
    paymentMode: string,
    datePreset: DatePreset,
    dateRange: Option<DateRange>)

  const All: string := "all"

  /** `defaultFilters`. */
  const DefaultFilters: Filters := Filters(AllTypes, All, All, AnyTime, None)

  /** What the page reads from the clock: today's date and the Monday and
      Sunday of the current week (`weekStartsOn: 1`). */
  datatype Clock = Clock(today: Date, weekStart: Date, weekEnd: Date)

  /** The date clauses of lines 155-163. A custom range without a start
      does not restrict. */
  predicate InDateWindow(f: Filters, clock: Clock, d: Date) {
    match f.datePreset
    case AnyTime => true
    case Today => d == clock.today
    case ThisWeek => DateLe(clock.weekStart, d) && DateLe(d, clock.weekEnd)
    case CustomRange =>
      if f.dateRange.Some? && f.dateRange.value.from.Some? then
        DateLe(f.dateRange.value.from.value, d)
        && (f.dateRange.value.to.Some? ==> DateLe(d, f.dateRange.value.to.value))
      else true
  }

  /** The `filter` callback of lines 150-166. */
  predicate Keep(f: Filters, clock: Clock, t: Txn) {
    && (f.kind.AllTypes? || t.kind == f.kind.kind)
    && (f.categoryId == All || t.categoryId == f.categoryId)
    && (f.paymentMode == All || t.paymentMode == f.paymentMode)
    && InDateWindow(f, clock, t.date)
  }

  /** `filteredTransactions`: the kept transactions, in loaded order. */
  function FilterTransactions(ts: seq<Txn>, f: Filters, clock: Clock): (r: seq<Txn>)
    ensures Seqs.IsSubseq(r, ts)
    ensures forall t :: t in r <==> t in ts && Keep(f, clock, t)
  {
    Seqs.Filter(ts, (t: Txn) => Keep(f, clock, t))
  }

  /** `sortedTransactions`: the filtered list in the order of the
      transaction list. */
  function SortedView(ts: seq<Txn>, f: Filters, clock: Clock): (r: seq<Txn>)
    ensures multiset(r) == multiset(FilterTransactions(ts, f, clock))
  {
    TransactionList.SortedTransactions(FilterTransactions(ts, f, clock))
  }

  /** A custom range with a start keeps the dates from the start on, up to
      the end when there is one; without a start it keeps every date. */
  lemma CustomRangeWindow(f: Filters, clock: Clock, d: Date)
    requires f.datePreset == CustomRange
    ensures f.dateRange.None? || f.dateRange.value.from.None? ==> InDateWindow(f, clock, d)
    ensures f.dateRange.Some? && f.dateRange.value.from.Some? && f.dateRange.value.to.None? ==>
      (InDateWindow(f, clock, d) <==> DateLe(f.dateRange.value.from.value, d))
    ensures f.dateRange.Some? && f.dateRange.value.from.Some? && f.dateRange.value.to.Some? ==>
      (InDateWindow(f, clock, d) <==>
        DateLe(f.dateRange.value.from.value, d) && DateLe(d, f.dateRange.value.to.value))
  {
  }

  /** The footer of lines 180-186. */
  datatype Footer = Footer(totalIncome: real, totalExpense: real, netTotal: real)

  function FooterOf(shown: seq<Txn>): (r: Footer)
    ensures r.netTotal == r.totalIncome - r.totalExpense
  {
    var income := TotalOf(shown, Income);
    var expense := TotalOf(shown, Expense);
    Footer(income, expense, income - expense)
  }

  /** The footer totals are those of the filtered transactions: sorting
      them changes nothing. */
  lemma FooterCountsFiltered(ts: seq<Txn>, f: Filters, clock: Clock)
    ensures var r := FooterOf(SortedView(ts, f, clock));
      var kept := FilterTransactions(ts, f, clock);
      r.totalIncome == TotalOf(kept, Income) && r.totalExpense == TotalOf(kept, Expense)
  {
    var kept := FilterTransactions(ts, f, clock);
    TotalOfPermutation(SortedView(ts, f, clock), kept, Income);
    TotalOfPermutation(SortedView(ts, f, clock), kept, Expense);
  }

  /** `hasActiveFilters`: a date range alone does not count. */
  predicate HasActiveFilters(f: Filters) {
    f.kind != AllTypes || f.categoryId != All || f.paymentMode != All || f.datePreset != AnyTime
  }

  /** The filter bar is active exactly when some filter other than the date
      range differs from its default. */
  lemma ActiveIffNotDefault(f: Filters)
    ensures HasActiveFilters(f) <==> f.(dateRange := None) != DefaultFilters
    ensures !HasActiveFilters(DefaultFilters)
  {
  }

  /** With no active filter every loaded transaction is shown, whatever the
      date range holds. */
  lemma InactiveFiltersShowAll(ts: seq<Txn>, f: Filters, clock: Clock)
    requires !HasActiveFilters(f)
    ensures FilterTransactions(ts, f, clock) == ts
  {
    Seqs.FilterKeepsAll(ts, (t: Txn) => Keep(f, clock, t));
  }

  // -------------------------------------------------------------------
  // Transitions

  /** The type tabs (lines 249-254): a new type resets the category. */
  function SetType(f: Filters, v: TypeFilter): (r: Filters)
    ensures r.kind == v && r.categoryId == All
    ensures r.paymentMode == f.paymentMode && r.datePreset == f.datePreset && r.dateRange == f.dateRange
  {
    f.(kind := v, categoryId := All)
  }

  /** The category select (line 268). */
  function SetCategory(f: Filters, id: string): (r: Filters)
    ensures r.categoryId == id
    ensures r.kind == f.kind && r.paymentMode == f.paymentMode && r.datePreset == f.datePreset && r.dateRange == f.dateRange
  {
    f.(categoryId := id)
  }

  /** The payment-mode select (line 288). */
  function SetPaymentMode(f: Filters, mode: string): (r: Filters)
    ensures r.paymentMode == mode
    ensures r.kind == f.kind && r.categoryId == f.categoryId && r.datePreset == f.datePreset && r.dateRange == f.dateRange
  {
    f.(paymentMode := mode)
  }

  /** The calendar of the custom range (line 331). */
  function SetDateRange(f: Filters, range: Option<DateRange>): (r: Filters)
    ensures r.dateRange == range
    ensures r.kind == f.kind && r.categoryId == f.categoryId && r.paymentMode == f.paymentMode && r.datePreset == f.datePreset
  {
    f.(dateRange := range)
  }

  /** `handleDatePresetChange`: the range survives only a switch to
      "custom". */
  function SetDatePreset(f: Filters, p: DatePreset): (r: Filters)
    ensures r.datePreset == p
    ensures r.dateRange == (if p == CustomRange then f.dateRange else None)
    ensures r.kind == f.kind && r.categoryId == f.categoryId && r.paymentMode == f.paymentMode
  {
    f.(datePreset := p, dateRange := if p == CustomRange then f.dateRange else None)
  }

  /** `clearAllFilters`. */
  function ClearAll(f: Filters): (r: Filters)
    ensures !HasActiveFilters(r)
    ensures r.kind == AllTypes && r.categoryId == All && r.paymentMode == All && r.datePreset == AnyTime
    ensures r.dateRange.None?
  {
    DefaultFilters
  }

  /** After clearing, every transaction is shown; after picking a type, only
      transactions of that type are, from every category. */
  lemma TransitionEffects(ts: seq<Txn>, f: Filters, clock: Clock, k: TxnType)
    ensures FilterTransactions(ts, ClearAll(f), clock) == ts
    ensures forall t :: t in FilterTransactions(ts, SetType(f, OnlyType(k)), clock) ==> t.kind == k
    ensures forall t :: (t in ts && t.kind == k && Keep(f.(kind := AllTypes, categoryId := All), clock, t)
      ==> t in FilterTransactions(ts, SetType(f, OnlyType(k)), clock))
  {
    InactiveFiltersShowAll(ts, ClearAll(f), clock);
  }

  /** Choosing a range or a category never makes the filter bar inactive,
      and a range alone never makes it active. */
  lemma ActivityOfSetters(f: Filters, range: Option<DateRange>, id: string, mode: string)
    ensures HasActiveFilters(SetDateRange(f, range)) == HasActiveFilters(f)
    ensures id != All ==> HasActiveFilters(SetCategory(f, id))
    ensures mode != All ==> HasActiveFilters(SetPaymentMode(f, mode))
    ensures HasActiveFilters(SetDatePreset(f, CustomRange))
  {
  }

  /** `filteredCategories`: every category for "all", else those of the
      selected type. */
  function CategoryOptions(cats: seq<Category>, v: TypeFilter): (r: seq<Category>)
    ensures Seqs.IsSubseq(r, cats)
    ensures forall c :: c in r <==> c in cats && (v.AllTypes? || c.kind == v.kind)
  {
    match v
    case AllTypes => IsSubseqRefl(cats); cats
    case OnlyType(k) => Seqs.Filter(cats, (c: Category) => c.kind == k)
  }

  lemma {:induction false} IsSubseqRefl<T>(s: seq<T>)
    ensures Seqs.IsSubseq(s, s)
  {
    if |s| > 0 {
      IsSubseqRefl(s[1..]);
    }
  }
}
